=== FILE: README.md ===
# Supply-chain dataset generator and dashboards — a Dafny model

This project models the part of the supply-chain database project that enforces rules,
and proves those rules hold. The core is the data generator `setuo/create_data10.py`:

- It creates 60 companies: 36 Manufacturers, 8 Retailers and 16 Distributors, each with a tier.
- It puts the companies in a topological order that is random within each tier.
- It creates 50 products, each with up to three manufacturers that the product's category allows.
- It runs 300 inventory transactions, charging each shipment against factory capacity and
  keeping an inventory ledger.
- It creates 100 disruption events, each hitting 5 to 20 companies.
- It builds the DependsOn graph along the topological rank.
- It builds the OperatesLogistics routes from lower to higher tiers.

Beside the generator, the model covers five small pieces of page logic:

- the criticality scoring of `erp/critical_companies.php`;
- the period bucketing of `erp/timeline.php`;
- the related-company list and form handling of `scm_transaction_costs.php`;
- the two key-sequence listeners `assets/app.js` and `js/easter-egg.js`.

Modules:

- `Draws` (draws.dfy) holds the random stream: class `Oracle` over an arbitrary sequence of
  naturals. It provides `randint`, `choice`, weighted `choices`, `sample` and `shuffle`, and
  every contract holds whatever the stream is.
- `Companies`: the company loop, `assign_tier`, the tier lists, the topological order and
  `company_rank`.
- `Products`: categories and eligible manufacturers.
- `Ledgers`: `used_capacity` and `inventory` as classes whose methods update them in place,
  plus the two clamps.
- `Transactions`: the transaction loop.
- `Disruptions`: events and impacts.
- `DependsOn`: the dependency graph.
- `Logistics`: the routes.
- `Generator`: the stages chained in script order over one stream, with the two ways the script
  stops early:
  - `random.choice` on an empty list raises an IndexError;
  - if no shipment ran, `distributors` is undefined and the script raises a NameError.
- `Criticality`, `Timeline`, `TransactionCosts`, `SecretCode`, `Konami`: the pages and scripts.

Where the script's comments and its code disagree, the model follows the code:

- The comment at setuo/create_data10.py:220 says the quantity must not exceed the capacity.
- The code clamps an oversized draw to `max(1, capacity - used)`.
- So an exhausted factory keeps shipping one unit per shipment, and its usage passes capacity
  by one each time.
- `Ledgers.UsageCreepsByOne` and `Ledgers.ExhaustedFactoryStillShips` state this.
- The script's own comment says the quantity is "always at least 1", so the model treats this as
  intended rather than as a finding.

The logistics loop tests `frm != to`. That test can never fail, because the two ends come from
different tier lists. `Logistics.RouteFromTiers` shows the ends differ regardless.

## Model

| member | source | states |
|---|---|---|
| Draws.Oracle.RandInt | setuo/create_data10.py:121 | the draw lies in `[lo, hi]` and consumes one element of the stream |
| Draws.Oracle.Choice | setuo/create_data10.py:216 | the pick is an element of the non-empty list |
| Draws.Oracle.WeightedIndex | setuo/create_data10.py:109 | the index has positive weight, and the draw falls in that index's cumulative-weight interval |
| Draws.Oracle.Sample | setuo/create_data10.py:185 | `k` items, a sub-multiset of the population, distinct and drawn from it when the population is distinct |
| Draws.Oracle.Shuffle | setuo/create_data10.py:148-150 | the result is a permutation of the input |
| Draws.SubMultisetDistinct | setuo/create_data10.py:185 | a selection without replacement from distinct items is distinct and drawn from them |
| Companies.CompanyBlocks | setuo/create_data10.py:116-131 | ids 1–36 are Manufacturers, 37–44 tier-1 Retailers, 45–60 tier-3 Distributors; every tier is 1–3 and `cs[id-1]` has that id |
| Companies.IdsWhereOfCompanies | setuo/create_data10.py:175-181 | an id-list comprehension over the companies lists distinct ids, exactly the ids of the companies that pass the test |
| Companies.AssignTier | setuo/create_data10.py:107-113 | Retailers get tier 1 and Distributors tier 3; a Manufacturer gets tier 1, 2 or 3 as its draw modulo 120 falls below 20, in 20–54 or at 55 and above (weights 20 : 35 : 65) |
| Companies.GenerateCompanies | setuo/create_data10.py:116-139 | ids 1–60 in order, typed by id block, with fitting tiers and LocationIDs 1–137; capacity keys are exactly 1–36 with values 500–5000 |
| Companies.GroupByTier | setuo/create_data10.py:144-146 | given companies whose tiers all lie in 1–3 (a tier outside would raise KeyError), keys 1–3, and each tier's list holds that tier's companies in company order |
| Companies.TiersPartition | setuo/create_data10.py:144-146 | the three tier lists together are a permutation of the companies |
| Companies.AppendTierBlock | setuo/create_data10.py:148-150 | appending a shuffled tier block keeps the order tier-sorted and adds exactly that tier |
| Companies.TopoOrder | setuo/create_data10.py:144-152 | the order is a tier-sorted permutation of the 60 companies, and `rank` maps each id to its position and back |
| Companies.RankFacts | setuo/create_data10.py:152 | `company_rank` has keys 1–60 and is the inverse of the order |
| Companies.RankFollowsTiers | setuo/create_data10.py:144-152 | a lower tier means a lower rank, and different companies have different ranks |
| Products.EligibleIdsOfCompanies | setuo/create_data10.py:174-181 | the eligible ids are distinct Manufacturer ids (≤ 36) that satisfy the category's tier rule, and every such company is listed |
| Products.SelectManufacturers | setuo/create_data10.py:183-186 | the list is distinct and eligible, has 1–3 entries when any manufacturer is eligible, and never more than are eligible |
| Products.GenerateProducts | setuo/create_data10.py:165-186 | ProductIDs 1–50 each get a category and a manufacturer list that satisfies its rule |
| Products.ListSizeIsClampedDraw | setuo/create_data10.py:184 | each list length is `min(len(eligible), k)` for some `k` in 1–3 |
| Ledgers.AllocationBounds | setuo/create_data10.py:221-224 | the clamped quantity is 1..draw; it is `min(draw, available)` while capacity is left, and 1 when none is |
| Ledgers.UsageCreepsByOne | setuo/create_data10.py:222-225 | usage grows with every shipment, to at most `max(capacity, used + 1)` |
| Ledgers.ClampToCapacity | setuo/create_data10.py:223-224 | capacity 500 and no usage: a draw of 600 ships 500 |
| Ledgers.ExhaustedFactoryStillShips | setuo/create_data10.py:224 | capacity 500 and usage 500: a draw of 10 ships 1, and usage becomes 501 |
| Ledgers.AdjustmentNeverNegative | setuo/create_data10.py:272-274 | a change that would make stock negative becomes minus the stock; otherwise it is kept; stock stays ≥ 0 |
| Ledgers.CapacityLedger.constructor | setuo/create_data10.py:205 | usage starts at 0 for every manufacturer with a capacity |
| Ledgers.CapacityLedger.Allocate | setuo/create_data10.py:221-225 | returns the clamped quantity (≥ 1) and charges exactly it to the source, and to no other |
| Ledgers.InventoryLedger.constructor | setuo/create_data10.py:204 | every (company, product) reads 0 |
| Ledgers.InventoryLedger.Add | setuo/create_data10.py:257-259 | only entry (c, p) changes, by `delta`; stock stays non-negative when the new value is |
| Transactions.NumberedIdsUnique | setuo/create_data10.py:207-286 | TransactionIDs run from 1 up and never overlap; a shipment takes two |
| Transactions.NumberedShipmentIdsIncrease | setuo/create_data10.py:202-261 | ShipmentIDs run from 1 up to the number of shipments and strictly increase |
| Transactions.DestNeverDistributor | setuo/create_data10.py:228-234 | a shipment never goes to a Distributor, to its own source, or up the tiers |
| Transactions.DestinationsExist | setuo/create_data10.py:229-235 | a tier-1 or tier-3 manufacturer always has a possible destination |
| Transactions.TierTwoSourceCanBeStranded | setuo/create_data10.py:231-235 | a well-formed company list exists where a tier-2 manufacturer has no possible destination, so `random.choice` raises |
| Transactions.DistributorIdsOfCompanies | setuo/create_data10.py:237 | `distributors` is non-empty and lists exactly the Distributor ids |
| Transactions.UsageStep | setuo/create_data10.py:225 | charging a shipment keeps `used_capacity` equal to the quantity the records shipped from each manufacturer |
| Transactions.PickDestination | setuo/create_data10.py:228-235 | returns an allowed destination, or raises exactly when `possible_dest` is empty |
| Transactions.PickDistributor | setuo/create_data10.py:237-238 | the shipment's distributor is a Distributor id |
| Transactions.PickDates | setuo/create_data10.py:239-241 | promised is 1–30 days after a day in range, and actual is 0–5 days after promised |
| Transactions.Charge | setuo/create_data10.py:214-225 | the product is 1–50. The branch fails (the IndexError) exactly when that product has no manufacturer, and usage is then unchanged. Otherwise the source is one of its manufacturers and the quantity is the draw in 10–500 clamped by `Allocated` against what the source had left. Usage grows by exactly that quantity |
| Transactions.StrandedIsTierTwo | setuo/create_data10.py:228-235 | a manufacturer with no possible destination is a tier-2 Manufacturer |
| Transactions.ShipOnce | setuo/create_data10.py:211-263 | raises the IndexError exactly when the drawn product has no manufacturer or the drawn source has no possible destination; in the second case the source is a tier-2 Manufacturer. Otherwise it returns a valid Shipping record for that product and source with the next ids, and usage and stock still equal what the records imply |
| Transactions.Receive | setuo/create_data10.py:256-259 | the record's change lands on its company and product, keeping stock equal to the records and non-negative |
| Transactions.AdjustOnce | setuo/create_data10.py:265-286 | a valid Adjustment with the next id. Its change is the draw in −50..50 clamped by `Clamped` against the stock before, so stock never goes negative. The ledgers track the records |
| Transactions.RunTransactions | setuo/create_data10.py:207-286 | all records valid and consecutively numbered; the loop stops at TransactionID 301 or 302; usage and stock equal what the records imply, stock ≥ 0; `distributors` is defined iff a shipment ran. It raises only the IndexError, and only when some product has no manufacturer or some product lists a tier-2 Manufacturer with no possible destination |
| Disruptions.DistinctCompaniesDistinctIds | setuo/create_data10.py:314 | a sample of distinct companies has distinct ids |
| Disruptions.DrawImpact | setuo/create_data10.py:315 | Low, Medium or High exactly when the draw mod 100 is below 70, 70–94, or 95 and above |
| Disruptions.GenerateHits | setuo/create_data10.py:314-316 | 5–20 impacts on distinct companies with ids 1–60 |
| Disruptions.GenerateDisruptions | setuo/create_data10.py:308-316 | 100 events numbered 1–100, categories 1–13, start −365..2190, recovery 1–30 days after start |
| DependsOn.CandidatesExist | setuo/create_data10.py:323-325 | every tier-2 or tier-3 company has a candidate (company 37), so the `if` is always taken |
| DependsOn.CandidatesBelow | setuo/create_data10.py:324 | candidates are distinct ids ranked below the company |
| DependsOn.LinkCompany | setuo/create_data10.py:325-327 | appends 1–3 distinct edges from candidates into the company, never more than there are candidates |
| DependsOn.BuildDependsOn | setuo/create_data10.py:321-327 | every edge climbs the rank; tier-1 companies have no upstreams; each other company has 1–3 distinct candidate upstreams |
| DependsOn.PathClimbs | setuo/create_data10.py:321-327 | along any DependsOn walk, rank strictly increases from start to end |
| DependsOn.NoCycle | setuo/create_data10.py:319-327 | no DependsOn walk returns to its start: the graph is acyclic |
| Logistics.GroupNonDistributors | setuo/create_data10.py:334-337 | a tier is a key iff it has non-Distributors, and its list holds exactly their ids in company order |
| Logistics.TierIdsOfCompanies | setuo/create_data10.py:334-337 | a tier list holds exactly the non-Distributor ids of that tier |
| Logistics.PickPair | setuo/create_data10.py:354-363 | if found, the pair has ends from the two lists, different and not yet used, and is recorded; otherwise the used set is unchanged |
| Logistics.RouteFromTiers | setuo/create_data10.py:346-357 | ends drawn from a tier-1/2 list and a higher tier list form a valid route with different ends |
| Logistics.AddRoute | setuo/create_data10.py:358-359 | adding an unused pair keeps the distributor's pairs unique |
| Logistics.RoutesFor | setuo/create_data10.py:340-369 | at most 4 routes per distributor, all valid, no pair twice |
| Logistics.PairsUniqueAppend | setuo/create_data10.py:340-342 | routes of different distributors never clash, so uniqueness per distributor holds across the list |
| Logistics.BuildLogistics | setuo/create_data10.py:334-369 | every route belongs to a listed distributor, is valid and unique within its distributor, and `RoutesOf(routes, d)` holds at most 4 routes for every distributor `d` (one `randint(1, 4)` per distributor) |
| Logistics.WalkClimbsTiers | setuo/create_data10.py:346-347 | each step of a route walk goes up at least one tier |
| Logistics.NoRouteCycle | setuo/create_data10.py:346-347 | no route walk returns to its start, and none has more than three stops |
| Generator.TopoRankOk | setuo/create_data10.py:144-152 | the ranks of the topological order are complete and tier-monotone, as the DependsOn builder needs |
| Generator.Generate | setuo/create_data10.py:93-369 | stops with the IndexError exactly when the transaction loop raised, which needs an empty manufacturer list or a stranded tier-2 Manufacturer. Stops with the NameError exactly when the loop finished without a shipment. Otherwise every table satisfies its rules together and a shipment ran |
| Criticality.ScoreOf | erp/critical_companies.php:73 | the score keeps the counts and is at least each count plus one (so ≥ 1) |
| Criticality.KeptExactly | erp/critical_companies.php:55-98 | the kept entries are exactly the scores of the fetched rows that pass both filters |
| Criticality.ScoreCompanies | erp/critical_companies.php:55-98 | the loop builds the kept, filtered entries in fetch order |
| Criticality.SortByScore | erp/critical_companies.php:100-103 | a permutation with scores non-increasing |
| Criticality.SortByScoreStable | erp/critical_companies.php:100-103 | the sort is stable: the entries of each score keep their fetch order, as PHP 8's `usort` does |
| Criticality.CountsWithinTotal | erp/critical_companies.php:112-118 | critical plus high-risk is at most the total; if all are critical, every score is ≥ 10 |
| Criticality.Summarize | erp/critical_companies.php:106-121 | total, both counters and the score sum are those of the list; the top list is its first ten |
| Criticality.Analyze | erp/critical_companies.php:55-121 | the report is exactly `SortByScore` of the filtered rows: a non-increasing permutation in which equal scores keep fetch order (so ties decide the top ten as the stable `usort` does), with consistent counters, the score total and a top-ten prefix |
| Timeline.QuarterOf | erp/timeline.php:76-77 | the quarter is 1–4 and contains the month |
| Timeline.DigitsOrder | erp/timeline.php:72 | zero-padded numbers of the same width compare as strings as they do as numbers |
| Timeline.KeyOrderIsChronological | erp/timeline.php:71-84 | keys compare in string order as their periods do in time, and are equal iff the periods are |
| Timeline.KeyDeterminesLabel | erp/timeline.php:71-84 | two dates with the same key get the same label |
| Timeline.Tag | erp/timeline.php:67-84 | each event gets its key and label, in order |
| Timeline.TagConsistent | erp/timeline.php:87-93 | within one grouping, a key always has the same label |
| Timeline.PlaceEvent | erp/timeline.php:86-97 | after one event, the buckets are exactly those of the events so far |
| Timeline.Bucketize | erp/timeline.php:64-98 | one bucket per key that occurs, holding exactly that key's events in order, with their count and label |
| Timeline.EveryEventBucketed | erp/timeline.php:86-97 | every event is in the bucket of its own key |
| Timeline.BucketIsOnePeriod | erp/timeline.php:86-97 | every event of a bucket has the bucket's key and label |
| Timeline.SortKeys | erp/timeline.php:101 | `ksort` gives a permutation of the keys in ascending string order |
| Timeline.SortedIsChronological | erp/timeline.php:100-101 | after `ksort` the buckets are in strictly increasing calendar order |
| Timeline.TotalCountPermuted | erp/timeline.php:101-104 | reordering the buckets does not change the event total |
| Timeline.Peak | erp/timeline.php:108-116 | the peak count is the largest bucket count; 'N/A' with 0 when there are none, otherwise the first bucket with that count and its label |
| Timeline.Analyze | erp/timeline.php:64-116 | the buckets are chronological and hold every event; the totals are right; the peak is the largest, and 'N/A' iff there are no events |
| TransactionCosts.Merged | scm_transaction_costs.php:43-69 | the direction selects destinations, sources, both in that order, or nothing |
| TransactionCosts.KeepFirstIds | scm_transaction_costs.php:71-79 | de-duplication keeps exactly the CompanyIDs of the input |
| TransactionCosts.KeepFirstDistinct | scm_transaction_costs.php:71-79 | no two kept rows share a CompanyID |
| TransactionCosts.KeptAtPositions | scm_transaction_costs.php:71-79 | the kept rows are a subsequence of the input at increasing positions |
| TransactionCosts.PositionsAreFirstOccurrences | scm_transaction_costs.php:71-79 | a row is kept iff it is the first with its CompanyID |
| TransactionCosts.DedupStep | scm_transaction_costs.php:74-79 | `in_array($id, $seenIds)` holds iff the id occurred earlier |
| TransactionCosts.RemoveDuplicates | scm_transaction_costs.php:72-81 | the loop returns the first occurrence of each CompanyID, in order |
| TransactionCosts.GetRelatedCompanies | scm_transaction_costs.php:42-82 | distinct CompanyIDs, exactly those of the merged queries, first occurrence kept |
| TransactionCosts.TrimStart | scm_transaction_costs.php:164 | what is dropped from the front is all whitespace, and what is left does not start with any |
| TransactionCosts.TrimEnd | scm_transaction_costs.php:164 | what is dropped from the end is all whitespace, and what is left does not end with any |
| TransactionCosts.DigitRun | scm_transaction_costs.php:164 | the run is all digits and is followed by a non-digit or the end |
| TransactionCosts.LooselyEqualReflexiveSymmetric | scm_transaction_costs.php:164 | PHP 8's `==` on two strings is reflexive and symmetric |
| TransactionCosts.CompareNumeric | scm_transaction_costs.php:164 | two numeric strings are equal iff the numbers they denote are |
| TransactionCosts.DigitStringIsNumeric | scm_transaction_costs.php:164 | a digit string is numeric, with its decimal value |
| TransactionCosts.DigitStringsCompareByValue | scm_transaction_costs.php:164 | two digit strings are equal iff their values are |
| TransactionCosts.LeadingSpaceIgnored | scm_transaction_costs.php:164 | a whitespace character in front changes neither whether a string is numeric nor its value |
| TransactionCosts.TrailingSpaceIgnored | scm_transaction_costs.php:164 | a whitespace character at the end changes neither whether a string is numeric nor its value |
| TransactionCosts.SpaceAroundNumberIgnored | scm_transaction_costs.php:164 | a digit string equals itself with whitespace before or after it (" 1" and "1 " equal "1") |
| TransactionCosts.PointZeroIgnored | scm_transaction_costs.php:164 | digits equal the same digits followed by ".0" ("1.0" equals "1") |
| TransactionCosts.ExponentZeroIgnored | scm_transaction_costs.php:164 | digits equal the same digits followed by "e0" ("1e0" equals "1") |
| TransactionCosts.PlusSignIgnored | scm_transaction_costs.php:164 | digits equal the same digits with a `+` in front |
| TransactionCosts.NegativesCompareByValue | scm_transaction_costs.php:164 | two negative digit strings are equal iff their digits have the same value ("-01" equals "-1") |
| TransactionCosts.MinusSignMatters | scm_transaction_costs.php:164 | digits equal the same digits with a `-` in front iff their value is zero |
| TransactionCosts.LetterMakesNonNumeric | scm_transaction_costs.php:164 | "1a" is not numeric, so it does not equal "1" |
| TransactionCosts.LeadingZeroIsSameCompany | scm_transaction_costs.php:164 | PHP's loose `==` treats "1" and "01" as the same company |
| TransactionCosts.HandleCostForm | scm_transaction_costs.php:157-177 | the queries run iff it is a POST with all four fields filled and the two ids not loosely equal. Then: loosely equal ids give the same-company message; a missing field gives the missing-fields message; a query without a row gives the no-transactions message. There is no message iff the request is not this form or the query found a row |
| SecretCode.Step | assets/app.js:16-34 | the index stays below 7; a redirect happens only on the code's last key at index 6 |
| SecretCode.KeySequenceWatcher.constructor | assets/app.js:3 | the index starts at 0 |
| SecretCode.KeySequenceWatcher.KeyDown | assets/app.js:16-35 | the state follows `Step`; a redirect means the last seven keys typed are the code |
| SecretCode.StepKeepsMatched | assets/app.js:18-33 | the index always counts keys just typed that match the start of the code |
| SecretCode.RedirectIsSound | assets/app.js:18-29 | every redirect is preceded by the whole code |
| SecretCode.ExtraUpMissesCode | assets/app.js:33 | Up Up Up Down Down Left Right 1 ends with the code but does not redirect |
| SecretCode.CodeRedirects | assets/app.js:6-25 | typing the code from a fresh start redirects |
| Konami.SliceLast | js/easter-egg.js:6 | the last `min(len, n)` keys, in order |
| Konami.KonamiListener.constructor | js/easter-egg.js:1 | no keys yet |
| Konami.KonamiListener.KeyDown | js/easter-egg.js:4-11 | push, keep the last ten, and fire iff the joined window equals the joined code |
| Konami.WindowSlides | js/easter-egg.js:5-6 | trimming after every push equals trimming the whole history |
| Konami.WindowIsRecentKeys | js/easter-egg.js:5-6 | the window is the last `min(presses, 10)` keys |
| Konami.JoinInjective | js/easter-egg.js:8 | for comma-free names, equal joined strings mean equal key lists |
| Konami.ActivationIffKonami | js/easter-egg.js:2-10 | for comma-free names, it fires iff the last ten keys are the Konami code; never before ten presses |

## Left out

- File output and SQL text: every `f.write`, the INSERT statements, quoting (`safe_str`) and the
  Location, SuppliesProduct, DisruptionCategory and FinancialReport rows. The model keeps the
  values the rows carry.
- Faker company names and sentences, and the location catalog with its shuffle. A company's
  LocationID is modelled as a draw in 1–137.
- Python's Mersenne Twister. `Draws.Oracle` reads an arbitrary stream, so the properties hold for
  every seed, but the model does not reproduce the seed-332 output.
  - `random.choices` is modelled as a draw modulo the weight total, not a float comparison.
  - `random.sample` and `random.shuffle` follow the same pick-and-remove and Fisher–Yates shapes,
    not Python's exact index arithmetic.
- Draws the script spends on float stages are not taken from the stream: the SuppliesProduct
  prices and the FinancialReport scores (`uniform`, `choice` of trend, `randint` of base).
- Dates are day numbers from 2020-01-01 (0 to 2190), not `datetime.date` values. The disruption
  start may precede day 0.
- Criticality: the database queries and the JSON/HTML output. `intval` of a filter parameter
  is supplied with the parameter. The average (`round(.../..., 1)`) is floating point and is
  left out.
- Timeline: the queries, `strtotime`, the category chart and the average per period (floating
  point). Dates are taken as valid MySQL DATE values (years 1000–9999).
- Transaction costs: the SQL of the two queries, including `DISTINCT` and `ORDER BY`, which are
  taken as given rows. `getTransactionCosts` and `getProductBreakdown` are outside this model;
  the model keeps only whether the cost query returned a row.
- SecretCode.KeySequenceWatcher.KeyDown: navigation to snake.php is a returned flag.
- Konami.KonamiListener.KeyDown: the `alert` is a returned flag.
- TransactionCosts.HandleCostForm: PHP 8 numeric strings are compared as exact decimals.
  PHP compares strings with a point or an exponent, and integers beyond 64 bits, as doubles.
  So two such strings that differ only beyond double precision are equal in PHP but not in
  the model.
- Konami.ActivationIffKonami: states activation only for key names without commas. For names
  with commas, the joined-string comparison can equal the code without the keys being the
  code.

=== FILE: companies.dfy ===
/** setuo/create_data10.py, companies and their topological rank: 60 companies (ids 1 to 36
    Manufacturers, 37 to 44 Retailers, 45 to 60 Distributors), a tier for each, a factory
    capacity for each Manufacturer, and a rank that orders all tier-1 companies before all
    tier-2 companies before all tier-3 companies. */
module Companies {
  import opened Draws

  const NumCompanies := 60
  const NumManufacturers := 36
  const NumRetailers := 8
  const NumDistributors := 16
  /** The number of cities in the location catalog; LocationIDs run from 1 to this. */
  const NumLocations := 137

  /** `get_random_date(2020, 2025)` adds `randrange(2191)` days to 2020-01-01; days are counted
      from that date. */
  const NumDays := 2191

  /** What a generator stage gives back: its value, or the exception Python raises. */
  datatype Result<T> = Ok(value: T) | Raised(error: string)

  datatype CompanyType = Manufacturer | Retailer | Distributor

  /** An entry of `companies`, with the LocationID written beside it. */
  datatype Company = Company(id: int, ctype: CompanyType, tier: int, locationId: int)

  /** The type the id loop gives company `i`. */
  function TypeOf(i: int): CompanyType
  {
    if i <= NumManufacturers then Manufacturer
    else if i <= NumManufacturers + NumRetailers then Retailer
    else Distributor
  }

  /** Retailers are tier 1, Distributors tier 3, Manufacturers tier 1, 2 or 3. */
  predicate TierFits(ctype: CompanyType, tier: int)
  {
    match ctype
    case Manufacturer => 1 <= tier <= 3
    case Retailer => tier == 1
    case Distributor => tier == 3
  }

  predicate CompanyOk(c: Company, id: int)
  {
    c.id == id && c.ctype == TypeOf(id) && TierFits(c.ctype, c.tier) && 1 <= c.locationId <= NumLocations
  }

  /** The list the company loop builds: ids 1 to 60 in order, each typed by its id. */
  predicate WellFormed(cs: seq<Company>)
  {
    |cs| == NumCompanies && forall j :: 0 <= j < |cs| ==> CompanyOk(cs[j], j + 1)
  }

  /** The three blocks of ids: the company loop types 36 Manufacturers, 8 Retailers and
      16 Distributors, and every company's tier fits its type. */
  lemma CompanyBlocks(cs: seq<Company>)
    requires WellFormed(cs)
    ensures forall c :: c in cs ==> 1 <= c.id <= NumCompanies && cs[c.id - 1] == c && 1 <= c.tier <= 3
    ensures forall c :: c in cs ==> (c.ctype == Manufacturer <==> c.id <= 36)
    ensures forall c :: c in cs ==> (c.ctype == Retailer <==> 37 <= c.id <= 44) && (c.ctype == Retailer ==> c.tier == 1)
    ensures forall c :: c in cs ==> (c.ctype == Distributor <==> 45 <= c.id) && (c.ctype == Distributor ==> c.tier == 3)
  {
    forall c | c in cs ensures 1 <= c.id <= NumCompanies && cs[c.id - 1] == c {
      var j :| 0 <= j < |cs| && cs[j] == c;
      assert CompanyOk(cs[j], j + 1);
    }
  }

  lemma IdsIncreasing(cs: seq<Company>)
    requires WellFormed(cs)
    ensures forall i, j :: 0 <= i < j < |cs| ==> cs[i].id < cs[j].id
  {
    forall i, j | 0 <= i < j < |cs| ensures cs[i].id < cs[j].id {
      assert CompanyOk(cs[i], i + 1) && CompanyOk(cs[j], j + 1);
    }
  }

  /** `[c['id'] for c in companies if keep(c)]`. */
  function IdsWhere(cs: seq<Company>, keep: Company -> bool): seq<int>
  {
    if cs == [] then []
    else IdsWhere(cs[..|cs| - 1], keep) + if keep(cs[|cs| - 1]) then [cs[|cs| - 1].id] else []
  }

  lemma IdsWhereStep(cs: seq<Company>, c: Company, keep: Company -> bool)
    ensures IdsWhere(cs + [c], keep) == IdsWhere(cs, keep) + if keep(c) then [c.id] else []
  {
    assert (cs + [c])[..|cs|] == cs;
  }

  /** An id is listed exactly when a kept company carries it. */
  lemma {:induction false} IdsWhereExactly(cs: seq<Company>, keep: Company -> bool)
    ensures forall i :: 0 <= i < |cs| && keep(cs[i]) ==> cs[i].id in IdsWhere(cs, keep)
    ensures forall id :: id in IdsWhere(cs, keep) ==> exists i :: 0 <= i < |cs| && cs[i].id == id && keep(cs[i])
    ensures |IdsWhere(cs, keep)| <= |cs|
  {
    if cs != [] {
      var init := cs[..|cs| - 1];
      IdsWhereExactly(init, keep);
      forall id | id in IdsWhere(cs, keep)
        ensures exists i :: 0 <= i < |cs| && cs[i].id == id && keep(cs[i])
      {
        if id in IdsWhere(init, keep) {
          var i :| 0 <= i < |init| && init[i].id == id && keep(init[i]);
          assert cs[i] == init[i];
        } else {
          assert cs[|cs| - 1].id == id;
        }
      }
    }
  }

  lemma {:induction false} IdsWhereNone(cs: seq<Company>, keep: Company -> bool)
    requires forall i :: 0 <= i < |cs| ==> !keep(cs[i])
    ensures IdsWhere(cs, keep) == []
  {
    if cs != [] {
      IdsWhereNone(cs[..|cs| - 1], keep);
    }
  }

  /** With ids increasing along the company list, the listed ids are increasing too. */
  lemma {:induction false} IdsWhereIncreasing(cs: seq<Company>, keep: Company -> bool)
    requires forall i, j :: 0 <= i < j < |cs| ==> cs[i].id < cs[j].id
    ensures forall i, j :: 0 <= i < j < |IdsWhere(cs, keep)| ==> IdsWhere(cs, keep)[i] < IdsWhere(cs, keep)[j]
  {
    if cs != [] {
      var init := cs[..|cs| - 1];
      IdsWhereIncreasing(init, keep);
      IdsWhereExactly(init, keep);
      var e := IdsWhere(init, keep);
      forall k | 0 <= k < |e| ensures e[k] < cs[|cs| - 1].id {
        assert e[k] in e;
        var i :| 0 <= i < |init| && init[i].id == e[k] && keep(init[i]);
        assert cs[i] == init[i];
      }
    }
  }

  /** On the company list, the comprehension lists distinct ids, each the id of a kept company,
      and lists every kept company. */
  lemma IdsWhereOfCompanies(cs: seq<Company>, keep: Company -> bool)
    requires WellFormed(cs)
    ensures Distinct(IdsWhere(cs, keep))
    ensures forall id :: id in IdsWhere(cs, keep) <==> 1 <= id <= NumCompanies && keep(cs[id - 1])
  {
    assert Distinct(IdsWhere(cs, keep)) by {
      IdsIncreasing(cs);
      IdsWhereIncreasing(cs, keep);
    }
    forall id ensures id in IdsWhere(cs, keep) <==> 1 <= id <= NumCompanies && keep(cs[id - 1]) {
      IdsWhereExactly(cs, keep);
      if id in IdsWhere(cs, keep) {
        var i :| 0 <= i < |cs| && cs[i].id == id && keep(cs[i]);
        assert CompanyOk(cs[i], i + 1);
      }
      if 1 <= id <= NumCompanies {
        assert CompanyOk(cs[id - 1], id);
      }
    }
  }

  const TierWeights: seq<nat> := [20, 35, 65]

  /** `assign_tier`: a draw weighted 20 : 35 : 65 over tiers 1, 2 and 3 for a Manufacturer,
      fixed tiers for the others. */
  method AssignTier(rng: Oracle, ctype: CompanyType) returns (tier: int)
    modifies rng
    ensures TierFits(ctype, tier)
    ensures ctype == Manufacturer ==> var d := rng.stream(old(rng.pos)) % 120;
      (tier == 1 <==> d < 20) && (tier == 2 <==> 20 <= d < 55) && (tier == 3 <==> 55 <= d)
  {
    match ctype
    case Manufacturer =>
      assert TierWeights[..0] == [] && TierWeights[..1] == [20] && TierWeights[..2] == [20, 35];
      assert TierWeights[..3] == TierWeights;
      assert [20][..0] == [] && [20, 35][..1] == [20];
      assert Total(TierWeights) == 120;
      var k := rng.WeightedIndex(TierWeights);
      tier := k + 1;
    case Retailer =>
      tier := 1;
    case Distributor =>
      tier := 3;
  }

  /** The company loop: types by id, a location, a tier, and a capacity for each
      Manufacturer. */
  method GenerateCompanies(rng: Oracle) returns (companies: seq<Company>, capacity: map<int, int>)
    modifies rng
    ensures WellFormed(companies)
    ensures forall id :: id in capacity <==> 1 <= id <= NumManufacturers
    ensures forall id :: id in capacity ==> 500 <= capacity[id] <= 5000
  {
    companies := [];
    capacity := map[];
    var i := 1;
    while i <= NumCompanies
      invariant 1 <= i <= NumCompanies + 1
      invariant |companies| == i - 1
      invariant forall j :: 0 <= j < |companies| ==> CompanyOk(companies[j], j + 1)
      invariant forall id :: id in capacity <==> 1 <= id < i && id <= NumManufacturers
      invariant forall id :: id in capacity ==> 500 <= capacity[id] <= 5000
    {
      var ctype;
      if i <= NumManufacturers {
        ctype := Manufacturer;
      } else if i <= NumManufacturers + NumRetailers {
        ctype := Retailer;
      } else {
        ctype := Distributor;
      }
      var locId := rng.RandInt(1, NumLocations);
      var tier := AssignTier(rng, ctype);
      companies := companies + [Company(i, ctype, tier, locId)];
      if ctype == Manufacturer {
        var cap := rng.RandInt(500, 5000);
        capacity := capacity[i := cap];
      }
      i := i + 1;
    }
  }

  // ---- topological rank ----

  /** `tiers[t]`: the companies of tier `t`, in company order. */
  function OfTier(cs: seq<Company>, t: int): seq<Company>
  {
    if cs == [] then []
    else OfTier(cs[..|cs| - 1], t) + if cs[|cs| - 1].tier == t then [cs[|cs| - 1]] else []
  }

  lemma OfTierStep(cs: seq<Company>, c: Company, t: int)
    ensures OfTier(cs + [c], t) == OfTier(cs, t) + if c.tier == t then [c] else []
  {
    assert (cs + [c])[..|cs|] == cs;
  }

  lemma {:induction false} OfTierMembers(cs: seq<Company>, t: int)
    ensures forall c :: c in OfTier(cs, t) ==> c in cs && c.tier == t
  {
    if cs != [] {
      OfTierMembers(cs[..|cs| - 1], t);
    }
  }

  /** A tier list holds each company of that tier as often as the input does, and no other. */
  lemma {:induction false} OfTierCount(cs: seq<Company>, t: int, c: Company)
    ensures multiset(OfTier(cs, t))[c] == if c.tier == t then multiset(cs)[c] else 0
  {
    if cs != [] {
      var init, last := cs[..|cs| - 1], cs[|cs| - 1];
      assert cs == init + [last];
      OfTierCount(init, t, c);
      OfTierStep(init, last, t);
    }
  }

  /** Every company falls in exactly one of the three tier lists. */
  lemma TiersPartition(cs: seq<Company>)
    requires forall c :: c in cs ==> 1 <= c.tier <= 3
    ensures multiset(OfTier(cs, 1)) + multiset(OfTier(cs, 2)) + multiset(OfTier(cs, 3)) == multiset(cs)
  {
    var sum := multiset(OfTier(cs, 1)) + multiset(OfTier(cs, 2)) + multiset(OfTier(cs, 3));
    forall c ensures sum[c] == multiset(cs)[c] {
      OfTierCount(cs, 1, c);
      OfTierCount(cs, 2, c);
      OfTierCount(cs, 3, c);
      if c !in cs {
        assert multiset(cs)[c] == 0;
      }
    }
  }

  /** Lower tiers first. */
  predicate TierSorted(s: seq<Company>)
  {
    forall i, j :: 0 <= i < j < |s| ==> s[i].tier <= s[j].tier
  }

  /** The companies of tiers below `t`, as a multiset. */
  ghost function BelowTier(cs: seq<Company>, t: int): multiset<Company>
    decreases t
  {
    if t <= 1 then multiset{} else BelowTier(cs, t - 1) + multiset(OfTier(cs, t - 1))
  }

  /** The grouping loop: `tiers[c['tier']].append(c)`. */
  method GroupByTier(companies: seq<Company>) returns (tiers: map<int, seq<Company>>)
    requires forall c :: c in companies ==> 1 <= c.tier <= 3
    ensures forall t :: t in tiers <==> 1 <= t <= 3
    ensures forall t :: 1 <= t <= 3 ==> tiers[t] == OfTier(companies, t)
  {
    tiers := map[1 := [], 2 := [], 3 := []];
    var i := 0;
    while i < |companies|
      invariant 0 <= i <= |companies|
      invariant forall t :: t in tiers <==> 1 <= t <= 3
      invariant forall t :: 1 <= t <= 3 ==> tiers[t] == OfTier(companies[..i], t)
    {
      var c := companies[i];
      assert companies[..i + 1] == companies[..i] + [c];
      forall t ensures OfTier(companies[..i + 1], t) == OfTier(companies[..i], t) + if c.tier == t then [c] else [] {
        OfTierStep(companies[..i], c, t);
      }
      tiers := tiers[c.tier := tiers[c.tier] + [c]];
      i := i + 1;
    }
    assert companies[..i] == companies;
  }

  /** One turn of `for t in [1,2,3]`: shuffle the tier's list and append it. */
  lemma AppendTierBlock(cs: seq<Company>, topo: seq<Company>, block: seq<Company>, t: int)
    requires 1 <= t
    requires multiset(topo) == BelowTier(cs, t) && TierSorted(topo)
    requires forall c :: c in topo ==> c.tier < t
    requires multiset(block) == multiset(OfTier(cs, t))
    ensures multiset(topo + block) == BelowTier(cs, t + 1) && TierSorted(topo + block)
    ensures forall c :: c in topo + block ==> c.tier < t + 1
  {
    OfTierMembers(cs, t);
    forall c | c in block ensures c.tier == t {
      assert c in multiset(block);
    }
    var all := topo + block;
    forall i, j | 0 <= i < j < |all| ensures all[i].tier <= all[j].tier {
      if j >= |topo| {
        assert all[j] in block;
        if i < |topo| {
          assert all[i] in topo;
        } else {
          assert all[i] in block;
        }
      }
    }
  }

  lemma AllTiersPlaced(cs: seq<Company>, topo: seq<Company>)
    requires WellFormed(cs) && multiset(topo) == BelowTier(cs, 4)
    ensures multiset(topo) == multiset(cs)
  {
    CompanyBlocks(cs);
    TiersPartition(cs);
  }

  /** The ids of `s` are pairwise different. */
  predicate DistinctIds(s: seq<Company>)
  {
    forall i, j :: 0 <= i < j < |s| ==> s[i].id != s[j].id
  }

  lemma PermutedIdsDistinct(cs: seq<Company>, topo: seq<Company>)
    requires WellFormed(cs) && multiset(topo) == multiset(cs)
    ensures DistinctIds(topo) && |topo| == NumCompanies
    ensures forall c :: c in topo <==> c in cs
  {
    CompanyBlocks(cs);
    assert |topo| == |multiset(topo)| == |multiset(cs)| == |cs|;
    forall c ensures c in topo <==> c in cs {
      assert c in topo <==> c in multiset(topo);
      assert c in cs <==> c in multiset(cs);
    }
    assert Distinct(cs) by {
      forall i, j | 0 <= i < j < |cs| ensures cs[i] != cs[j] {
        assert CompanyOk(cs[i], i + 1) && CompanyOk(cs[j], j + 1);
      }
    }
    SubMultisetDistinct(topo, cs);
    forall i, j | 0 <= i < j < |topo| ensures topo[i].id != topo[j].id {
      assert topo[i] in cs && topo[j] in cs;
    }
  }

  /** The topological order and `company_rank`: the tier lists shuffled and concatenated in
      tier order, and each company's position in that list. */
  method TopoOrder(rng: Oracle, companies: seq<Company>) returns (topo: seq<Company>, rank: map<int, int>)
    requires WellFormed(companies)
    modifies rng
    ensures multiset(topo) == multiset(companies) && |topo| == NumCompanies
    ensures TierSorted(topo)
    ensures forall id :: id in rank <==> 1 <= id <= NumCompanies
    ensures forall i :: 0 <= i < |topo| ==> topo[i].id in rank && rank[topo[i].id] == i
    ensures forall id :: id in rank ==> 0 <= rank[id] < NumCompanies && topo[rank[id]].id == id
  {
    var tiers := GroupByTier(companies);
    topo := [];
    var t := 1;
    while t <= 3
      invariant 1 <= t <= 4
      invariant forall s :: 1 <= s <= 3 ==> tiers[s] == OfTier(companies, s)
      invariant multiset(topo) == BelowTier(companies, t) && TierSorted(topo)
      invariant forall c :: c in topo ==> c.tier < t
    {
      var shuffled := rng.Shuffle(tiers[t]);
      AppendTierBlock(companies, topo, shuffled, t);
      topo := topo + shuffled;
      t := t + 1;
    }
    AllTiersPlaced(companies, topo);
    PermutedIdsDistinct(companies, topo);
    rank := RankMap(topo);
    RankFacts(companies, topo, rank);
  }

  /** `company_rank`: each id's position in the topological order. */
  function RankMap(topo: seq<Company>): map<int, int>
    requires DistinctIds(topo)
  {
    map i | 0 <= i < |topo| :: topo[i].id := i
  }

  lemma RankFacts(cs: seq<Company>, topo: seq<Company>, rank: map<int, int>)
    requires WellFormed(cs) && DistinctIds(topo) && |topo| == NumCompanies
    requires forall c :: c in topo <==> c in cs
    requires rank == RankMap(topo)
    ensures forall id :: id in rank <==> 1 <= id <= NumCompanies
    ensures forall i :: 0 <= i < |topo| ==> topo[i].id in rank && rank[topo[i].id] == i
    ensures forall id :: id in rank ==> 0 <= rank[id] < NumCompanies && topo[rank[id]].id == id
  {
    CompanyBlocks(cs);
    forall i | 0 <= i < |topo| ensures topo[i].id in rank && rank[topo[i].id] == i {
      assert topo[i].id in rank;
      var k :| 0 <= k < |topo| && topo[k].id == topo[i].id && rank[topo[i].id] == k;
    }
    forall id ensures id in rank <==> 1 <= id <= NumCompanies {
      if 1 <= id <= NumCompanies {
        assert cs[id - 1] in topo;
        var k :| 0 <= k < |topo| && topo[k] == cs[id - 1];
        assert CompanyOk(cs[id - 1], id);
      }
      if id in rank {
        var k :| 0 <= k < |topo| && topo[k].id == id;
        assert topo[k] in cs;
      }
    }
  }

  /** Every tier-1 company ranks below every tier-2 company, which ranks below every tier-3
      company, and no two companies share a rank. */
  lemma RankFollowsTiers(cs: seq<Company>, topo: seq<Company>, rank: map<int, int>, a: Company, b: Company)
    requires WellFormed(cs) && multiset(topo) == multiset(cs) && TierSorted(topo)
    requires forall id :: id in rank <==> 1 <= id <= NumCompanies
    requires forall i :: 0 <= i < |topo| ==> topo[i].id in rank && rank[topo[i].id] == i
    requires a in cs && b in cs
    ensures a.tier < b.tier ==> rank[a.id] < rank[b.id]
    ensures a != b ==> rank[a.id] != rank[b.id]
  {
    PermutedIdsDistinct(cs, topo);
    assert a in topo && b in topo;
    var i :| 0 <= i < |topo| && topo[i] == a;
    var j :| 0 <= j < |topo| && topo[j] == b;
    assert rank[a.id] == i && rank[b.id] == j;
  }
}

=== FILE: criticality.dfy ===
/** erp/critical_companies.php: score every fetched company by
    (downstream dependents + 1) * (high-impact disruptions + 1), drop the ones outside the
    min/max filters, sort by score (highest first) and summarise. The company query and the
    two COUNT queries per company are inputs. */
module Criticality {

  /** One row of the company query. */
  datatype CompanyRow = CompanyRow(companyId: int, name: string, companyType: string,
                                   tierLevel: string, continent: string, country: string)

  /** A company row with its two counts: distinct downstream companies that depend on it and
      distinct disruption events that hit it with High impact. */
  datatype Fetched = Fetched(row: CompanyRow, downstreamCount: nat, highImpactCount: nat)

  /** An entry of `$companies`. */
  datatype Scored = Scored(row: CompanyRow, downstreamCount: nat, highImpactCount: nat,
                           criticalityScore: int)

  /** A `min_criticality` / `max_criticality` query parameter: absent, or the raw string with
      the value PHP's `intval` gives for it. */
  datatype Param = Missing | Given(raw: string, asInt: int)

  /** PHP's `empty()` on a query parameter: absent, "" or "0". */
  predicate IsEmpty(p: Param)
  {
    p.Missing? || p.raw == "" || p.raw == "0"
  }

  function ScoreOf(f: Fetched): (s: Scored)
    ensures s.row == f.row && s.downstreamCount == f.downstreamCount
    ensures s.highImpactCount == f.highImpactCount
    ensures s.criticalityScore >= 1
    ensures s.criticalityScore >= f.downstreamCount + 1 && s.criticalityScore >= f.highImpactCount + 1
  {
    var score := (f.downstreamCount + 1) * (f.highImpactCount + 1);
    assert score >= f.downstreamCount + 1 by {
      assert (f.downstreamCount + 1) * (f.highImpactCount + 1)
        == (f.downstreamCount + 1) * f.highImpactCount + (f.downstreamCount + 1);
    }
    assert score >= f.highImpactCount + 1 by {
      assert (f.downstreamCount + 1) * (f.highImpactCount + 1)
        == f.downstreamCount * (f.highImpactCount + 1) + (f.highImpactCount + 1);
    }
    Scored(f.row, f.downstreamCount, f.highImpactCount, score)
  }

  /** The two `continue` checks: a given min drops scores below it, a given max drops scores
      above it. */
  predicate PassesFilters(score: int, minParam: Param, maxParam: Param)
  {
    !(!IsEmpty(minParam) && score < minParam.asInt) && !(!IsEmpty(maxParam) && score > maxParam.asInt)
  }

  predicate WellScored(s: Scored)
  {
    s.criticalityScore == (s.downstreamCount + 1) * (s.highImpactCount + 1)
  }

  /** The companies the scoring loop keeps, in fetch order. */
  function Kept(fs: seq<Fetched>, minParam: Param, maxParam: Param): seq<Scored>
  {
    if fs == [] then []
    else
      var f := fs[|fs| - 1];
      Kept(fs[..|fs| - 1], minParam, maxParam)
        + if PassesFilters(ScoreOf(f).criticalityScore, minParam, maxParam) then [ScoreOf(f)] else []
  }

  /** Every kept entry carries the score of its row and passes both filters; every row whose
      score passes both filters is kept; nothing else is. */
  lemma {:induction false} KeptExactly(fs: seq<Fetched>, minParam: Param, maxParam: Param)
    ensures |Kept(fs, minParam, maxParam)| <= |fs|
    ensures forall s :: s in Kept(fs, minParam, maxParam) ==>
      (WellScored(s) && s.criticalityScore >= 1 && PassesFilters(s.criticalityScore, minParam, maxParam))
    ensures forall f :: f in fs && PassesFilters(ScoreOf(f).criticalityScore, minParam, maxParam) ==>
      ScoreOf(f) in Kept(fs, minParam, maxParam)
    ensures forall s :: s in Kept(fs, minParam, maxParam) ==> exists f :: f in fs && s == ScoreOf(f)
  {
    if fs != [] {
      var init := fs[..|fs| - 1];
      var f := fs[|fs| - 1];
      KeptExactly(init, minParam, maxParam);
      assert fs == init + [f];
      assert forall g :: g in fs ==> g in init || g == f;
    }
  }

  /** The scoring `foreach`. */
  method ScoreCompanies(fs: seq<Fetched>, minParam: Param, maxParam: Param) returns (companies: seq<Scored>)
    ensures companies == Kept(fs, minParam, maxParam)
  {
    companies := [];
    var i := 0;
    while i < |fs|
      invariant 0 <= i <= |fs|
      invariant companies == Kept(fs[..i], minParam, maxParam)
    {
      var comp := fs[i];
      var criticalityScore := (comp.downstreamCount + 1) * (comp.highImpactCount + 1);
      assert fs[..i + 1][..i] == fs[..i];
      if !IsEmpty(minParam) && criticalityScore < minParam.asInt {
        i := i + 1;
        continue;
      }
      if !IsEmpty(maxParam) && criticalityScore > maxParam.asInt {
        i := i + 1;
        continue;
      }
      companies := companies + [Scored(comp.row, comp.downstreamCount, comp.highImpactCount, criticalityScore)];
      i := i + 1;
    }
    assert fs[..i] == fs;
  }

  // ---- usort by score, highest first ----

  predicate NonIncreasing(s: seq<Scored>)
  {
    forall i, j :: 0 <= i < j < |s| ==> s[i].criticalityScore >= s[j].criticalityScore
  }

  /** Insert `x` before the first entry whose score is not higher, so that entries of equal
      score keep their order (PHP 8's sort is stable). */
  function Insert(x: Scored, t: seq<Scored>): seq<Scored>
  {
    if t == [] || t[0].criticalityScore <= x.criticalityScore then [x] + t
    else [t[0]] + Insert(x, t[1..])
  }

  lemma {:induction false} InsertPermutes(x: Scored, t: seq<Scored>)
    ensures multiset(Insert(x, t)) == multiset(t) + multiset{x}
  {
    if !(t == [] || t[0].criticalityScore <= x.criticalityScore) {
      InsertPermutes(x, t[1..]);
      assert t == [t[0]] + t[1..];
    }
  }

  lemma {:induction false} InsertKeepsOrder(x: Scored, t: seq<Scored>)
    requires NonIncreasing(t)
    ensures NonIncreasing(Insert(x, t))
  {
    if !(t == [] || t[0].criticalityScore <= x.criticalityScore) {
      var rest := Insert(x, t[1..]);
      InsertKeepsOrder(x, t[1..]);
      InsertPermutes(x, t[1..]);
      forall k | 0 <= k < |rest| ensures t[0].criticalityScore >= rest[k].criticalityScore {
        assert rest[k] in multiset(rest);
        if rest[k] != x {
          assert rest[k] in multiset(t[1..]);
          var j :| 0 <= j < |t[1..]| && t[1..][j] == rest[k];
          assert t[j + 1] == rest[k];
        }
      }
    }
  }

  /** The entries of `s` with score `v`, in their order in `s`. */
  function WithScore(s: seq<Scored>, v: int): seq<Scored>
  {
    if s == [] then [] else (if s[0].criticalityScore == v then [s[0]] else []) + WithScore(s[1..], v)
  }

  /** Inserting `x` puts it ahead of every entry of its own score and leaves the order of every
      other score alone. */
  lemma {:induction false} InsertAheadOfTies(x: Scored, t: seq<Scored>, v: int)
    ensures WithScore(Insert(x, t), v) == (if x.criticalityScore == v then [x] else []) + WithScore(t, v)
  {
    if t == [] || t[0].criticalityScore <= x.criticalityScore {
      assert Insert(x, t) == [x] + t;
      assert ([x] + t)[1..] == t;
    } else {
      var rest := Insert(x, t[1..]);
      assert Insert(x, t) == [t[0]] + rest;
      assert ([t[0]] + rest)[1..] == rest;
      InsertAheadOfTies(x, t[1..], v);
    }
  }

  /** `usort($companies, fn($a, $b) => $b['criticalityScore'] - $a['criticalityScore'])`. */
  function SortByScore(s: seq<Scored>): (r: seq<Scored>)
    ensures multiset(r) == multiset(s)
    ensures NonIncreasing(r)
  {
    if s == [] then []
    else
      var rest := SortByScore(s[1..]);
      InsertPermutes(s[0], rest);
      InsertKeepsOrder(s[0], rest);
      assert s == [s[0]] + s[1..];
      Insert(s[0], rest)
  }

  /** The sort is stable: the entries of each score keep the order they had. */
  lemma {:induction false} SortByScoreStable(s: seq<Scored>, v: int)
    ensures WithScore(SortByScore(s), v) == WithScore(s, v)
  {
    if s != [] {
      SortByScoreStable(s[1..], v);
      InsertAheadOfTies(s[0], SortByScore(s[1..]), v);
    }
  }

  // ---- summary counters ----

  function CriticalCount(s: seq<Scored>): nat
  {
    if s == [] then 0
    else CriticalCount(s[..|s| - 1]) + if s[|s| - 1].criticalityScore >= 10 then 1 else 0
  }

  function HighRiskCount(s: seq<Scored>): nat
  {
    if s == [] then 0
    else HighRiskCount(s[..|s| - 1]) + if 5 <= s[|s| - 1].criticalityScore < 10 then 1 else 0
  }

  function TotalScore(s: seq<Scored>): int
  {
    if s == [] then 0 else TotalScore(s[..|s| - 1]) + s[|s| - 1].criticalityScore
  }

  /** A score is critical (10 or more) or high risk (5 to 9), never both, so the two counters
      together never exceed the number of companies. */
  lemma {:induction false} CountsWithinTotal(s: seq<Scored>)
    ensures CriticalCount(s) + HighRiskCount(s) <= |s|
    ensures CriticalCount(s) == |s| ==> forall i :: 0 <= i < |s| ==> s[i].criticalityScore >= 10
  {
    if s != [] {
      CountsWithinTotal(s[..|s| - 1]);
      if CriticalCount(s) == |s| {
        forall i | 0 <= i < |s| ensures s[i].criticalityScore >= 10 {
          if i < |s| - 1 {
            assert s[..|s| - 1][i] == s[i];
          }
        }
      }
    }
  }

  datatype Summary = Summary(totalCompanies: nat, criticalCount: nat, highRiskCount: nat,
                             totalScore: int, topCompanies: seq<Scored>)

  /** The summary `foreach` and the top-10 slice. */
  method Summarize(companies: seq<Scored>) returns (summary: Summary)
    ensures summary.totalCompanies == |companies|
    ensures summary.criticalCount == CriticalCount(companies)
    ensures summary.highRiskCount == HighRiskCount(companies)
    ensures summary.totalScore == TotalScore(companies)
    ensures summary.topCompanies == companies[..if |companies| < 10 then |companies| else 10]
  {
    var criticalCount, highRiskCount, totalScore := 0, 0, 0;
    var i := 0;
    while i < |companies|
      invariant 0 <= i <= |companies|
      invariant criticalCount == CriticalCount(companies[..i])
      invariant highRiskCount == HighRiskCount(companies[..i])
      invariant totalScore == TotalScore(companies[..i])
    {
      var score := companies[i].criticalityScore;
      assert companies[..i + 1][..i] == companies[..i];
      totalScore := totalScore + score;
      if score >= 10 {
        criticalCount := criticalCount + 1;
      } else if score >= 5 {
        highRiskCount := highRiskCount + 1;
      }
      i := i + 1;
    }
    assert companies[..i] == companies;
    var top := companies[..if |companies| < 10 then |companies| else 10];
    summary := Summary(|companies|, criticalCount, highRiskCount, totalScore, top);
  }

  datatype Report = Report(companies: seq<Scored>, summary: Summary)

  /** Steps 3 and 4 of the page: score and filter, sort, summarise. */
  method Analyze(fs: seq<Fetched>, minParam: Param, maxParam: Param) returns (report: Report)
    ensures report.companies == SortByScore(Kept(fs, minParam, maxParam))
    ensures multiset(report.companies) == multiset(Kept(fs, minParam, maxParam))
    ensures NonIncreasing(report.companies)
    ensures forall v :: WithScore(report.companies, v) == WithScore(Kept(fs, minParam, maxParam), v)
    ensures forall s :: s in report.companies ==>
      (WellScored(s) && s.criticalityScore >= 1 && PassesFilters(s.criticalityScore, minParam, maxParam))
    ensures report.summary.totalCompanies == |report.companies|
    ensures report.summary.criticalCount + report.summary.highRiskCount <= report.summary.totalCompanies
    ensures report.summary.criticalCount == CriticalCount(report.companies)
    ensures report.summary.highRiskCount == HighRiskCount(report.companies)
    ensures report.summary.totalScore == TotalScore(report.companies)
    ensures |report.summary.topCompanies| == if |report.companies| < 10 then |report.companies| else 10
    ensures report.summary.topCompanies <= report.companies
  {
    var companies := ScoreCompanies(fs, minParam, maxParam);
    KeptExactly(fs, minParam, maxParam);
    forall v ensures WithScore(SortByScore(companies), v) == WithScore(companies, v) {
      SortByScoreStable(companies, v);
    }
    companies := SortByScore(companies);
    forall s | s in companies
      ensures WellScored(s) && s.criticalityScore >= 1 && PassesFilters(s.criticalityScore, minParam, maxParam)
    {
      assert s in multiset(companies);
    }
    var summary := Summarize(companies);
    CountsWithinTotal(companies);
    report := Report(companies, summary);
  }
}

=== FILE: depends_on.dfy ===
/** setuo/create_data10.py, the DependsOn graph: each tier-2 and tier-3 company depends on one
    to three companies of lower topological rank, so every edge climbs the rank and the graph
    has no cycle. */
module DependsOn {
  import opened Draws
  import opened Companies

  /** A DependsOn row: `downstream` depends on `upstream`. */
  datatype Edge = Edge(upstream: int, downstream: int)

  /** Every company has a rank, and a company of a lower tier ranks below one of a higher
      tier. */
  ghost predicate RankOk(cs: seq<Company>, rank: map<int, int>)
  {
    WellFormed(cs)
    && (forall id :: id in rank <==> 1 <= id <= NumCompanies)
    && forall a, b :: a in cs && b in cs && a.tier < b.tier ==> rank[a.id] < rank[b.id]
  }

  /** `upstream_candidates`: the companies ranked below `c`. */
  function Candidates(cs: seq<Company>, rank: map<int, int>, c: Company): seq<int>
  {
    IdsWhere(cs, RanksBelow(rank, c))
  }

  /** The test `company_rank[u['id']] < company_rank[c['id']]`. */
  function RanksBelow(rank: map<int, int>, c: Company): Company -> bool
  {
    (u: Company) => u.id in rank && c.id in rank && rank[u.id] < rank[c.id]
  }

  /** The upstream ids of the edges into `d`, in order. */
  function UpstreamsOf(edges: seq<Edge>, d: int): seq<int>
  {
    if edges == [] then []
    else
      var e := edges[|edges| - 1];
      UpstreamsOf(edges[..|edges| - 1], d) + if e.downstream == d then [e.upstream] else []
  }

  /** The edges one company gets: one per chosen upstream. */
  function EdgesTo(ups: seq<int>, d: int): seq<Edge>
  {
    seq(|ups|, i requires 0 <= i < |ups| => Edge(ups[i], d))
  }

  lemma {:induction false} UpstreamsOfAppend(edges: seq<Edge>, ups: seq<int>, d: int, id: int)
    ensures UpstreamsOf(edges + EdgesTo(ups, d), id) == UpstreamsOf(edges, id) + if id == d then ups else []
  {
    if ups != [] {
      var init := ups[..|ups| - 1];
      UpstreamsOfAppend(edges, init, d, id);
      assert EdgesTo(ups, d) == EdgesTo(init, d) + [Edge(ups[|ups| - 1], d)];
      var all := edges + EdgesTo(ups, d);
      assert all[..|all| - 1] == edges + EdgesTo(init, d);
      assert ups == init + [ups[|ups| - 1]];
    } else {
      assert edges + EdgesTo(ups, d) == edges;
    }
  }

  /** Every edge climbs the rank. */
  ghost predicate Climbs(edges: seq<Edge>, rank: map<int, int>)
  {
    forall e :: e in edges ==> e.upstream in rank && e.downstream in rank && rank[e.upstream] < rank[e.downstream]
  }

  /** What the builder gives company `c`: nothing for tier 1; for tiers 2 and 3, one to three
      distinct upstreams, never more than there are candidates, all ranked below `c`. */
  ghost predicate UpstreamsOk(cs: seq<Company>, rank: map<int, int>, edges: seq<Edge>, c: Company)
  {
    var ups := UpstreamsOf(edges, c.id);
    var n := |Candidates(cs, rank, c)|;
    (c.tier == 1 ==> ups == [])
    && (c.tier != 1 ==> Distinct(ups) && 1 <= |ups| <= 3 && |ups| <= n
                        && forall u :: u in ups ==> u in Candidates(cs, rank, c))
  }

  /** Every tier-2 or tier-3 company has a candidate: company 37, a tier-1 Retailer, ranks below
      it. */
  lemma CandidatesExist(cs: seq<Company>, rank: map<int, int>, c: Company)
    requires RankOk(cs, rank) && c in cs && c.tier != 1
    ensures 37 in Candidates(cs, rank, c)
  {
    CompanyBlocks(cs);
    assert CompanyOk(cs[36], 37);
    IdsWhereOfCompanies(cs, RanksBelow(rank, c));
  }

  /** The candidates are distinct company ids ranked below `c`. */
  lemma CandidatesBelow(cs: seq<Company>, rank: map<int, int>, c: Company)
    requires RankOk(cs, rank) && c in cs
    ensures Distinct(Candidates(cs, rank, c))
    ensures forall u :: u in Candidates(cs, rank, c) ==> u in rank && c.id in rank && rank[u] < rank[c.id]
  {
    IdsWhereOfCompanies(cs, RanksBelow(rank, c));
    forall u | u in Candidates(cs, rank, c) ensures u in rank && c.id in rank && rank[u] < rank[c.id] {
      assert CompanyOk(cs[u - 1], u);
    }
  }

  /** One company's turn: sample `randint(1, min(3, len(candidates)))` candidates and write an
      edge from each. */
  method LinkCompany(rng: Oracle, cs: seq<Company>, rank: map<int, int>, c: Company, edges0: seq<Edge>)
    returns (edges: seq<Edge>, ghost ups: seq<int>)
    requires RankOk(cs, rank) && c in cs && c.tier != 1
    modifies rng
    ensures edges == edges0 + EdgesTo(ups, c.id)
    ensures Distinct(ups) && 1 <= |ups| <= 3 && |ups| <= |Candidates(cs, rank, c)|
    ensures forall u :: u in ups ==> u in Candidates(cs, rank, c)
  {
    var candidates := Candidates(cs, rank, c);
    CandidatesExist(cs, rank, c);
    CandidatesBelow(cs, rank, c);
    var k := rng.RandInt(1, if 3 < |candidates| then 3 else |candidates|);
    var picked := rng.Sample(candidates, k);
    ups := picked;
    edges := edges0;
    var i := 0;
    while i < |picked|
      invariant 0 <= i <= |picked|
      invariant edges == edges0 + EdgesTo(picked[..i], c.id)
    {
      assert EdgesTo(picked[..i + 1], c.id) == EdgesTo(picked[..i], c.id) + [Edge(picked[i], c.id)];
      edges := edges + [Edge(picked[i], c.id)];
      i := i + 1;
    }
    assert picked[..i] == picked;
  }

  /** The companies the builder has handled: every company of a tier below `t` and the first
      `j` of tier `t`. */
  ghost predicate Handled(cs: seq<Company>, c: Company, t: int, j: int)
    requires 0 <= j <= |OfTier(cs, t)|
  {
    c.tier < t || (c.tier == t && c in OfTier(cs, t)[..j])
  }

  /** The builder's state: the handled companies have their upstreams, the others none yet,
      and every edge climbs the rank. */
  ghost predicate Progress(cs: seq<Company>, rank: map<int, int>, edges: seq<Edge>, t: int, j: int)
    requires 0 <= j <= |OfTier(cs, t)|
  {
    Climbs(edges, rank)
    && forall c :: c in cs ==>
         if Handled(cs, c, t, j) then UpstreamsOk(cs, rank, edges, c) else UpstreamsOf(edges, c.id) == []
  }

  /** Adding edges into `d` from companies ranked below it keeps every edge climbing. */
  lemma ClimbsAppend(edges: seq<Edge>, rank: map<int, int>, ups: seq<int>, d: int)
    requires Climbs(edges, rank)
    requires forall u :: u in ups ==> u in rank && d in rank && rank[u] < rank[d]
    ensures Climbs(edges + EdgesTo(ups, d), rank)
  {
    var all := edges + EdgesTo(ups, d);
    forall e | e in all ensures e.upstream in rank && e.downstream in rank && rank[e.upstream] < rank[e.downstream] {
      if e !in edges {
        var i :| 0 <= i < |all| && all[i] == e;
        assert e == EdgesTo(ups, d)[i - |edges|];
        assert ups[i - |edges|] in ups;
      }
    }
  }

  /** Handling company `c`, the `j`-th of tier `t`, gives `c` its upstreams and leaves every
      other company as it was. */
  lemma HandleOne(cs: seq<Company>, rank: map<int, int>, edges: seq<Edge>, t: int, j: int, ups: seq<int>, d: Company)
    requires WellFormed(cs) && 2 <= t <= 3 && 0 <= j < |OfTier(cs, t)| && d in cs
    requires var c := OfTier(cs, t)[j];
      Distinct(ups) && 1 <= |ups| <= 3 && |ups| <= |Candidates(cs, rank, c)|
      && forall u :: u in ups ==> u in Candidates(cs, rank, c)
    requires if Handled(cs, d, t, j) then UpstreamsOk(cs, rank, edges, d) else UpstreamsOf(edges, d.id) == []
    ensures var all := edges + EdgesTo(ups, OfTier(cs, t)[j].id);
      if Handled(cs, d, t, j + 1) then UpstreamsOk(cs, rank, all, d) else UpstreamsOf(all, d.id) == []
  {
    var group := OfTier(cs, t);
    var c := group[j];
    OfTierMembers(cs, t);
    assert c in group;
    assert group[..j + 1] == group[..j] + [c];
    UpstreamsOfAppend(edges, ups, c.id, d.id);
    CompanyBlocks(cs);
    if d != c {
      assert d.id != c.id;
    } else {
      GroupDistinct(cs, t, j);
    }
  }

  /** Handling the next company of tier `t` moves the builder's state one step. */
  lemma ProgressStep(cs: seq<Company>, rank: map<int, int>, edges: seq<Edge>, t: int, j: int, ups: seq<int>)
    requires RankOk(cs, rank) && 2 <= t <= 3 && 0 <= j < |OfTier(cs, t)|
    requires Progress(cs, rank, edges, t, j)
    requires var c := OfTier(cs, t)[j];
      Distinct(ups) && 1 <= |ups| <= 3 && |ups| <= |Candidates(cs, rank, c)|
      && forall u :: u in ups ==> u in Candidates(cs, rank, c)
    ensures Progress(cs, rank, edges + EdgesTo(ups, OfTier(cs, t)[j].id), t, j + 1)
  {
    var c := OfTier(cs, t)[j];
    OfTierMembers(cs, t);
    assert c in OfTier(cs, t);
    CandidatesBelow(cs, rank, c);
    ClimbsAppend(edges, rank, ups, c.id);
    forall d | d in cs
      ensures var all := edges + EdgesTo(ups, c.id);
        if Handled(cs, d, t, j + 1) then UpstreamsOk(cs, rank, all, d) else UpstreamsOf(all, d.id) == []
    {
      HandleOne(cs, rank, edges, t, j, ups, d);
    }
  }

  /** A tier list holds each company once. */
  lemma GroupDistinct(cs: seq<Company>, t: int, j: int)
    requires WellFormed(cs) && 0 <= j < |OfTier(cs, t)|
    ensures OfTier(cs, t)[j] !in OfTier(cs, t)[..j]
  {
    var group := OfTier(cs, t);
    forall x ensures multiset(group)[x] <= 1 {
      OfTierCount(cs, t, x);
      assert Distinct(cs) by {
        IdsIncreasing(cs);
      }
      DistinctCount(cs, x);
    }
    if group[j] in group[..j] {
      var i :| 0 <= i < j && group[..j][i] == group[j];
      TwiceCounted(group, i, j);
    }
  }

  /** Moving from the end of tier `t` to the start of tier `t + 1`. */
  lemma ProgressNextTier(cs: seq<Company>, rank: map<int, int>, edges: seq<Edge>, t: int)
    requires WellFormed(cs) && Progress(cs, rank, edges, t, |OfTier(cs, t)|)
    ensures Progress(cs, rank, edges, t + 1, 0)
  {
    OfTierMembers(cs, t);
    forall c | c in cs ensures Handled(cs, c, t + 1, 0) == Handled(cs, c, t, |OfTier(cs, t)|) {
      if c.tier == t {
        OfTierContains(cs, t, c);
        assert OfTier(cs, t)[..|OfTier(cs, t)|] == OfTier(cs, t);
      }
    }
  }

  lemma {:induction false} OfTierContains(cs: seq<Company>, t: int, c: Company)
    requires c in cs && c.tier == t
    ensures c in OfTier(cs, t)
  {
    OfTierCount(cs, t, c);
    assert c in multiset(cs);
    assert c in multiset(OfTier(cs, t));
  }

  /** The DependsOn loops: `for lower_rank in [2,3]`, then each company of that tier. */
  method BuildDependsOn(rng: Oracle, cs: seq<Company>, rank: map<int, int>) returns (edges: seq<Edge>)
    requires RankOk(cs, rank)
    modifies rng
    ensures Climbs(edges, rank)
    ensures forall c :: c in cs ==> UpstreamsOk(cs, rank, edges, c)
  {
    edges := [];
    var t := 2;
    assert Progress(cs, rank, edges, 2, 0) by {
      CompanyBlocks(cs);
      forall c | c in cs && Handled(cs, c, 2, 0) ensures UpstreamsOk(cs, rank, edges, c) {
        assert c.tier == 1;
      }
    }
    while t <= 3
      invariant 2 <= t <= 4
      invariant Progress(cs, rank, edges, t, 0)
    {
      var group := OfTier(cs, t);
      OfTierMembers(cs, t);
      var j := 0;
      while j < |group|
        invariant 0 <= j <= |group|
        invariant Progress(cs, rank, edges, t, j)
      {
        var c := group[j];
        assert c in group;
        ghost var ups;
        var edges' := edges;
        edges', ups := LinkCompany(rng, cs, rank, c, edges);
        ProgressStep(cs, rank, edges, t, j, ups);
        edges := edges';
        j := j + 1;
      }
      ProgressNextTier(cs, rank, edges, t);
      t := t + 1;
    }
    forall c | c in cs ensures UpstreamsOk(cs, rank, edges, c) {
      CompanyBlocks(cs);
      assert Handled(cs, c, 4, 0);
    }
  }

  // ---- no cycles ----

  /** A walk along DependsOn edges: each step goes from an upstream to its downstream. */
  ghost predicate IsPath(edges: seq<Edge>, p: seq<int>)
  {
    |p| >= 2 && forall i :: 0 <= i < |p| - 1 ==> Edge(p[i], p[i + 1]) in edges
  }

  /** Along any walk the rank goes up at every step, so it ends higher than it starts. */
  lemma {:induction false} PathClimbs(edges: seq<Edge>, rank: map<int, int>, p: seq<int>)
    requires Climbs(edges, rank) && IsPath(edges, p)
    ensures p[0] in rank && p[|p| - 1] in rank && rank[p[0]] < rank[p[|p| - 1]]
  {
    assert Edge(p[0], p[1]) in edges;
    if |p| > 2 {
      PathClimbs(edges, rank, p[1..]);
    }
  }

  /** No walk returns to where it started: the graph is acyclic. */
  lemma NoCycle(edges: seq<Edge>, rank: map<int, int>, p: seq<int>)
    requires Climbs(edges, rank) && IsPath(edges, p)
    ensures p[0] != p[|p| - 1]
  {
    PathClimbs(edges, rank, p);
  }
}

=== FILE: disruptions.dfy ===
/** setuo/create_data10.py, disruption events: 100 events, each with a category, a start day up
    to a year before a random day, a recovery day 1 to 30 days after the start, and 5 to 20
    distinct companies hit, each at a weighted impact level. */
module Disruptions {
  import opened Draws
  import opened Companies

  const NumEvents := 100
  /** The number of entries in `disruption_categories`. */
  const NumCategories := 13
  const ImpactWeights: seq<nat> := [70, 25, 5]

  datatype Impact = Low | Medium | High

  /** An ImpactsCompany row. */
  datatype Hit = Hit(companyId: int, impact: Impact)

  /** A DisruptionEvent row with its ImpactsCompany rows. */
  datatype Disruption = Disruption(eventId: int, categoryId: int, startDay: int, recoveryDay: int, hits: seq<Hit>)

  function HitIds(hits: seq<Hit>): seq<int>
  {
    seq(|hits|, i requires 0 <= i < |hits| => hits[i].companyId)
  }

  /** What every event satisfies. */
  predicate DisruptionOk(d: Disruption, eid: int)
  {
    d.eventId == eid && 1 <= d.categoryId <= NumCategories
    && -365 <= d.startDay < NumDays && d.startDay + 1 <= d.recoveryDay <= d.startDay + 30
    && 5 <= |d.hits| <= 20 && Distinct(HitIds(d.hits))
    && forall h :: h in d.hits ==> 1 <= h.companyId <= NumCompanies
  }

  /** Companies of the list with different positions have different ids. */
  lemma DistinctCompaniesDistinctIds(cs: seq<Company>, picked: seq<Company>)
    requires WellFormed(cs) && Distinct(picked) && forall c :: c in picked ==> c in cs
    ensures forall i, j :: 0 <= i < j < |picked| ==> picked[i].id != picked[j].id
  {
    CompanyBlocks(cs);
  }

  /** `random.choices(['Low','Medium','High'], weights=[70,25,5])[0]`. */
  method DrawImpact(rng: Oracle) returns (impact: Impact)
    modifies rng
    ensures var r := rng.stream(old(rng.pos)) % 100;
      (impact == Low <==> r < 70) && (impact == Medium <==> 70 <= r < 95) && (impact == High <==> 95 <= r)
  {
    assert ImpactWeights[..0] == [] && ImpactWeights[..1] == [70] && ImpactWeights[..2] == [70, 25];
    assert ImpactWeights[..3] == ImpactWeights;
    assert [70][..0] == [] && [70, 25][..1] == [70];
    assert Total(ImpactWeights) == 100;
    var k := rng.WeightedIndex(ImpactWeights);
    impact := if k == 0 then Low else if k == 1 then Medium else High;
  }

  /** `random.sample(companies, k=randint(5, 20))`, each with an impact level. */
  method GenerateHits(rng: Oracle, cs: seq<Company>) returns (hits: seq<Hit>)
    requires WellFormed(cs)
    modifies rng
    ensures 5 <= |hits| <= 20 && Distinct(HitIds(hits))
    ensures forall h :: h in hits ==> 1 <= h.companyId <= NumCompanies
  {
    var k := rng.RandInt(5, 20);
    assert Distinct(cs) by {
      IdsIncreasing(cs);
    }
    var picked := rng.Sample(cs, k);
    DistinctCompaniesDistinctIds(cs, picked);
    CompanyBlocks(cs);
    hits := [];
    var i := 0;
    while i < |picked|
      invariant 0 <= i <= |picked|
      invariant |hits| == i
      invariant forall j :: 0 <= j < i ==> hits[j].companyId == picked[j].id
    {
      var impact := DrawImpact(rng);
      hits := hits + [Hit(picked[i].id, impact)];
      i := i + 1;
    }
    forall h | h in hits ensures 1 <= h.companyId <= NumCompanies {
      var j :| 0 <= j < |hits| && hits[j] == h;
      assert picked[j] in cs;
    }
  }

  /** The `for eid in range(1, NUM_DISRUPTIONEVENTS+1)` loop. */
  method GenerateDisruptions(rng: Oracle, cs: seq<Company>) returns (events: seq<Disruption>)
    requires WellFormed(cs)
    modifies rng
    ensures |events| == NumEvents
    ensures forall i :: 0 <= i < |events| ==> DisruptionOk(events[i], i + 1)
  {
    events := [];
    var eid := 1;
    while eid <= NumEvents
      invariant 1 <= eid <= NumEvents + 1 && |events| == eid - 1
      invariant forall i :: 0 <= i < |events| ==> DisruptionOk(events[i], i + 1)
    {
      var categoryId := rng.RandInt(1, NumCategories);
      var day := rng.RandInt(0, NumDays - 1);
      var back := rng.RandInt(0, 365);
      var start := day - back;
      var lasting := rng.RandInt(1, 30);
      var recovery := start + lasting;
      var hits := GenerateHits(rng, cs);
      events := events + [Disruption(eid, categoryId, start, recovery, hits)];
      eid := eid + 1;
    }
  }
}

=== FILE: draws.dfy ===
/** The `random` calls of setuo/create_data10.py. Every draw is taken from an arbitrary stream
    of natural numbers, so every property proved about the generator holds whatever numbers
    the generator is given. */
module Draws {

  /** The sum of a list of weights. */
  function Total(w: seq<nat>): nat
  {
    if w == [] then 0 else Total(w[..|w| - 1]) + w[|w| - 1]
  }

  lemma TotalStep(w: seq<nat>, i: nat)
    requires i < |w|
    ensures Total(w[..i + 1]) == Total(w[..i]) + w[i]
  {
    assert w[..i + 1][..i] == w[..i];
  }

  lemma {:induction false} TotalPrefix(w: seq<nat>, i: nat)
    requires i <= |w|
    ensures Total(w[..i]) <= Total(w)
    decreases |w| - i
  {
    if i < |w| {
      TotalStep(w, i);
      TotalPrefix(w, i + 1);
    } else {
      assert w[..i] == w;
    }
  }

  predicate Distinct<T(==)>(s: seq<T>)
  {
    forall i, j :: 0 <= i < j < |s| ==> s[i] != s[j]
  }

  /** A selection taken without replacement from a list of distinct items has distinct items,
      all from the list. */
  lemma SubMultisetDistinct<T>(r: seq<T>, pop: seq<T>)
    requires Distinct(pop) && multiset(r) <= multiset(pop)
    ensures Distinct(r)
    ensures forall x :: x in r ==> x in pop
  {
    forall x | x in r ensures x in pop {
      assert x in multiset(r);
    }
    forall x ensures multiset(pop)[x] <= 1 {
      DistinctCount(pop, x);
    }
    forall i, j | 0 <= i < j < |r| ensures r[i] != r[j] {
      if r[i] == r[j] {
        TwiceCounted(r, i, j);
        assert false;
      }
    }
  }

  lemma {:induction false} DistinctCount<T>(s: seq<T>, x: T)
    requires Distinct(s)
    ensures multiset(s)[x] <= 1
  {
    if s != [] {
      var init := s[..|s| - 1];
      assert s == init + [s[|s| - 1]];
      DistinctCount(init, x);
      if s[|s| - 1] == x {
        assert x !in init;
      }
    }
  }

  lemma TwiceCounted<T>(s: seq<T>, i: int, j: int)
    requires 0 <= i < j < |s| && s[i] == s[j]
    ensures multiset(s)[s[i]] >= 2
  {
    assert s == s[..i] + [s[i]] + s[i + 1..j] + [s[j]] + s[j + 1..];
  }

  /** The source of every draw: `stream` is arbitrary, `pos` counts the draws made. */
  class Oracle {
    const stream: nat -> nat
    var pos: nat

    constructor (stream: nat -> nat)
      ensures this.stream == stream && pos == 0
    {
      this.stream := stream;
      pos := 0;
    }

    /** `random.randint(lo, hi)`, and `random.randrange(hi + 1)` when `lo` is 0. */
    method RandInt(lo: int, hi: int) returns (r: int)
      requires lo <= hi
      modifies this
      ensures lo <= r <= hi
      ensures r == lo + stream(old(pos)) % (hi - lo + 1)
      ensures pos == old(pos) + 1
    {
      r := lo + stream(pos) % (hi - lo + 1);
      pos := pos + 1;
    }

    /** `random.choice(xs)`; the caller handles the empty list, on which Python raises. */
    method Choice<T>(xs: seq<T>) returns (x: T)
      requires |xs| > 0
      modifies this
      ensures x in xs
      ensures x == xs[stream(old(pos)) % |xs|]
      ensures pos == old(pos) + 1
    {
      var i := RandInt(0, |xs| - 1);
      x := xs[i];
    }

    /** `random.choices(range(|weights|), weights)[0]`: the first index whose cumulative weight
        exceeds a draw below the total weight. Python draws a float; the draw here is an
        integer. */
    method WeightedIndex(weights: seq<nat>) returns (i: nat)
      requires Total(weights) > 0
      modifies this
      ensures i < |weights| && weights[i] > 0
      ensures Total(weights[..i]) <= stream(old(pos)) % Total(weights) < Total(weights[..i + 1])
      ensures pos == old(pos) + 1
    {
      var r := RandInt(0, Total(weights) - 1);
      assert weights[..|weights|] == weights;
      assert weights != [];
      i := 0;
      TotalStep(weights, 0);
      var acc := weights[0];
      while acc <= r
        invariant 0 <= i < |weights|
        invariant acc == Total(weights[..i + 1])
        invariant Total(weights[..i]) <= r
        invariant pos == old(pos) + 1
        decreases |weights| - i
      {
        if i + 1 == |weights| {
          assert false;
        }
        i := i + 1;
        TotalStep(weights, i);
        acc := acc + weights[i];
      }
      TotalStep(weights, i);
    }

    /** `random.sample(pop, k)`: `k` picks, each removing the picked item from the pool. */
    method Sample<T(==)>(pop: seq<T>, k: nat) returns (r: seq<T>)
      requires k <= |pop|
      modifies this
      ensures |r| == k
      ensures multiset(r) <= multiset(pop)
      ensures Distinct(pop) ==> Distinct(r) && forall x :: x in r ==> x in pop
      ensures pos == old(pos) + k
    {
      var pool := pop;
      r := [];
      var j := 0;
      while j < k
        invariant 0 <= j <= k
        invariant |r| == j && |pool| == |pop| - j
        invariant multiset(r) + multiset(pool) == multiset(pop)
        invariant pos == old(pos) + j
      {
        var idx := RandInt(0, |pool| - 1);
        PickPermutes(r, pool, idx);
        r := r + [pool[idx]];
        pool := pool[..idx] + pool[idx + 1..];
        j := j + 1;
      }
      if Distinct(pop) {
        SubMultisetDistinct(r, pop);
      }
    }

    /** `random.shuffle(s)`: Fisher-Yates from the last position down. */
    method Shuffle<T(==)>(s: seq<T>) returns (r: seq<T>)
      modifies this
      ensures |r| == |s|
      ensures multiset(r) == multiset(s)
      ensures pos == old(pos) + if |s| > 0 then |s| - 1 else 0
    {
      r := s;
      var i := |r| - 1;
      while i > 0
        invariant |r| == |s|
        invariant i < |r| && (if |r| > 0 then 0 <= i else i == -1)
        invariant multiset(r) == multiset(s)
        invariant pos == old(pos) + (|s| - 1 - i)
      {
        var j := RandInt(0, i);
        SwapPermutes(r, i, j);
        r := r[i := r[j]][j := r[i]];
        i := i - 1;
      }
    }
  }

  lemma PickPermutes<T>(r: seq<T>, pool: seq<T>, idx: int)
    requires 0 <= idx < |pool|
    ensures multiset(r + [pool[idx]]) + multiset(pool[..idx] + pool[idx + 1..]) == multiset(r) + multiset(pool)
  {
    assert pool == pool[..idx] + [pool[idx]] + pool[idx + 1..];
  }

  lemma SwapPermutes<T>(s: seq<T>, i: int, j: int)
    requires 0 <= i < |s| && 0 <= j < |s|
    ensures multiset(s[i := s[j]][j := s[i]]) == multiset(s)
  {
    if i != j {
      var t := s[i := s[j]];
      assert multiset(t) == multiset(s) - multiset{s[i]} + multiset{s[j]};
      assert multiset(t[j := s[i]]) == multiset(t) - multiset{t[j]} + multiset{s[i]};
    }
  }
}

=== FILE: generator.dfy ===
/** setuo/create_data10.py end to end: the stages in the order the script runs them, sharing one
    random stream, with the two ways the script can stop early. */
module Generator {
  import opened Draws
  import opened Companies
  import opened Products
  import opened Ledgers
  import opened Transactions
  import opened Disruptions
  import opened DependsOn
  import opened Logistics

  /** The script refers to `distributors`, which only a shipment defines; with no shipment it
      stops with Python's NameError. */
  const UndefinedDistributors := "name 'distributors' is not defined"

  /** Everything the script writes, as values. */
  datatype Dataset = Dataset(
    companies: seq<Company>, capacity: map<int, int>, rank: map<int, int>,
    categories: map<int, Category>, manufacturers: map<int, seq<int>>,
    transactions: Stage, disruptions: seq<Disruption>, dependsOn: seq<Edge>, routes: seq<Route>)

  /** The rules every table satisfies together. */
  ghost predicate DatasetOk(d: Dataset)
  {
    WellFormed(d.companies)
    && (forall id :: id in d.capacity <==> 1 <= id <= NumManufacturers)
    && (forall id :: id in d.capacity ==> 500 <= d.capacity[id] <= 5000)
    && RankOk(d.companies, d.rank)
    && (forall pid :: pid in d.categories <==> 1 <= pid <= NumProducts)
    && (forall pid :: pid in d.manufacturers <==> 1 <= pid <= NumProducts)
    && (forall pid :: pid in d.manufacturers ==>
          ManufacturerListOk(d.companies, d.categories[pid], d.manufacturers[pid]))
    && StageOk(d.companies, d.manufacturers, d.transactions)
    && |d.disruptions| == NumEvents
    && (forall i :: 0 <= i < |d.disruptions| ==> DisruptionOk(d.disruptions[i], i + 1))
    && Climbs(d.dependsOn, d.rank)
    && (forall c :: c in d.companies ==> UpstreamsOk(d.companies, d.rank, d.dependsOn, c))
    && PairsUnique(d.routes)
    && (forall r :: r in d.routes ==> r.distributorId in DistributorIds(d.companies) && RouteOk(d.companies, r))
  }

  /** The ranks of the topological order put lower tiers first. */
  lemma TopoRankOk(cs: seq<Company>, topo: seq<Company>, rank: map<int, int>)
    requires WellFormed(cs) && multiset(topo) == multiset(cs) && TierSorted(topo)
    requires forall id :: id in rank <==> 1 <= id <= NumCompanies
    requires forall i :: 0 <= i < |topo| ==> topo[i].id in rank && rank[topo[i].id] == i
    ensures RankOk(cs, rank)
  {
    forall a, b | a in cs && b in cs && a.tier < b.tier ensures rank[a.id] < rank[b.id] {
      RankFollowsTiers(cs, topo, rank, a, b);
    }
  }

  /** The whole script. Besides the result it hands back the company table, the manufacturer
      lists and the outcome of the transaction loop, which decide how it ends: with the
      `random.choice` error exactly when the loop raised (possible only when some list or
      some stranded tier-2 Manufacturer allows it), with the NameError exactly when the loop
      finished without a shipment, and otherwise with every table written. */
  method Generate(rng: Oracle)
    returns (r: Result<Dataset>, companies: seq<Company>, manufacturers: map<int, seq<int>>,
             stage: Result<Stage>)
    modifies rng
    ensures WellFormed(companies) && ProductsOk(manufacturers)
    ensures r.Raised? ==> r.error == EmptyChoice || r.error == UndefinedDistributors
    ensures (r.Raised? && r.error == EmptyChoice) <==> stage.Raised?
    ensures stage.Raised? ==> ShipmentCanRaise(companies, manufacturers)
    ensures (r.Raised? && r.error == UndefinedDistributors) <==> stage.Ok? && Shipments(stage.value.txs) == 0
    ensures stage.Ok? ==> StageOk(companies, manufacturers, stage.value)
    ensures r.Ok? ==> DatasetOk(r.value) && Shipments(r.value.transactions.txs) > 0
    ensures r.Ok? ==> r.value.companies == companies && r.value.manufacturers == manufacturers
    ensures r.Ok? ==> stage == Ok(r.value.transactions)
  {
    var capacity;
    companies, capacity := GenerateCompanies(rng);
    var topo, rank := TopoOrder(rng, companies);
    TopoRankOk(companies, topo, rank);
    var categories;
    categories, manufacturers := GenerateProducts(rng, companies);
    assert ProductsOk(manufacturers);

    var caps := new CapacityLedger(capacity);
    var inv := new InventoryLedger();
    stage := RunTransactions(rng, companies, manufacturers, caps, inv);
    if stage.Raised? {
      return Raised(stage.error), companies, manufacturers, stage;
    }

    var events := GenerateDisruptions(rng, companies);
    var edges := BuildDependsOn(rng, companies, rank);

    if stage.value.distributors.None? {
      return Raised(UndefinedDistributors), companies, manufacturers, stage;
    }
    var distributors := stage.value.distributors.value;
    IdsWhereOfCompanies(companies, (c: Company) => c.ctype == Distributor);
    var routes := BuildLogistics(rng, companies, distributors);
    r := Ok(Dataset(companies, capacity, rank, categories, manufacturers, stage.value, events, edges, routes));
  }
}

=== FILE: konami.dfy ===
/** js/easter-egg.js: a sliding window over the last ten key names, compared with
    the Konami code by joining both with commas. */
module Konami {

  const KonamiCode: seq<string> := ["ArrowUp", "ArrowUp", "ArrowDown", "ArrowDown",
    "ArrowLeft", "ArrowRight", "ArrowLeft", "ArrowRight", "b", "a"]

  /** JavaScript's `Array.prototype.join(',')`. */
  function Join(xs: seq<string>): (s: string)
    decreases |xs|
  {
    if |xs| == 0 then ""
    else if |xs| == 1 then xs[0]
    else xs[0] + "," + Join(xs[1..])
  }

  /** JavaScript's `a.slice(-n)` for `n > 0`: the last `min(|a|, n)` elements. */
  function SliceLast(a: seq<string>, n: nat): (r: seq<string>)
    ensures |r| == if |a| < n then |a| else n
    ensures forall i :: 0 <= i < |r| ==> r[i] == a[|a| - |r| + i]
  {
    if |a| > n then a[|a| - n..] else a
  }

  predicate CommaFree(x: string)
  {
    ',' !in x
  }

  predicate AllCommaFree(xs: seq<string>)
  {
    forall i :: 0 <= i < |xs| ==> CommaFree(xs[i])
  }

  /** The handler's state: `keys`. `Pressed` is every key seen so far, for the proofs. */
  class KonamiListener {
    var keys: seq<string>
    ghost var Pressed: seq<string>

    ghost predicate Valid()
      reads this
    {
      keys == SliceLast(Pressed, |KonamiCode|)
    }

    constructor ()
      ensures Valid() && keys == [] && Pressed == []
    {
      keys := [];
      Pressed := [];
    }

    /** One keydown event: push, keep the last ten, compare the joined strings. */
    method KeyDown(key: string) returns (activated: bool)
      requires Valid()
      modifies this
      ensures Valid()
      ensures Pressed == old(Pressed) + [key]
      ensures keys == SliceLast(old(keys) + [key], |KonamiCode|)
      ensures activated <==> Join(keys) == Join(KonamiCode)
    {
      keys := keys + [key];
      keys := SliceLast(keys, |KonamiCode|);
      Pressed := Pressed + [key];
      WindowSlides(old(Pressed), key);
      activated := Join(keys) == Join(KonamiCode);
    }
  }

  /** Sliding the window of the old history by one key gives the window of the new history. */
  lemma WindowSlides(h: seq<string>, key: string)
    ensures SliceLast(SliceLast(h, 10) + [key], 10) == SliceLast(h + [key], 10)
  {
    var a := SliceLast(SliceLast(h, 10) + [key], 10);
    var b := SliceLast(h + [key], 10);
    assert |a| == |b|;
    forall i | 0 <= i < |a| ensures a[i] == b[i] {
    }
  }

  /** After any history of presses, `keys` holds the last min(presses, 10) keys, in order. */
  lemma WindowIsRecentKeys(h: seq<string>)
    ensures |SliceLast(h, |KonamiCode|)| == if |h| < 10 then |h| else 10
    ensures SliceLast(h, |KonamiCode|) == h[|h| - |SliceLast(h, |KonamiCode|)|..]
  {
    var w := SliceLast(h, |KonamiCode|);
    assert w == h[|h| - |w|..];
  }

  /** A comma-free name followed by a comma: the comma sits right after the name. */
  lemma CommaAfter(x: string, rest: string)
    requires CommaFree(x)
    ensures (x + "," + rest)[|x|] == ','
    ensures forall i :: 0 <= i < |x| ==> (x + "," + rest)[i] != ','
  {
  }

  lemma {:induction false} JoinNonEmptyHasCommas(xs: seq<string>)
    requires |xs| >= 2
    ensures ',' in Join(xs)
  {
    assert Join(xs) == xs[0] + "," + Join(xs[1..]);
    assert Join(xs)[|xs[0]|] == ',';
  }

  /** Joining comma-free names is injective on non-empty lists. */
  lemma {:induction false} JoinInjective(xs: seq<string>, ys: seq<string>)
    requires AllCommaFree(xs) && AllCommaFree(ys)
    requires |xs| > 0 && |ys| > 0
    requires Join(xs) == Join(ys)
    ensures xs == ys
    decreases |xs|
  {
    if |xs| == 1 && |ys| == 1 {
    } else if |xs| == 1 {
      JoinNonEmptyHasCommas(ys);
      assert false;
    } else if |ys| == 1 {
      JoinNonEmptyHasCommas(xs);
      assert false;
    } else {
      var x, y := xs[0], ys[0];
      var s := Join(xs);
      assert CommaFree(x) && CommaFree(y);
      CommaAfter(x, Join(xs[1..]));
      CommaAfter(y, Join(ys[1..]));
      assert |x| == |y|;
      assert x == s[..|x|] == y;
      assert Join(xs[1..]) == s[|x| + 1..] == Join(ys[1..]);
      assert AllCommaFree(xs[1..]) && AllCommaFree(ys[1..]);
      JoinInjective(xs[1..], ys[1..]);
      assert xs == [x] + xs[1..];
      assert ys == [y] + ys[1..];
    }
  }

  lemma KonamiCommaFree()
    ensures AllCommaFree(KonamiCode)
  {
  }

  /** For comma-free key names, the easter egg fires exactly when the last ten keys are the
      Konami code, and so never before the tenth key press. */
  lemma ActivationIffKonami(h: seq<string>)
    requires AllCommaFree(h)
    ensures Join(SliceLast(h, |KonamiCode|)) == Join(KonamiCode) <==> |h| >= 10 && h[|h| - 10..] == KonamiCode
    ensures |h| < 10 ==> Join(SliceLast(h, |KonamiCode|)) != Join(KonamiCode)
  {
    var w := SliceLast(h, |KonamiCode|);
    WindowIsRecentKeys(h);
    KonamiCommaFree();
    assert AllCommaFree(w) by {
      forall i | 0 <= i < |w| ensures CommaFree(w[i]) {
        assert w[i] == h[|h| - |w| + i];
      }
    }
    if Join(w) == Join(KonamiCode) {
      assert |w| > 0 by { assert Join(KonamiCode) != ""; }
      JoinInjective(w, KonamiCode);
    }
  }
}

=== FILE: ledgers.dfy ===
/** setuo/create_data10.py, the two ledgers the transaction loop keeps: `used_capacity` against
    `manufacturer_capacity`, and the `inventory` of every (company, product) pair. */
module Ledgers {

  function Max(a: int, b: int): int
  {
    if a < b then b else a
  }

  /** The capacity clamp: a drawn quantity above what is left is cut to what is left, and to 1
      once nothing is left. */
  function Allocated(draw: int, available: int): int
  {
    if draw > available then Max(1, available) else draw
  }

  /** While capacity is left, a shipment takes the draw or what is left, whichever is smaller;
      once none is left it still takes 1. It is never empty and never above the draw. */
  lemma AllocationBounds(draw: int, available: int)
    requires draw >= 1
    ensures Allocated(draw, available) >= 1 && Allocated(draw, available) <= draw
    ensures available >= 1 ==> Allocated(draw, available) == if draw < available then draw else available
    ensures available < 1 ==> Allocated(draw, available) == 1
  {
  }

  /** The clamp keeps usage at or below capacity while capacity is left; from an exhausted
      factory it ships one unit at a time, so usage passes capacity by one per shipment. */
  lemma UsageCreepsByOne(capacity: int, used: int, draw: int)
    requires draw >= 1
    ensures var after := used + Allocated(draw, capacity - used);
      after > used && after <= Max(capacity, used + 1)
  {
  }

  /** A factory of capacity 500 with no usage, offered 600, ships exactly 500. */
  lemma ClampToCapacity()
    ensures Allocated(600, 500 - 0) == 500
  {
  }

  /** A factory of capacity 500 that has shipped 500 still ships 1 unit of a draw of 10, and
      its usage becomes 501. */
  lemma ExhaustedFactoryStillShips()
    ensures 500 + Allocated(10, 500 - 500) == 501
  {
  }

  /** The adjustment guard: a change that would take the stock below zero becomes minus the
      stock. */
  function Clamped(current: int, draw: int): int
  {
    if current + draw < 0 then -current else draw
  }

  /** An adjustment of non-negative stock leaves it non-negative: the draw is kept when the
      result stays at or above zero, and otherwise the stock goes to exactly zero. The change is
      never larger in size than the draw. */
  lemma AdjustmentNeverNegative(current: int, draw: int)
    requires current >= 0
    ensures current + Clamped(current, draw) >= 0
    ensures current + draw >= 0 ==> Clamped(current, draw) == draw
    ensures current + draw < 0 ==> current + Clamped(current, draw) == 0 && draw < Clamped(current, draw) <= 0
  {
  }

  /** `manufacturer_capacity` (fixed) and `used_capacity` (grown by each shipment). */
  class CapacityLedger {
    const capacity: map<int, int>
    var used: map<int, int>

    ghost predicate Valid()
      reads this
    {
      used.Keys == capacity.Keys && forall m :: m in used ==> used[m] >= 0
    }

    /** `used_capacity = {m['id']: 0 ...}` over the Manufacturers. */
    constructor (capacity: map<int, int>)
      ensures Valid() && this.capacity == capacity
      ensures forall m :: m in used ==> used[m] == 0
    {
      this.capacity := capacity;
      used := map m | m in capacity :: 0;
    }

    function Available(m: int): int
      reads this
      requires m in capacity && m in used
    {
      capacity[m] - used[m]
    }

    /** The drawn quantity clamped against what the source has left, charged to the source. */
    method Allocate(source: int, draw: int) returns (qty: int)
      requires Valid() && source in capacity && draw >= 1
      modifies this
      ensures Valid()
      ensures qty == Allocated(draw, old(Available(source))) && qty >= 1
      ensures used == old(used)[source := old(used)[source] + qty]
    {
      qty := draw;
      var available := capacity[source] - used[source];
      if qty > available {
        qty := Max(1, available);
      }
      used := used[source := used[source] + qty];
    }
  }

  /** `inventory`: a quantity per company and product. */
  class InventoryLedger {
    var inventory: map<int, map<int, int>>

    constructor ()
      ensures inventory == map[]
      ensures forall c, p :: Get(c, p) == 0
    {
      inventory := map[];
    }

    /** `inventory.get(c, {}).get(p, 0)`: absent entries read as 0. */
    function Get(c: int, p: int): int
      reads this
    {
      if c in inventory && p in inventory[c] then inventory[c][p] else 0
    }

    ghost predicate NonNegative()
      reads this
    {
      forall c, p :: c in inventory && p in inventory[c] ==> inventory[c][p] >= 0
    }

    lemma NonNegativeReads(c: int, p: int)
      requires NonNegative()
      ensures Get(c, p) >= 0
    {
    }

    /** `setdefault(c, {})`, `setdefault(p, 0)`, then `+= delta`: one entry moves by `delta`,
        every other reads as before. */
    method Add(c: int, p: int, delta: int)
      modifies this
      ensures forall c', p' :: Get(c', p') == old(Get(c', p')) + if c' == c && p' == p then delta else 0
      ensures c in inventory && p in inventory[c]
      ensures old(NonNegative()) && old(Get(c, p)) + delta >= 0 ==> NonNegative()
    {
      var row := if c in inventory then inventory[c] else map[];
      var current := if p in row then row[p] else 0;
      inventory := inventory[c := row[p := current + delta]];
    }
  }
}

=== FILE: logistics.dfy ===
/** setuo/create_data10.py, the OperatesLogistics routes: each distributor gets up to four
    routes from a company of a lower tier to a company of a higher tier, never a Distributor at
    either end, and never the same pair twice. */
module Logistics {
  import opened Draws
  import opened Companies

  /** An OperatesLogistics row. */
  datatype Route = Route(distributorId: int, fromId: int, toId: int)

  /** The test behind `companies_by_tier[t]`: not a Distributor, and of tier `t`. */
  function InTier(t: int): Company -> bool
  {
    (c: Company) => c.ctype != Distributor && c.tier == t
  }

  /** `companies_by_tier[t]`, when present. */
  function TierIds(cs: seq<Company>, t: int): seq<int>
  {
    IdsWhere(cs, InTier(t))
  }

  /** The grouping loop: `companies_by_tier.setdefault(c['tier'], []).append(c['id'])` for each
      non-Distributor. A tier is a key exactly when some company was appended under it. */
  method GroupNonDistributors(cs: seq<Company>) returns (byTier: map<int, seq<int>>)
    ensures forall t :: t in byTier <==> |TierIds(cs, t)| > 0
    ensures forall t :: t in byTier ==> byTier[t] == TierIds(cs, t)
  {
    byTier := map[];
    var i := 0;
    while i < |cs|
      invariant 0 <= i <= |cs|
      invariant forall t :: t in byTier <==> |TierIds(cs[..i], t)| > 0
      invariant forall t :: t in byTier ==> byTier[t] == TierIds(cs[..i], t)
    {
      var c := cs[i];
      assert cs[..i + 1] == cs[..i] + [c];
      forall t ensures TierIds(cs[..i + 1], t) == TierIds(cs[..i], t) + if InTier(t)(c) then [c.id] else [] {
        IdsWhereStep(cs[..i], c, InTier(t));
      }
      if c.ctype != Distributor {
        var row := if c.tier in byTier then byTier[c.tier] else [];
        byTier := byTier[c.tier := row + [c.id]];
      }
      i := i + 1;
    }
    assert cs[..i] == cs;
  }

  /** The ids of a tier list are non-Distributors of that tier. */
  lemma TierIdsOfCompanies(cs: seq<Company>, t: int)
    requires WellFormed(cs)
    ensures forall id :: id in TierIds(cs, t) <==> 1 <= id <= NumCompanies && cs[id - 1].ctype != Distributor && cs[id - 1].tier == t
  {
    IdsWhereOfCompanies(cs, InTier(t));
  }

  /** A route goes from a non-Distributor of tier 1 or 2 to a different non-Distributor of a
      higher tier. */
  predicate RouteOk(cs: seq<Company>, r: Route)
    requires WellFormed(cs)
  {
    1 <= r.fromId <= NumCompanies && 1 <= r.toId <= NumCompanies && r.fromId != r.toId
    && cs[r.fromId - 1].ctype != Distributor && cs[r.toId - 1].ctype != Distributor
    && 1 <= cs[r.fromId - 1].tier <= 2 && cs[r.fromId - 1].tier < cs[r.toId - 1].tier <= 3
  }

  /** No distributor runs the same (from, to) pair twice. */
  predicate PairsUnique(routes: seq<Route>)
  {
    forall i, j :: 0 <= i < j < |routes| && routes[i].distributorId == routes[j].distributorId ==>
      (routes[i].fromId, routes[i].toId) != (routes[j].fromId, routes[j].toId)
  }

  function Pairs(routes: seq<Route>): set<(int, int)>
  {
    set r | r in routes :: (r.fromId, r.toId)
  }

  /** The `attempts` loop: up to ten draws of a (from, to) pair, stopping at the first pair
      with different ends that `used_pairs` does not hold yet, which it then records. */
  method PickPair(rng: Oracle, froms: seq<int>, tos: seq<int>, usedPairs: set<(int, int)>)
    returns (found: bool, frm: int, to: int, usedPairs': set<(int, int)>)
    requires |froms| > 0 && |tos| > 0
    modifies rng
    ensures found ==> frm in froms && to in tos && frm != to && (frm, to) !in usedPairs
    ensures usedPairs' == if found then usedPairs + {(frm, to)} else usedPairs
  {
    found, frm, to, usedPairs' := false, 0, 0, usedPairs;
    var attempts := 0;
    while attempts < 10
      invariant 0 <= attempts <= 10 && !found && usedPairs' == usedPairs
    {
      frm := rng.Choice(froms);
      to := rng.Choice(tos);
      if frm != to && (frm, to) !in usedPairs' {
        usedPairs' := usedPairs' + {(frm, to)};
        found := true;
        break;
      }
      attempts := attempts + 1;
    }
  }

  /** One distributor's routes: `randint(1, 4)` tries, each drawing a from-tier of 1 or 2 and a
      higher to-tier, skipping a try whose tiers have no companies or whose pair draws all
      fail. */
  method RoutesFor(rng: Oracle, cs: seq<Company>, byTier: map<int, seq<int>>, dist: int)
    returns (routes: seq<Route>)
    requires WellFormed(cs)
    requires forall t :: t in byTier ==> byTier[t] == TierIds(cs, t)
    modifies rng
    ensures |routes| <= 4 && PairsUnique(routes)
    ensures forall r :: r in routes ==> r.distributorId == dist && RouteOk(cs, r)
  {
    var num := rng.RandInt(1, 4);
    var usedPairs: set<(int, int)> := {};
    routes := [];
    var k := 0;
    while k < num
      invariant 0 <= k <= num && |routes| <= k
      invariant usedPairs == Pairs(routes)
      invariant PairsUnique(routes)
      invariant forall r :: r in routes ==> r.distributorId == dist && RouteOk(cs, r)
    {
      var fromTier := rng.RandInt(1, 2);
      var toTier := rng.RandInt(fromTier + 1, 3);
      if !(fromTier in byTier && |byTier[fromTier]| > 0 && toTier in byTier && |byTier[toTier]| > 0) {
        k := k + 1;
        continue;
      }
      var found, frm, to;
      found, frm, to, usedPairs := PickPair(rng, byTier[fromTier], byTier[toTier], usedPairs);
      if !found {
        k := k + 1;
        continue;
      }
      var r := Route(dist, frm, to);
      RouteFromTiers(cs, fromTier, toTier, r);
      AddRoute(routes, r);
      routes := routes + [r];
      k := k + 1;
    }
  }

  /** Ends drawn from the lists of a tier 1 or 2 and of a higher tier make a valid route. */
  lemma RouteFromTiers(cs: seq<Company>, fromTier: int, toTier: int, r: Route)
    requires WellFormed(cs) && 1 <= fromTier <= 2 && fromTier < toTier <= 3
    requires r.fromId in TierIds(cs, fromTier) && r.toId in TierIds(cs, toTier)
    ensures RouteOk(cs, r)
  {
    TierIdsOfCompanies(cs, fromTier);
    TierIdsOfCompanies(cs, toTier);
  }

  /** A route whose pair is not yet used keeps the pairs unique and is the one new pair. */
  lemma AddRoute(routes: seq<Route>, r: Route)
    requires PairsUnique(routes) && (r.fromId, r.toId) !in Pairs(routes)
    ensures PairsUnique(routes + [r])
    ensures Pairs(routes + [r]) == Pairs(routes) + {(r.fromId, r.toId)}
  {
    var rs := routes + [r];
    forall i | 0 <= i < |routes| ensures (rs[i].fromId, rs[i].toId) != (r.fromId, r.toId) {
      assert rs[i] == routes[i] && routes[i] in routes;
    }
  }

  /** Routes of different distributors never clash. */
  lemma PairsUniqueAppend(a: seq<Route>, b: seq<Route>, dist: int)
    requires PairsUnique(a) && PairsUnique(b)
    requires forall r :: r in b ==> r.distributorId == dist
    requires forall r :: r in a ==> r.distributorId != dist
    ensures PairsUnique(a + b)
  {
    var ab := a + b;
    forall i, j | 0 <= i < |a| <= j < |ab|
      ensures ab[i].distributorId != ab[j].distributorId
    {
      assert ab[i] == a[i] && ab[j] == b[j - |a|];
    }
    forall i, j | |a| <= i < j < |ab| && ab[i].distributorId == ab[j].distributorId
      ensures (ab[i].fromId, ab[i].toId) != (ab[j].fromId, ab[j].toId)
    {
      assert ab[i] == b[i - |a|] && ab[j] == b[j - |a|];
    }
  }

  /** The routes of one distributor, in order. */
  function RoutesOf(routes: seq<Route>, d: int): seq<Route>
  {
    if routes == [] then []
    else (if routes[0].distributorId == d then [routes[0]] else []) + RoutesOf(routes[1..], d)
  }

  lemma {:induction false} RoutesOfAppend(a: seq<Route>, b: seq<Route>, d: int)
    ensures RoutesOf(a + b, d) == RoutesOf(a, d) + RoutesOf(b, d)
    decreases |a|
  {
    if a == [] {
      assert a + b == b;
    } else {
      assert (a + b)[1..] == a[1..] + b;
      RoutesOfAppend(a[1..], b, d);
    }
  }

  /** A list of one distributor's routes is its own selection. */
  lemma {:induction false} RoutesOfAll(routes: seq<Route>, d: int)
    requires forall r :: r in routes ==> r.distributorId == d
    ensures RoutesOf(routes, d) == routes
    decreases |routes|
  {
    if routes != [] {
      assert routes[0] in routes;
      RoutesOfAll(routes[1..], d);
    }
  }

  /** A list without routes of `d` selects nothing for `d`. */
  lemma {:induction false} RoutesOfNone(routes: seq<Route>, d: int)
    requires forall r :: r in routes ==> r.distributorId != d
    ensures RoutesOf(routes, d) == []
    decreases |routes|
  {
    if routes != [] {
      assert routes[0] in routes;
      RoutesOfNone(routes[1..], d);
    }
  }

  /** The `for dist in distributors` loop. */
  method BuildLogistics(rng: Oracle, cs: seq<Company>, distributors: seq<int>) returns (routes: seq<Route>)
    requires WellFormed(cs) && Distinct(distributors)
    modifies rng
    ensures PairsUnique(routes) && |routes| <= 4 * |distributors|
    ensures forall d :: |RoutesOf(routes, d)| <= 4
    ensures forall r :: r in routes ==> r.distributorId in distributors && RouteOk(cs, r)
  {
    var byTier := GroupNonDistributors(cs);
    routes := [];
    var i := 0;
    while i < |distributors|
      invariant 0 <= i <= |distributors| && |routes| <= 4 * i
      invariant PairsUnique(routes)
      invariant forall d :: |RoutesOf(routes, d)| <= 4
      invariant forall r :: r in routes ==> r.distributorId in distributors[..i] && RouteOk(cs, r)
    {
      var dist := distributors[i];
      var mine := RoutesFor(rng, cs, byTier, dist);
      forall r | r in routes ensures r.distributorId != dist {
        var k :| 0 <= k < i && distributors[k] == r.distributorId;
      }
      PairsUniqueAppend(routes, mine, dist);
      forall d ensures |RoutesOf(routes + mine, d)| <= 4 {
        RoutesOfAppend(routes, mine, d);
        if d == dist {
          RoutesOfNone(routes, d);
          RoutesOfAll(mine, d);
        } else {
          RoutesOfNone(mine, d);
        }
      }
      assert distributors[..i + 1] == distributors[..i] + [dist];
      routes := routes + mine;
      i := i + 1;
    }
    assert distributors[..i] == distributors;
  }

  /** Some route runs from `a` to `b`. */
  predicate Linked(routes: seq<Route>, a: int, b: int)
  {
    exists r :: r in routes && r.fromId == a && r.toId == b
  }

  /** A walk along routes: each stop is linked to the next. */
  predicate IsRouteWalk(routes: seq<Route>, p: seq<int>)
  {
    |p| >= 2 && forall k :: 0 <= k < |p| - 1 ==> Linked(routes, p[k], p[k + 1])
  }

  /** Each step of a walk goes up at least one tier. */
  lemma {:induction false} WalkClimbsTiers(cs: seq<Company>, routes: seq<Route>, p: seq<int>)
    requires WellFormed(cs) && forall r :: r in routes ==> RouteOk(cs, r)
    requires IsRouteWalk(routes, p)
    ensures 1 <= p[0] <= NumCompanies && 1 <= p[|p| - 1] <= NumCompanies
    ensures cs[p[0] - 1].tier + |p| - 1 <= cs[p[|p| - 1] - 1].tier
    decreases |p|
  {
    assert Linked(routes, p[0], p[1]);
    var r :| r in routes && r.fromId == p[0] && r.toId == p[1];
    assert RouteOk(cs, r);
    if |p| > 2 {
      var q := p[1..];
      forall k | 0 <= k < |q| - 1 ensures Linked(routes, q[k], q[k + 1]) {
        assert Linked(routes, p[k + 1], p[k + 2]);
      }
      WalkClimbsTiers(cs, routes, q);
    }
  }

  /** The routes of a distributor network never lead back to where they started, and a walk
      along them visits at most three companies, one per tier. */
  lemma NoRouteCycle(cs: seq<Company>, routes: seq<Route>, p: seq<int>)
    requires WellFormed(cs) && forall r :: r in routes ==> RouteOk(cs, r)
    requires IsRouteWalk(routes, p)
    ensures p[0] != p[|p| - 1] && |p| <= 3
  {
    WalkClimbsTiers(cs, routes, p);
    CompanyBlocks(cs);
    assert cs[p[0] - 1] in cs && cs[p[|p| - 1] - 1] in cs;
  }
}

=== FILE: products.dfy ===
/** setuo/create_data10.py, products: a random category for each of the 50 products, and up to
    three distinct manufacturers chosen from those the category's tier rule allows. */
module Products {
  import opened Draws
  import opened Companies

  const NumProducts := 50

  datatype Category = Electronics | RawMaterial | Component | FinishedGood | Other

  const Categories: seq<Category> := [Electronics, RawMaterial, Component, FinishedGood, Other]

  /** The tier rule: Finished Goods come from tier-1 Manufacturers, Components from tier 2, Raw
      Materials from tier 3, Electronics and Other from any Manufacturer. */
  predicate Eligible(c: Company, cat: Category)
  {
    c.ctype == Manufacturer &&
    match cat
    case FinishedGood => c.tier == 1
    case Component => c.tier == 2
    case RawMaterial => c.tier == 3
    case _ => true
  }

  /** `eligible_manufacturers`: the ids of the eligible companies, in company order. */
  function EligibleIds(cs: seq<Company>, cat: Category): seq<int>
  {
    IdsWhere(cs, c => Eligible(c, cat))
  }

  /** What a product's manufacturer list satisfies: distinct eligible Manufacturers, between
      one and three of them unless none is eligible, never more than are eligible. */
  predicate ManufacturerListOk(cs: seq<Company>, cat: Category, ms: seq<int>)
    requires WellFormed(cs)
  {
    Distinct(ms)
    && (forall m :: m in ms ==> 1 <= m <= NumManufacturers && Eligible(cs[m - 1], cat))
    && |ms| <= 3 && |ms| <= |EligibleIds(cs, cat)|
    && (|EligibleIds(cs, cat)| > 0 ==> |ms| >= 1)
  }

  /** The eligible ids of a well-formed company list are distinct Manufacturer ids, each the id
      of an eligible company, and every eligible company is listed. */
  lemma EligibleIdsOfCompanies(cs: seq<Company>, cat: Category)
    requires WellFormed(cs)
    ensures Distinct(EligibleIds(cs, cat))
    ensures forall m :: m in EligibleIds(cs, cat) <==> 1 <= m <= NumCompanies && Eligible(cs[m - 1], cat)
    ensures forall m :: m in EligibleIds(cs, cat) ==> m <= NumManufacturers
  {
    IdsWhereOfCompanies(cs, c => Eligible(c, cat));
    forall m | m in EligibleIds(cs, cat) ensures m <= NumManufacturers {
      assert CompanyOk(cs[m - 1], m);
    }
  }

  /** `num_manu = min(len(eligible), randint(1, 3))` and `random.sample`. */
  method SelectManufacturers(rng: Oracle, cs: seq<Company>, cat: Category) returns (ms: seq<int>)
    requires WellFormed(cs)
    modifies rng
    ensures ManufacturerListOk(cs, cat, ms)
  {
    var eligible := EligibleIds(cs, cat);
    var k := rng.RandInt(1, 3);
    var numManu := Min(|eligible|, k);
    ms := rng.Sample(eligible, numManu);
    EligibleIdsOfCompanies(cs, cat);
  }

  /** The product loop: a category and a manufacturer list for each ProductID. */
  method GenerateProducts(rng: Oracle, cs: seq<Company>)
    returns (categories: map<int, Category>, manufacturers: map<int, seq<int>>)
    requires WellFormed(cs)
    modifies rng
    ensures forall pid :: pid in categories <==> 1 <= pid <= NumProducts
    ensures forall pid :: pid in manufacturers <==> 1 <= pid <= NumProducts
    ensures forall pid :: pid in manufacturers ==> ManufacturerListOk(cs, categories[pid], manufacturers[pid])
  {
    categories := map[];
    manufacturers := map[];
    var pid := 1;
    while pid <= NumProducts
      invariant 1 <= pid <= NumProducts + 1
      invariant forall p :: p in categories <==> 1 <= p < pid
      invariant forall p :: p in manufacturers <==> 1 <= p < pid
      invariant forall p :: p in manufacturers ==> ManufacturerListOk(cs, categories[p], manufacturers[p])
    {
      var category := rng.Choice(Categories);
      categories := categories[pid := category];
      var ms := SelectManufacturers(rng, cs, category);
      manufacturers := manufacturers[pid := ms];
      pid := pid + 1;
    }
  }

  function Min(a: int, b: int): int
  {
    if a < b then a else b
  }

  /** Each size the list can have is `min(|eligible|, k)` for a draw `k` of 1, 2 or 3. */
  lemma ListSizeIsClampedDraw(cs: seq<Company>, cat: Category, ms: seq<int>)
    requires WellFormed(cs) && ManufacturerListOk(cs, cat, ms)
    ensures exists k :: 1 <= k <= 3 && |ms| == Min(|EligibleIds(cs, cat)|, k)
  {
    var e := |EligibleIds(cs, cat)|;
    if e == 0 {
      assert |ms| == Min(e, 1);
    } else {
      assert |ms| == Min(e, |ms|);
    }
  }
}

=== FILE: secret_code.dfy ===
/** assets/app.js: the keydown handler that walks `keySequenceIndex` through the secret
    code Up, Up, Down, Down, Left, Right, 1 and redirects to the snake game at the end. */
module SecretCode {

  const Code: seq<string> := ["ArrowUp", "ArrowUp", "ArrowDown", "ArrowDown",
    "ArrowLeft", "ArrowRight", "1"]

  /** The handler's decision for one key: the next index and whether it redirects. */
  datatype Reaction = Reaction(next: nat, redirect: bool)

  function Step(index: nat, key: string): (r: Reaction)
    requires index < |Code|
    ensures r.next < |Code|
    ensures r.redirect ==> index == |Code| - 1 && key == Code[index]
  {
    if key == Code[index] then
      if index + 1 == |Code| then Reaction(0, true) else Reaction(index + 1, false)
    else if key == Code[0] then Reaction(1, false)
    else Reaction(0, false)
  }

  /** Whether some key of the sequence triggers the redirect. */
  predicate RedirectsDuring(index: nat, keys: seq<string>)
    requires index < |Code|
    decreases |keys|
  {
    keys != [] && (Step(index, keys[0]).redirect || RedirectsDuring(Step(index, keys[0]).next, keys[1..]))
  }

  /** The page's global `keySequenceIndex`. `Typed` is every key seen so far, for the proofs. */
  class KeySequenceWatcher {
    var index: nat
    ghost var Typed: seq<string>

    /** The index is a position in the code, and it counts keys just typed that match the
        start of the code. */
    ghost predicate Valid()
      reads this
    {
      index < |Code| && Matched(Typed, index)
    }

    constructor ()
      ensures Valid() && index == 0 && Typed == []
    {
      index := 0;
      Typed := [];
    }

    method KeyDown(key: string) returns (redirect: bool)
      requires Valid()
      modifies this
      ensures Valid()
      ensures Typed == old(Typed) + [key]
      ensures Reaction(index, redirect) == Step(old(index), key)
      ensures redirect ==> |Typed| >= |Code| && Typed[|Typed| - |Code|..] == Code
    {
      StepKeepsMatched(Typed, index, key);
      redirect := false;
      if key == Code[index] {
        index := index + 1;
        if index == |Code| {
          redirect := true;
          index := 0;
        }
      } else {
        index := if key == Code[0] then 1 else 0;
      }
      Typed := Typed + [key];
    }
  }

  /** The last `k` keys typed are the first `k` keys of the code. */
  ghost predicate Matched(typed: seq<string>, k: nat)
    requires k <= |Code|
  {
    k <= |typed| && typed[|typed| - k..] == Code[..k]
  }

  /** The code was typed as the keys ending just before position `n`. */
  ghost predicate CodeEndsAt(s: seq<string>, n: int)
  {
    |Code| <= n <= |s| && s[n - |Code|..n] == Code
  }

  /** One step keeps the index honest, and a redirect happens only after the whole code. */
  lemma StepKeepsMatched(typed: seq<string>, index: nat, key: string)
    requires index < |Code| && Matched(typed, index)
    ensures Matched(typed + [key], Step(index, key).next)
    ensures Step(index, key).redirect ==> Matched(typed + [key], |Code|)
  {
    var t := typed + [key];
    if key == Code[index] {
      assert t[|t| - (index + 1)..] == typed[|typed| - index..] + [key];
      assert Code[..index + 1] == Code[..index] + [Code[index]];
    }
    assert t[|t|..] == [];
    assert t[|t| - 1..] == [key];
  }

  /** Starting from 0, the index after any keys is below 7, and every redirect is preceded by
      the full code. */
  lemma {:induction false} RedirectIsSound(typed: seq<string>, index: nat, keys: seq<string>)
    requires index < |Code| && Matched(typed, index)
    requires RedirectsDuring(index, keys)
    ensures exists n :: CodeEndsAt(typed + keys, n)
    decreases |keys|
  {
    var r := Step(index, keys[0]);
    StepKeepsMatched(typed, index, keys[0]);
    var t := typed + [keys[0]];
    assert t + keys[1..] == typed + keys;
    if r.redirect {
      var n := |t|;
      assert (typed + keys)[n - |Code|..n] == t[|t| - |Code|..];
      assert CodeEndsAt(typed + keys, n);
    } else {
      RedirectIsSound(t, r.next, keys[1..]);
    }
  }

  /** The matcher is not a substring detector: a third Up resets the progress to 1, so the
      code typed after an extra Up is missed. */
  lemma ExtraUpMissesCode()
    ensures !RedirectsDuring(0, ["ArrowUp", "ArrowUp", "ArrowUp", "ArrowDown", "ArrowDown",
      "ArrowLeft", "ArrowRight", "1"])
    ensures ["ArrowUp", "ArrowUp", "ArrowUp", "ArrowDown", "ArrowDown",
      "ArrowLeft", "ArrowRight", "1"][1..] == Code
  {
    var keys := ["ArrowUp", "ArrowUp", "ArrowUp", "ArrowDown", "ArrowDown",
      "ArrowLeft", "ArrowRight", "1"];
    assert Step(0, keys[0]) == Reaction(1, false);
    assert Step(1, keys[1]) == Reaction(2, false);
    assert Step(2, keys[2]) == Reaction(1, false);
    assert Step(1, keys[3]) == Reaction(0, false);
    assert Step(0, keys[4]) == Reaction(0, false);
    assert Step(0, keys[5]) == Reaction(0, false);
    assert Step(0, keys[6]) == Reaction(0, false);
    assert Step(0, keys[7]) == Reaction(0, false);
    assert !RedirectsDuring(0, keys[7..]);
    assert !RedirectsDuring(0, keys[6..]);
    assert !RedirectsDuring(0, keys[5..]);
    assert !RedirectsDuring(0, keys[4..]);
    assert !RedirectsDuring(1, keys[3..]);
    assert !RedirectsDuring(2, keys[2..]);
    assert !RedirectsDuring(1, keys[1..]);
  }

  /** Typing the code from a fresh start redirects on its last key. */
  lemma CodeRedirects()
    ensures RedirectsDuring(0, Code)
  {
    assert Step(0, Code[0]) == Reaction(1, false);
    assert Step(1, Code[1]) == Reaction(2, false);
    assert Step(2, Code[2]) == Reaction(3, false);
    assert Step(3, Code[3]) == Reaction(4, false);
    assert Step(4, Code[4]) == Reaction(5, false);
    assert Step(5, Code[5]) == Reaction(6, false);
    assert Step(6, Code[6]) == Reaction(0, true);
    assert RedirectsDuring(6, Code[6..]);
    assert RedirectsDuring(5, Code[5..]);
    assert RedirectsDuring(4, Code[4..]);
    assert RedirectsDuring(3, Code[3..]);
    assert RedirectsDuring(2, Code[2..]);
    assert RedirectsDuring(1, Code[1..]);
  }
}

=== FILE: timeline.dfy ===
/** erp/timeline.php: disruption events bucketed by month, quarter or year, the buckets put
    in key order, and the summary (number of events, number of periods, the peak period).
    The event query is an input. */
module Timeline {

  /** An EventDate value; a MySQL DATE lies in years 1000 to 9999. */
  datatype Date = Date(year: int, month: int, day: int)

  predicate ValidDate(d: Date)
  {
    1000 <= d.year <= 9999 && 1 <= d.month <= 12 && 1 <= d.day <= 31
  }

  /** A row of the event query. */
  datatype Event = Event(eventId: int, eventDate: Date, categoryName: string, categoryId: int)

  predicate AllValid(evs: seq<Event>)
  {
    forall i :: 0 <= i < |evs| ==> ValidDate(evs[i].eventDate)
  }

  /** The `group_by` parameter: 'month', 'quarter', or anything else, which groups by year. */
  datatype GroupBy = Month | Quarter | Year

  function GroupingOf(param: string): GroupBy
  {
    if param == "month" then Month else if param == "quarter" then Quarter else Year
  }

  // ---- decimal digits and string order ----

  function Pow10(w: nat): (p: nat)
    ensures p >= 1
  {
    if w == 0 then 1 else 10 * Pow10(w - 1)
  }

  function DigitChar(k: int): char
    requires 0 <= k < 10
  {
    ('0' as int + k) as char
  }

  /** The last `w` decimal digits of `n`, zero-padded: `date('Y')`, `date('m')`. */
  function Digits(n: nat, w: nat): (s: string)
    ensures |s| == w
  {
    if w == 0 then [] else Digits(n / 10, w - 1) + [DigitChar(n % 10)]
  }

  /** PHP's comparison of two non-numeric strings: byte-wise lexicographic order. */
  predicate StrLess(a: string, b: string)
  {
    if a == [] then b != []
    else if b == [] then false
    else a[0] < b[0] || (a[0] == b[0] && StrLess(a[1..], b[1..]))
  }

  lemma {:induction false} StrLessIrreflexive(a: string)
    ensures !StrLess(a, a)
  {
    if a != [] {
      StrLessIrreflexive(a[1..]);
    }
  }

  /** Two different strings are always ordered one way or the other. */
  lemma {:induction false} StrLessTotal(a: string, b: string)
    requires a != b
    ensures StrLess(a, b) || StrLess(b, a)
  {
    if a != [] && b != [] && a[0] == b[0] {
      assert a == [a[0]] + a[1..] && b == [b[0]] + b[1..];
      StrLessTotal(a[1..], b[1..]);
    }
  }

  /** Comparing two concatenations whose first parts have the same length compares the first
      parts, then the second parts. */
  lemma {:induction false} StrLessAppend(a: string, a': string, b: string, b': string)
    requires |a| == |a'|
    ensures StrLess(a + b, a' + b') <==> StrLess(a, a') || (a == a' && StrLess(b, b'))
    ensures a + b == a' + b' <==> a == a' && b == b'
  {
    if a == [] {
      assert a + b == b && a' + b' == b';
    } else {
      StrLessAppend(a[1..], a'[1..], b, b');
      assert (a + b)[1..] == a[1..] + b && (a' + b')[1..] == a'[1..] + b';
      assert a == [a[0]] + a[1..] && a' == [a'[0]] + a'[1..];
      if a + b == a' + b' {
        assert (a + b)[..|a|] == a && (a' + b')[..|a|] == a';
        assert (a + b)[|a|..] == b && (a' + b')[|a|..] == b';
      }
    }
  }

  /** Zero-padded numbers of the same width compare as strings as they compare as numbers. */
  lemma {:induction false} DigitsOrder(n: nat, m: nat, w: nat)
    requires n < Pow10(w) && m < Pow10(w)
    ensures StrLess(Digits(n, w), Digits(m, w)) <==> n < m
    ensures Digits(n, w) == Digits(m, w) <==> n == m
  {
    if w > 0 {
      assert n / 10 < Pow10(w - 1) && m / 10 < Pow10(w - 1);
      DigitsOrder(n / 10, m / 10, w - 1);
      StrLessAppend(Digits(n / 10, w - 1), Digits(m / 10, w - 1), [DigitChar(n % 10)], [DigitChar(m % 10)]);
      assert n == 10 * (n / 10) + n % 10 && m == 10 * (m / 10) + m % 10;
    }
  }

  // ---- period keys and labels ----

  /** `ceil($month / 3)`. */
  function QuarterOf(month: int): (q: int)
    requires 1 <= month <= 12
    ensures 1 <= q <= 4
    ensures 3 * (q - 1) < month <= 3 * q
  {
    (month + 2) / 3
  }

  const MonthNames: seq<string> := ["Jan", "Feb", "Mar", "Apr", "May", "Jun",
                                    "Jul", "Aug", "Sep", "Oct", "Nov", "Dec"]

  /** 'Y-m', 'Y' . '-Q' . quarter, or 'Y'. */
  function PeriodKey(g: GroupBy, d: Date): string
    requires ValidDate(d)
  {
    match g
    case Month => Digits(d.year, 4) + ("-" + Digits(d.month, 2))
    case Quarter => Digits(d.year, 4) + ("-Q" + Digits(QuarterOf(d.month), 1))
    case Year => Digits(d.year, 4)
  }

  /** 'M Y', 'Q' . quarter . ' ' . 'Y', or the key itself. */
  function PeriodLabel(g: GroupBy, d: Date): string
    requires ValidDate(d)
  {
    match g
    case Month => MonthNames[d.month - 1] + " " + Digits(d.year, 4)
    case Quarter => "Q" + Digits(QuarterOf(d.month), 1) + " " + Digits(d.year, 4)
    case Year => Digits(d.year, 4)
  }

  /** The position of a date's period on the calendar: months, quarters or years since year 0. */
  function PeriodIndex(g: GroupBy, d: Date): int
    requires ValidDate(d)
  {
    match g
    case Month => 12 * d.year + d.month - 1
    case Quarter => 4 * d.year + QuarterOf(d.month) - 1
    case Year => d.year
  }

  /** A common prefix does not change the comparison. */
  lemma SamePrefix(sep: string, a: string, b: string)
    ensures StrLess(sep + a, sep + b) <==> StrLess(a, b)
    ensures sep + a == sep + b <==> a == b
  {
    StrLessAppend(sep, sep, a, b);
    StrLessIrreflexive(sep);
  }

  /** A key made of a four-digit year, a separator and a `w`-digit sub-period. */
  lemma YearThenPart(y1: nat, y2: nat, sep: string, x1: nat, x2: nat, w: nat)
    requires y1 < 10000 && y2 < 10000 && x1 < Pow10(w) && x2 < Pow10(w)
    ensures StrLess(Digits(y1, 4) + (sep + Digits(x1, w)), Digits(y2, 4) + (sep + Digits(x2, w)))
      <==> y1 < y2 || (y1 == y2 && x1 < x2)
    ensures Digits(y1, 4) + (sep + Digits(x1, w)) == Digits(y2, 4) + (sep + Digits(x2, w))
      <==> y1 == y2 && x1 == x2
  {
    assert Pow10(4) == 10000;
    DigitsOrder(y1, y2, 4);
    DigitsOrder(x1, x2, w);
    SamePrefix(sep, Digits(x1, w), Digits(x2, w));
    StrLessAppend(Digits(y1, 4), Digits(y2, 4), sep + Digits(x1, w), sep + Digits(x2, w));
  }

  /** Key order is chronological order, and two dates share a key exactly when they fall in
      the same period. */
  lemma KeyOrderIsChronological(g: GroupBy, d1: Date, d2: Date)
    requires ValidDate(d1) && ValidDate(d2)
    ensures StrLess(PeriodKey(g, d1), PeriodKey(g, d2)) <==> PeriodIndex(g, d1) < PeriodIndex(g, d2)
    ensures PeriodKey(g, d1) == PeriodKey(g, d2) <==> PeriodIndex(g, d1) == PeriodIndex(g, d2)
  {
    match g
    case Month =>
      assert Pow10(2) == 100;
      YearThenPart(d1.year, d2.year, "-", d1.month, d2.month, 2);
    case Quarter =>
      assert Pow10(1) == 10;
      YearThenPart(d1.year, d2.year, "-Q", QuarterOf(d1.month), QuarterOf(d2.month), 1);
    case Year =>
      assert Pow10(4) == 10000;
      DigitsOrder(d1.year, d2.year, 4);
  }

  /** Events with the same key get the same label. */
  lemma KeyDeterminesLabel(g: GroupBy, d1: Date, d2: Date)
    requires ValidDate(d1) && ValidDate(d2)
    requires PeriodKey(g, d1) == PeriodKey(g, d2)
    ensures PeriodLabel(g, d1) == PeriodLabel(g, d2)
  {
    KeyOrderIsChronological(g, d1, d2);
  }

  // ---- bucketing ----

  /** An entry of `$timelineData`. */
  datatype Bucket = Bucket(period: string, count: nat, events: seq<Event>)

  /** An event with the key and the label the loop computes for it. */
  datatype Tagged = Tagged(key: string, title: string, event: Event)

  function Tag(g: GroupBy, evs: seq<Event>): (ts: seq<Tagged>)
    requires AllValid(evs)
    ensures |ts| == |evs|
    ensures forall i :: 0 <= i < |evs| ==> ts[i].event == evs[i]
  {
    seq(|evs|, i requires 0 <= i < |evs| =>
      Tagged(PeriodKey(g, evs[i].eventDate), PeriodLabel(g, evs[i].eventDate), evs[i]))
  }

  /** Within one grouping, a key always comes with the same label. */
  ghost predicate Consistent(ts: seq<Tagged>)
  {
    forall i, j :: 0 <= i < |ts| && 0 <= j < |ts| && ts[i].key == ts[j].key ==> ts[i].title == ts[j].title
  }

  lemma TagConsistent(g: GroupBy, evs: seq<Event>)
    requires AllValid(evs)
    ensures Consistent(Tag(g, evs))
  {
    var ts := Tag(g, evs);
    forall i, j | 0 <= i < |ts| && 0 <= j < |ts| && ts[i].key == ts[j].key
      ensures ts[i].title == ts[j].title
    {
      KeyDeterminesLabel(g, evs[i].eventDate, evs[j].eventDate);
    }
  }

  /** The tagged events with key `k`, in order. */
  function Matching(ts: seq<Tagged>, k: string): seq<Tagged>
  {
    if ts == [] then []
    else Matching(ts[..|ts| - 1], k) + if ts[|ts| - 1].key == k then [ts[|ts| - 1]] else []
  }

  function EventsOf(ts: seq<Tagged>): (evs: seq<Event>)
    ensures |evs| == |ts|
  {
    seq(|ts|, i requires 0 <= i < |ts| => ts[i].event)
  }

  lemma MatchingStep(ts: seq<Tagged>, t: Tagged, k: string)
    ensures t.key != k ==> Matching(ts + [t], k) == Matching(ts, k)
    ensures t.key == k ==> Matching(ts + [t], k) == Matching(ts, k) + [t]
  {
    assert (ts + [t])[..|ts|] == ts;
  }

  lemma {:induction false} MatchingMembers(ts: seq<Tagged>, k: string)
    ensures forall t :: t in Matching(ts, k) <==> t in ts && t.key == k
  {
    if ts != [] {
      var init := ts[..|ts| - 1];
      MatchingMembers(init, k);
      assert ts == init + [ts[|ts| - 1]];
    }
  }

  predicate Distinct(s: seq<string>)
  {
    forall i, j :: 0 <= i < j < |s| ==> s[i] != s[j]
  }

  /** The number of events in the buckets named by `order`. */
  function TotalCount(order: seq<string>, data: map<string, Bucket>): int
    requires forall k :: k in order ==> k in data
  {
    if order == [] then 0
    else TotalCount(order[..|order| - 1], data) + data[order[|order| - 1]].count
  }

  lemma {:induction false} TotalCountOther(order: seq<string>, data: map<string, Bucket>, k: string, b: Bucket)
    requires forall j :: j in order ==> j in data
    requires k !in order
    ensures TotalCount(order, data[k := b]) == TotalCount(order, data)
  {
    if order != [] {
      TotalCountOther(order[..|order| - 1], data, k, b);
    }
  }

  lemma {:induction false} TotalCountBump(order: seq<string>, data: map<string, Bucket>, k: string, b: Bucket)
    requires forall j :: j in order ==> j in data
    requires Distinct(order) && k in order
    ensures TotalCount(order, data[k := b]) == TotalCount(order, data) - data[k].count + b.count
  {
    var init := order[..|order| - 1];
    if order[|order| - 1] == k {
      assert k !in init;
      TotalCountOther(init, data, k, b);
    } else {
      TotalCountBump(init, data, k, b);
    }
  }

  /** `order` lists the keys of `data`, each once. */
  ghost predicate KeysListed(data: map<string, Bucket>, order: seq<string>)
  {
    Distinct(order) && forall k :: k in order <==> k in data
  }

  /** Each bucket holds exactly the events with its key, in order, counts them and carries
      the label of the first of them. */
  ghost predicate BucketsHold(ts: seq<Tagged>, data: map<string, Bucket>)
  {
    forall k :: k in data ==>
      && data[k].events == EventsOf(Matching(ts, k))
      && data[k].count == |Matching(ts, k)| > 0
      && data[k].period == Matching(ts, k)[0].title
  }

  /** Every key that occurs has a bucket. */
  ghost predicate NoKeyMissing(ts: seq<Tagged>, data: map<string, Bucket>)
  {
    forall k :: k !in data ==> Matching(ts, k) == []
  }

  /** `data` and `order` are the buckets of `ts`: one per key that occurs, listed once each in
      `order`, holding exactly that key's events; the counts add up to the number of events. */
  ghost predicate BucketsOf(ts: seq<Tagged>, data: map<string, Bucket>, order: seq<string>)
  {
    && KeysListed(data, order)
    && BucketsHold(ts, data)
    && NoKeyMissing(ts, data)
    && TotalCount(order, data) == |ts|
  }

  lemma HoldNewBucket(ts: seq<Tagged>, t: Tagged, data: map<string, Bucket>)
    requires BucketsHold(ts, data) && NoKeyMissing(ts, data) && t.key !in data
    ensures BucketsHold(ts + [t], data[t.key := Bucket(t.title, 1, [t.event])])
    ensures NoKeyMissing(ts + [t], data[t.key := Bucket(t.title, 1, [t.event])])
  {
    var data' := data[t.key := Bucket(t.title, 1, [t.event])];
    forall j | j in data'
      ensures data'[j].events == EventsOf(Matching(ts + [t], j))
      ensures data'[j].count == |Matching(ts + [t], j)| > 0
      ensures data'[j].period == Matching(ts + [t], j)[0].title
    {
      MatchingStep(ts, t, j);
      if j == t.key {
        assert Matching(ts, j) == [];
        assert Matching(ts + [t], j) == [t];
      }
    }
    forall j | j !in data' ensures Matching(ts + [t], j) == [] {
      MatchingStep(ts, t, j);
    }
  }

  lemma HoldOldBucket(ts: seq<Tagged>, t: Tagged, data: map<string, Bucket>)
    requires BucketsHold(ts, data) && NoKeyMissing(ts, data) && t.key in data
    ensures var b := data[t.key];
      BucketsHold(ts + [t], data[t.key := Bucket(b.period, b.count + 1, b.events + [t.event])])
    ensures var b := data[t.key];
      NoKeyMissing(ts + [t], data[t.key := Bucket(b.period, b.count + 1, b.events + [t.event])])
  {
    var b := data[t.key];
    var data' := data[t.key := Bucket(b.period, b.count + 1, b.events + [t.event])];
    forall j | j in data'
      ensures data'[j].events == EventsOf(Matching(ts + [t], j))
      ensures data'[j].count == |Matching(ts + [t], j)| > 0
      ensures data'[j].period == Matching(ts + [t], j)[0].title
    {
      MatchingStep(ts, t, j);
      if j == t.key {
        var m := Matching(ts, j);
        assert EventsOf(m + [t]) == EventsOf(m) + [t.event];
        assert (m + [t])[0] == m[0];
      }
    }
    forall j | j !in data' ensures Matching(ts + [t], j) == [] {
      MatchingStep(ts, t, j);
    }
  }

  lemma NewBucketStep(ts: seq<Tagged>, t: Tagged, data: map<string, Bucket>, order: seq<string>)
    requires BucketsOf(ts, data, order) && t.key !in data
    ensures BucketsOf(ts + [t], data[t.key := Bucket(t.title, 0, [])][t.key := Bucket(t.title, 0 + 1, [] + [t.event])],
                      order + [t.key])
  {
    var b := Bucket(t.title, 1, [t.event]);
    assert [] + [t.event] == [t.event];
    var data' := data[t.key := b];
    assert data[t.key := Bucket(t.title, 0, [])][t.key := Bucket(t.title, 0 + 1, [] + [t.event])] == data';
    HoldNewBucket(ts, t, data);
    TotalCountOther(order, data, t.key, b);
    assert (order + [t.key])[..|order|] == order;
  }

  lemma OldBucketStep(ts: seq<Tagged>, t: Tagged, data: map<string, Bucket>, order: seq<string>)
    requires BucketsOf(ts, data, order) && t.key in data
    ensures var b := data[t.key];
      BucketsOf(ts + [t], data[t.key := Bucket(b.period, b.count + 1, b.events + [t.event])], order)
  {
    var b := data[t.key];
    HoldOldBucket(ts, t, data);
    TotalCountBump(order, data, t.key, Bucket(b.period, b.count + 1, b.events + [t.event]));
  }

  /** The body of the bucketing `foreach`: open the bucket of the event's key if it is new,
      then count the event and append it. */
  method PlaceEvent(g: GroupBy, event: Event, data0: map<string, Bucket>, order0: seq<string>, ghost ts: seq<Tagged>)
    returns (data: map<string, Bucket>, order: seq<string>)
    requires ValidDate(event.eventDate) && BucketsOf(ts, data0, order0)
    ensures BucketsOf(ts + [Tagged(PeriodKey(g, event.eventDate), PeriodLabel(g, event.eventDate), event)], data, order)
  {
    data, order := data0, order0;
    var periodKey := PeriodKey(g, event.eventDate);
    var periodLabel := PeriodLabel(g, event.eventDate);
    ghost var t := Tagged(periodKey, periodLabel, event);
    if periodKey !in data {
      NewBucketStep(ts, t, data, order);
      data := data[periodKey := Bucket(periodLabel, 0, [])];
      order := order + [periodKey];
    } else {
      OldBucketStep(ts, t, data, order);
    }
    var bucket := data[periodKey];
    data := data[periodKey := Bucket(bucket.period, bucket.count + 1, bucket.events + [event])];
  }

  /** The bucketing `foreach`: the buckets of the tagged events, keys in insertion order. */
  method Bucketize(g: GroupBy, allEvents: seq<Event>) returns (data: map<string, Bucket>, order: seq<string>)
    requires AllValid(allEvents)
    ensures BucketsOf(Tag(g, allEvents), data, order)
  {
    ghost var ts := Tag(g, allEvents);
    data := map[];
    order := [];
    var i := 0;
    while i < |allEvents|
      invariant 0 <= i <= |allEvents|
      invariant BucketsOf(ts[..i], data, order)
    {
      assert ts[..i + 1] == ts[..i] + [ts[i]];
      data, order := PlaceEvent(g, allEvents[i], data, order, ts[..i]);
      i := i + 1;
    }
    assert ts[..i] == ts;
  }

  /** Every event lands in the bucket of its own key. */
  lemma EveryEventBucketed(g: GroupBy, evs: seq<Event>, data: map<string, Bucket>, order: seq<string>, i: int)
    requires AllValid(evs) && BucketsOf(Tag(g, evs), data, order) && 0 <= i < |evs|
    ensures PeriodKey(g, evs[i].eventDate) in data && evs[i] in data[PeriodKey(g, evs[i].eventDate)].events
  {
    var ts := Tag(g, evs);
    var k := ts[i].key;
    MatchingMembers(ts, k);
    assert ts[i] in Matching(ts, k);
    var m := Matching(ts, k);
    var p :| 0 <= p < |m| && m[p] == ts[i];
    assert EventsOf(m)[p] == evs[i];
  }

  /** Every event of a bucket has the bucket's key and the bucket's label. */
  lemma BucketIsOnePeriod(g: GroupBy, evs: seq<Event>, data: map<string, Bucket>, order: seq<string>,
                          k: string, e: Event)
    requires AllValid(evs) && BucketsOf(Tag(g, evs), data, order) && k in data && e in data[k].events
    ensures e in evs && ValidDate(e.eventDate) && PeriodKey(g, e.eventDate) == k
    ensures PeriodLabel(g, e.eventDate) == data[k].period
  {
    var ts := Tag(g, evs);
    TagConsistent(g, evs);
    var m := Matching(ts, k);
    MatchingMembers(ts, k);
    var p :| 0 <= p < |m| && EventsOf(m)[p] == e;
    assert m[p] in ts && m[0] in ts;
    var i :| 0 <= i < |ts| && ts[i] == m[p];
    var j :| 0 <= j < |ts| && ts[j] == m[0];
    assert evs[i] == e;
  }

  // ---- ksort ----

  /** Ascending in string order. */
  predicate Ascending(s: seq<string>)
  {
    forall i :: 0 <= i < |s| - 1 ==> StrLess(s[i], s[i + 1])
  }

  function InsertKey(x: string, t: seq<string>): seq<string>
  {
    if t == [] || StrLess(x, t[0]) then [x] + t else [t[0]] + InsertKey(x, t[1..])
  }

  lemma {:induction false} InsertKeyProps(x: string, t: seq<string>)
    requires Ascending(t) && x !in t
    ensures multiset(InsertKey(x, t)) == multiset(t) + multiset{x}
    ensures Ascending(InsertKey(x, t))
    ensures InsertKey(x, t) != [] && (InsertKey(x, t)[0] == x || (t != [] && InsertKey(x, t)[0] == t[0]))
  {
    if !(t == [] || StrLess(x, t[0])) {
      assert t == [t[0]] + t[1..];
      InsertKeyProps(x, t[1..]);
      StrLessTotal(x, t[0]);
    }
  }

  /** `ksort`: the keys in ascending string order. */
  function SortKeys(keys: seq<string>): (r: seq<string>)
    requires Distinct(keys)
    ensures multiset(r) == multiset(keys)
    ensures Ascending(r)
  {
    if keys == [] then []
    else
      var rest := SortKeys(keys[1..]);
      assert keys == [keys[0]] + keys[1..];
      assert keys[0] !in multiset(rest);
      InsertKeyProps(keys[0], rest);
      InsertKey(keys[0], rest)
  }

  /** StrLess is transitive. */
  lemma {:induction false} StrLessTrans(a: string, b: string, c: string)
    requires StrLess(a, b) && StrLess(b, c)
    ensures StrLess(a, c)
  {
    if a != [] && b != [] && c != [] && a[0] == b[0] == c[0] {
      StrLessTrans(a[1..], b[1..], c[1..]);
    }
  }

  /** An ascending sequence is strictly increasing between any two positions, so no key
      appears twice. */
  lemma {:induction false} AscendingIsStrict(s: seq<string>, i: int, j: int)
    requires Ascending(s) && 0 <= i < j < |s|
    ensures StrLess(s[i], s[j]) && s[i] != s[j]
    decreases j - i
  {
    if j > i + 1 {
      AscendingIsStrict(s, i + 1, j);
      StrLessTrans(s[i], s[i + 1], s[j]);
    }
    StrLessIrreflexive(s[i]);
  }

  /** The keys of `sorted` are buckets whose first event has that key. */
  ghost predicate KeyedBy(g: GroupBy, data: map<string, Bucket>, sorted: seq<string>)
  {
    forall k :: k in sorted ==>
      k in data && data[k].events != [] && ValidDate(data[k].events[0].eventDate)
      && PeriodKey(g, data[k].events[0].eventDate) == k
  }

  ghost function Periods(g: GroupBy, data: map<string, Bucket>, sorted: seq<string>): (r: seq<int>)
    requires KeyedBy(g, data, sorted)
    ensures |r| == |sorted|
  {
    seq(|sorted|, i requires 0 <= i < |sorted| => PeriodIndex(g, data[sorted[i]].events[0].eventDate))
  }

  lemma {:induction false} IncreasingEverywhere(r: seq<int>, i: int, j: int)
    requires forall k :: 0 <= k < |r| - 1 ==> r[k] < r[k + 1]
    requires 0 <= i < j < |r|
    ensures r[i] < r[j]
    decreases j - i
  {
    if j > i + 1 {
      IncreasingEverywhere(r, i + 1, j);
    }
  }

  /** After `ksort` the buckets run in calendar order: each period strictly after the one
      before it. */
  lemma SortedIsChronological(g: GroupBy, data: map<string, Bucket>, sorted: seq<string>)
    requires Ascending(sorted) && KeyedBy(g, data, sorted)
    ensures forall i, j :: 0 <= i < j < |sorted| ==> Periods(g, data, sorted)[i] < Periods(g, data, sorted)[j]
  {
    var r := Periods(g, data, sorted);
    forall k | 0 <= k < |r| - 1 ensures r[k] < r[k + 1] {
      assert sorted[k] in sorted && sorted[k + 1] in sorted;
      KeyOrderIsChronological(g, data[sorted[k]].events[0].eventDate, data[sorted[k + 1]].events[0].eventDate);
    }
    forall i, j | 0 <= i < j < |r| ensures r[i] < r[j] {
      IncreasingEverywhere(r, i, j);
    }
  }

  /** Reordering the keys does not change the total. */
  lemma {:induction false} TotalCountPermuted(a: seq<string>, b: seq<string>, data: map<string, Bucket>)
    requires forall k :: k in a ==> k in data
    requires multiset(a) == multiset(b)
    ensures forall k :: k in b ==> k in data
    ensures TotalCount(a, data) == TotalCount(b, data)
    decreases |a|
  {
    SameMembers(a, b);
    if a != [] {
      var init, last := a[..|a| - 1], a[|a| - 1];
      var p := PositionOf(b, last);
      var b' := RemoveAt(b, p);
      DropLast(a, b, p, data);
      TotalCountPermuted(init, b', data);
      TotalCountRemove(b, p, data);
    }
  }

  lemma DropLast(a: seq<string>, b: seq<string>, p: int, data: map<string, Bucket>)
    requires a != [] && 0 <= p < |b| && b[p] == a[|a| - 1]
    requires forall k :: k in a ==> k in data
    requires multiset(a) == multiset(b)
    ensures multiset(a[..|a| - 1]) == multiset(RemoveAt(b, p))
    ensures forall k :: k in a[..|a| - 1] ==> k in data
  {
    assert a == a[..|a| - 1] + [a[|a| - 1]];
    assert forall k :: k in a[..|a| - 1] ==> k in a;
  }

  lemma TotalCountRemove(b: seq<string>, p: int, data: map<string, Bucket>)
    requires 0 <= p < |b|
    requires forall k :: k in b ==> k in data
    ensures forall k :: k in RemoveAt(b, p) ==> k in data
    ensures TotalCount(b, data) == TotalCount(RemoveAt(b, p), data) + data[b[p]].count
  {
    assert b == b[..p] + [b[p]] + b[p + 1..];
    TotalCountMove(b[..p], b[p], b[p + 1..], data);
  }

  lemma SameMembers(a: seq<string>, b: seq<string>)
    requires multiset(a) == multiset(b)
    ensures forall k :: k in a <==> k in b
  {
    forall k ensures k in a <==> k in b {
      assert k in a <==> k in multiset(a);
      assert k in b <==> k in multiset(b);
    }
  }

  function PositionOf(b: seq<string>, x: string): (p: int)
    requires x in b
    ensures 0 <= p < |b| && b[p] == x
  {
    if b[0] == x then 0 else 1 + PositionOf(b[1..], x)
  }

  function RemoveAt(b: seq<string>, p: int): (r: seq<string>)
    requires 0 <= p < |b|
    ensures multiset(r) == multiset(b) - multiset{b[p]}
    ensures r == b[..p] + b[p + 1..]
  {
    assert b == b[..p] + [b[p]] + b[p + 1..];
    b[..p] + b[p + 1..]
  }

  /** Moving one key to the end does not change the total. */
  lemma {:induction false} TotalCountMove(x: seq<string>, k: string, y: seq<string>, data: map<string, Bucket>)
    requires forall j :: j in x + [k] + y ==> j in data
    ensures forall j :: j in x + y ==> j in data
    ensures TotalCount(x + [k] + y, data) == TotalCount(x + y, data) + data[k].count
    decreases |y|
  {
    assert forall j :: j in x + y ==> j in x + [k] + y;
    if y == [] {
      assert x + [k] + y == x + [k];
      assert (x + [k])[..|x|] == x;
      assert x + y == x;
    } else {
      var y' := y[..|y| - 1];
      var l := y[|y| - 1];
      assert x + [k] + y == (x + [k] + y') + [l];
      assert (x + [k] + y)[..|x + [k] + y| - 1] == x + [k] + y';
      assert x + y == (x + y') + [l];
      assert (x + y)[..|x + y| - 1] == x + y';
      assert forall j :: j in x + [k] + y' ==> j in x + [k] + y;
      TotalCountMove(x, k, y', data);
    }
  }

  // ---- the peak period ----

  /** `keys[i]` is where the peak loop settles: its count is `peakCount`, the label is its
      period, and no earlier bucket reaches that count. */
  predicate PeakAt(keys: seq<string>, data: map<string, Bucket>, i: int, peakPeriod: string, peakCount: nat)
    requires forall k :: k in keys ==> k in data
  {
    0 <= i < |keys| && data[keys[i]].count == peakCount && data[keys[i]].period == peakPeriod
    && forall j :: 0 <= j < i ==> data[keys[j]].count < peakCount
  }

  /** The peak loop: the first bucket with the largest count, or 'N/A' and 0. */
  method Peak(keys: seq<string>, data: map<string, Bucket>) returns (peakPeriod: string, peakCount: nat)
    requires forall k :: k in keys ==> k in data
    ensures forall i :: 0 <= i < |keys| ==> data[keys[i]].count <= peakCount
    ensures peakCount == 0 ==> peakPeriod == "N/A"
    ensures peakCount > 0 ==> exists i :: PeakAt(keys, data, i, peakPeriod, peakCount)
  {
    peakPeriod, peakCount := "N/A", 0;
    ghost var at := -1;
    var i := 0;
    while i < |keys|
      invariant 0 <= i <= |keys|
      invariant forall j :: 0 <= j < i ==> data[keys[j]].count <= peakCount
      invariant peakCount == 0 ==> peakPeriod == "N/A"
      invariant peakCount > 0 ==> at < i && PeakAt(keys, data, at, peakPeriod, peakCount)
    {
      var b := data[keys[i]];
      if b.count > peakCount {
        peakCount := b.count;
        peakPeriod := b.period;
        at := i;
      }
      i := i + 1;
    }
  }

  datatype Report = Report(keys: seq<string>, data: map<string, Bucket>, totalEvents: nat,
                           totalPeriods: nat, peakPeriod: string, peakCount: nat)

  /** The buckets after `ksort`, with what the proofs need about them. */
  lemma SortedBuckets(g: GroupBy, evs: seq<Event>, data: map<string, Bucket>, order: seq<string>, keys: seq<string>)
    requires AllValid(evs) && BucketsOf(Tag(g, evs), data, order)
    requires multiset(keys) == multiset(order) && Ascending(keys)
    ensures BucketsOf(Tag(g, evs), data, keys)
    ensures KeyedBy(g, data, keys)
  {
    assert forall k :: k in keys <==> k in order by {
      forall k ensures k in keys <==> k in order {
        assert k in keys <==> k in multiset(keys);
        assert k in order <==> k in multiset(order);
      }
    }
    forall i, j | 0 <= i < j < |keys| ensures keys[i] != keys[j] {
      AscendingIsStrict(keys, i, j);
    }
    TotalCountPermuted(order, keys, data);
    forall k | k in keys
      ensures data[k].events != [] && ValidDate(data[k].events[0].eventDate)
      ensures PeriodKey(g, data[k].events[0].eventDate) == k
    {
      BucketIsOnePeriod(g, evs, data, order, k, data[k].events[0]);
    }
  }

  /** Steps 3 and 4 of the page. */
  method Analyze(g: GroupBy, allEvents: seq<Event>) returns (report: Report)
    requires AllValid(allEvents)
    ensures BucketsOf(Tag(g, allEvents), report.data, report.keys)
    ensures Ascending(report.keys)
    ensures KeyedBy(g, report.data, report.keys)
    ensures forall i, j :: 0 <= i < j < |report.keys| ==>
      Periods(g, report.data, report.keys)[i] < Periods(g, report.data, report.keys)[j]
    ensures report.totalEvents == |allEvents| && report.totalPeriods == |report.keys|
    ensures forall i :: 0 <= i < |report.keys| ==> report.data[report.keys[i]].count <= report.peakCount
    ensures allEvents == [] <==> report.peakPeriod == "N/A" && report.peakCount == 0
    ensures report.peakCount > 0 ==> exists i :: PeakAt(report.keys, report.data, i, report.peakPeriod, report.peakCount)
  {
    var data, order := Bucketize(g, allEvents);
    var keys := SortKeys(order);
    SortedBuckets(g, allEvents, data, order, keys);
    SortedIsChronological(g, data, keys);
    var peakPeriod, peakCount := Peak(keys, data);
    if allEvents != [] {
      EveryEventBucketed(g, allEvents, data, keys, 0);
      var k := PeriodKey(g, allEvents[0].eventDate);
      var idx :| 0 <= idx < |keys| && keys[idx] == k;
      assert data[keys[idx]].count > 0;
    } else {
      assert keys == [];
    }
    report := Report(keys, data, |allEvents|, |keys|, peakPeriod, peakCount);
  }
}

=== FILE: transaction_costs.dfy ===
/** scm_transaction_costs.php: the list of companies that trade with a chosen company
    (merged from two query results and de-duplicated by CompanyID) and the validation of
    the cost-analysis form. The two query results and the cost lookup are inputs. */
module TransactionCosts {

  /** A row of either query: CompanyID, CompanyName, Type. */
  datatype Related = Related(companyId: int, name: string, companyType: string)

  /** The CompanyID column. */
  function Ids(s: seq<Related>): seq<int>
  {
    seq(|s|, k requires 0 <= k < |s| => s[k].companyId)
  }

  /** The `direction` request parameter: 'source', 'destination', 'both', or any other
      string, which selects neither query. */
  datatype Direction = Source | Destination | Both | Other

  /** `$companies` after the two `array_merge` steps: the companies this one ships to when the
      direction is 'source' or 'both', then those that ship to it when it is 'destination' or
      'both'. */
  function Merged(direction: Direction, destinations: seq<Related>, sources: seq<Related>): (r: seq<Related>)
    ensures direction == Both ==> r == destinations + sources
    ensures direction == Source ==> r == destinations
    ensures direction == Destination ==> r == sources
    ensures direction == Other ==> r == []
  {
    var fromDest := if direction == Source || direction == Both then destinations else [];
    var fromSrc := if direction == Destination || direction == Both then sources else [];
    [] + fromDest + fromSrc
  }

  /** The rows of `s` whose CompanyID has not occurred earlier in `s`, in order. */
  function KeepFirst(s: seq<Related>): seq<Related>
  {
    if s == [] then []
    else
      var init := s[..|s| - 1];
      KeepFirst(init) + if s[|s| - 1].companyId in Ids(init) then [] else [s[|s| - 1]]
  }

  /** The first occurrences keep exactly the CompanyIDs of the input. */
  lemma {:induction false} KeepFirstIds(s: seq<Related>)
    ensures forall id :: id in Ids(KeepFirst(s)) <==> id in Ids(s)
  {
    if s != [] {
      var init := s[..|s| - 1];
      KeepFirstIds(init);
      KeepFirstSnoc(s);
      var last := if s[|s| - 1].companyId in Ids(init) then [] else [s[|s| - 1]];
      IdsAppend(KeepFirst(init), last);
      assert s == init + [s[|s| - 1]];
      IdsAppend(init, [s[|s| - 1]]);
    }
  }

  lemma IdsAppend(a: seq<Related>, b: seq<Related>)
    ensures Ids(a + b) == Ids(a) + Ids(b)
  {
  }

  predicate DistinctIds(s: seq<Related>)
  {
    forall i, j :: 0 <= i < j < |s| ==> s[i].companyId != s[j].companyId
  }

  /** No two rows of the result share a CompanyID. */
  lemma {:induction false} KeepFirstDistinct(s: seq<Related>)
    ensures DistinctIds(KeepFirst(s))
  {
    if s != [] {
      var init := s[..|s| - 1];
      KeepFirstDistinct(init);
      KeepFirstIds(init);
      var k := KeepFirst(init);
      if s[|s| - 1].companyId !in Ids(init) {
        forall i | 0 <= i < |k| ensures k[i].companyId != s[|s| - 1].companyId {
          assert Ids(k)[i] == k[i].companyId;
        }
      }
    }
  }

  /** Position `j` holds the first row of `s` with its CompanyID. */
  ghost predicate IsFirstOccurrence(s: seq<Related>, j: int)
    requires 0 <= j < |s|
  {
    forall i :: 0 <= i < j ==> s[i].companyId != s[j].companyId
  }

  lemma FirstOccurrenceInPrefix(s: seq<Related>)
    requires s != []
    ensures forall j :: 0 <= j < |s| - 1 ==>
      (IsFirstOccurrence(s[..|s| - 1], j) <==> IsFirstOccurrence(s, j))
  {
  }

  lemma KeepFirstSnoc(s: seq<Related>)
    requires s != []
    ensures KeepFirst(s) == KeepFirst(s[..|s| - 1])
      + if s[|s| - 1].companyId in Ids(s[..|s| - 1]) then [] else [s[|s| - 1]]
  {
  }

  lemma KeepFirstAppend(a: seq<Related>, x: Related)
    ensures KeepFirst(a + [x]) == KeepFirst(a) + if x.companyId in Ids(a) then [] else [x]
  {
    KeepFirstSnoc(a + [x]);
    assert (a + [x])[..|a|] == a;
  }

  /** The positions of `s` that `KeepFirst` keeps. */
  ghost function FirstPositions(s: seq<Related>): seq<nat>
  {
    if s == [] then []
    else FirstPositions(s[..|s| - 1]) + if s[|s| - 1].companyId in Ids(s[..|s| - 1]) then [] else [|s| - 1]
  }

  /** The kept rows are the rows at increasing positions of the input: the result is a
      subsequence of `s`. */
  lemma {:induction false} KeptAtPositions(s: seq<Related>)
    ensures |FirstPositions(s)| == |KeepFirst(s)|
    ensures forall k :: 0 <= k < |FirstPositions(s)| ==>
      FirstPositions(s)[k] < |s| && KeepFirst(s)[k] == s[FirstPositions(s)[k]]
    ensures forall k, l :: 0 <= k < l < |FirstPositions(s)| ==> FirstPositions(s)[k] < FirstPositions(s)[l]
  {
    if s != [] {
      KeptAtPositions(s[..|s| - 1]);
      KeepFirstSnoc(s);
    }
  }

  /** The kept positions are exactly the first occurrences of each CompanyID. */
  lemma {:induction false} PositionsAreFirstOccurrences(s: seq<Related>)
    ensures forall j :: j in FirstPositions(s) <==> 0 <= j < |s| && IsFirstOccurrence(s, j)
  {
    if s != [] {
      var init := s[..|s| - 1];
      var n := |s| - 1;
      PositionsAreFirstOccurrences(init);
      FirstOccurrenceInPrefix(s);
      if s[n].companyId in Ids(init) {
        var i :| 0 <= i < |init| && Ids(init)[i] == s[n].companyId;
        assert s[i].companyId == s[n].companyId;
        assert !IsFirstOccurrence(s, n);
      } else {
        forall i | 0 <= i < n ensures s[i].companyId != s[n].companyId {
          assert Ids(init)[i] == s[i].companyId;
        }
        assert IsFirstOccurrence(s, n);
      }
    }
  }

  /** One turn of the `$seenIds` loop keeps `$uniqueCompanies` equal to the first
      occurrences of the rows seen so far. */
  lemma DedupStep(prefix: seq<Related>, x: Related, unique: seq<Related>, seenIds: seq<int>)
    requires unique == KeepFirst(prefix) && seenIds == Ids(unique)
    ensures x.companyId in seenIds <==> x.companyId in Ids(prefix)
    ensures KeepFirst(prefix + [x]) == unique + if x.companyId in seenIds then [] else [x]
    ensures Ids(unique + [x]) == seenIds + [x.companyId]
  {
    KeepFirstIds(prefix);
    KeepFirstAppend(prefix, x);
    IdsAppend(unique, [x]);
  }

  /** The `$seenIds` loop: keep each row whose CompanyID has not been seen yet. */
  method RemoveDuplicates(companies: seq<Related>) returns (unique: seq<Related>)
    ensures unique == KeepFirst(companies)
  {
    unique := [];
    var seenIds: seq<int> := [];
    var i := 0;
    while i < |companies|
      invariant 0 <= i <= |companies|
      invariant unique == KeepFirst(companies[..i])
      invariant seenIds == Ids(unique)
    {
      var company := companies[i];
      DedupStep(companies[..i], company, unique, seenIds);
      assert companies[..i + 1] == companies[..i] + [company];
      if company.companyId !in seenIds {
        unique := unique + [company];
        seenIds := seenIds + [company.companyId];
      }
      i := i + 1;
    }
    assert companies[..i] == companies;
  }

  /** getRelatedCompanies after the two queries: merge, then remove duplicate CompanyIDs. */
  method GetRelatedCompanies(direction: Direction, destinations: seq<Related>, sources: seq<Related>)
    returns (unique: seq<Related>)
    ensures unique == KeepFirst(Merged(direction, destinations, sources))
    ensures DistinctIds(unique)
    ensures forall id :: id in Ids(unique) <==> id in Ids(Merged(direction, destinations, sources))
  {
    var companies := [];
    if direction == Source || direction == Both {
      companies := companies + destinations;
    }
    if direction == Destination || direction == Both {
      companies := companies + sources;
    }
    assert companies == Merged(direction, destinations, sources);
    unique := RemoveDuplicates(companies);
    KeepFirstDistinct(companies);
    KeepFirstIds(companies);
  }

  // ---- the form handler ----

  /** PHP truthiness of a posted field: absent, "" and "0" are false. */
  predicate Filled(field: Option<string>)
  {
    field.Some? && field.value != "" && field.value != "0"
  }

  datatype Option<T> = None | Some(value: T)

  // ---- PHP 8's loose `==` on two strings ----

  /** The whitespace PHP 8 allows before and after a numeric string: space, tab, line feed,
      carriage return, vertical tab and form feed. */
  predicate IsSpace(c: char)
  {
    c == ' ' || c == '\t' || c == '\n' || c == '\r' || c as int == 11 || c as int == 12
  }

  predicate IsDigit(c: char)
  {
    '0' <= c <= '9'
  }

  predicate AllDigits(s: string)
  {
    forall i :: 0 <= i < |s| ==> IsDigit(s[i])
  }

  predicate IsDigits(s: string)
  {
    |s| > 0 && AllDigits(s)
  }

  function DigitsValue(s: string): nat
    requires AllDigits(s)
  {
    if s == [] then 0 else 10 * DigitsValue(s[..|s| - 1]) + (s[|s| - 1] as int - '0' as int)
  }

  /** `s` without its leading whitespace: what is dropped is all whitespace, and what is left
      does not start with any. */
  function TrimStart(s: string): (t: string)
    ensures |t| <= |s| && t == s[|s| - |t|..]
    ensures forall i :: 0 <= i < |s| - |t| ==> IsSpace(s[i])
    ensures t == [] || !IsSpace(t[0])
  {
    if s != [] && IsSpace(s[0]) then TrimStart(s[1..]) else s
  }

  /** `s` without its trailing whitespace: what is dropped is all whitespace, and what is left
      does not end with any. */
  function TrimEnd(s: string): (t: string)
    ensures |t| <= |s| && t == s[..|t|]
    ensures forall i :: |t| <= i < |s| ==> IsSpace(s[i])
    ensures t == [] || !IsSpace(t[|t| - 1])
  {
    if s != [] && IsSpace(s[|s| - 1]) then TrimEnd(s[..|s| - 1]) else s
  }

  /** The length of the run of digits that starts `s`. */
  function DigitRun(s: string): (n: nat)
    ensures n <= |s| && AllDigits(s[..n]) && (n < |s| ==> !IsDigit(s[n]))
  {
    if s != [] && IsDigit(s[0]) then 1 + DigitRun(s[1..]) else 0
  }

  /** A number as written: `-digits × 10^exponent` when `negative`, else `digits × 10^exponent`. */
  datatype Decimal = Decimal(negative: bool, digits: nat, exponent: int)

  /** The optional exponent that ends a numeric string: `e` or `E`, an optional sign and at
      least one digit. Nothing at all is exponent 0. */
  function ParseExponent(s: string): Option<int>
  {
    if s == [] then Some(0)
    else if s[0] != 'e' && s[0] != 'E' then None
    else
      var t := s[1..];
      var signed := t != [] && (t[0] == '+' || t[0] == '-');
      var d := if signed then t[1..] else t;
      if IsDigits(d) then
        var n: int := DigitsValue(d);
        Some(if signed && t[0] == '-' then -n else n)
      else None
  }

  lemma AllDigitsConcat(a: string, b: string)
    requires AllDigits(a) && AllDigits(b)
    ensures AllDigits(a + b)
  {
    assert forall k :: 0 <= k < |a + b| ==> (a + b)[k] == if k < |a| then a[k] else b[k - |a|];
  }

  /** The number with the digits `whole` before the point and `fraction` after it, when there
      is at least one digit and `tail` is an exponent or nothing. */
  function Assemble(whole: string, fraction: string, tail: string): (r: Option<Decimal>)
    requires AllDigits(whole) && AllDigits(fraction)
    ensures r.Some? ==> !r.value.negative
  {
    if |whole| + |fraction| == 0 then None
    else
      match ParseExponent(tail)
      case None => None
      case Some(e) =>
        AllDigitsConcat(whole, fraction);
        Some(Decimal(false, DigitsValue(whole + fraction), e - |fraction|))
  }

  /** What follows the leading digits: optionally a `.` and more digits, then the exponent. */
  function ParseAfterWhole(whole: string, rest: string): (r: Option<Decimal>)
    requires AllDigits(whole)
    ensures r.Some? ==> !r.value.negative
  {
    if rest != [] && rest[0] == '.' then
      var j := DigitRun(rest[1..]);
      Assemble(whole, rest[1..][..j], rest[1..][j..])
    else
      Assemble(whole, [], rest)
  }

  /** An unsigned number: digits, then optionally a `.` and more digits, with at least one digit
      on one side of the point, then the optional exponent. */
  function ParseUnsigned(s: string): (r: Option<Decimal>)
    ensures r.Some? ==> !r.value.negative
  {
    var i := DigitRun(s);
    ParseAfterWhole(s[..i], s[i..])
  }

  /** An optional sign, then an unsigned number. */
  function ParseSigned(b: string): Option<Decimal>
  {
    var signed := b != [] && (b[0] == '+' || b[0] == '-');
    match ParseUnsigned(if signed then b[1..] else b)
    case None => None
    case Some(d) => Some(d.(negative := signed && b[0] == '-'))
  }

  /** PHP 8's numeric strings: optional leading and trailing whitespace around an optional sign
      and an unsigned number. Any other string is not numeric. */
  function ParseNumeric(s: string): Option<Decimal>
  {
    ParseSigned(TrimEnd(TrimStart(s)))
  }

  function Pow10(n: nat): nat
  {
    if n == 0 then 1 else 10 * Pow10(n - 1)
  }

  /** Two decimals denote the same number: both zero, whatever their signs, or the same sign and
      the same digits once both are brought to the smaller exponent. */
  predicate SameNumber(x: Decimal, y: Decimal)
  {
    if x.digits == 0 || y.digits == 0 then x.digits == 0 && y.digits == 0
    else
      var m := if x.exponent < y.exponent then x.exponent else y.exponent;
      x.negative == y.negative && x.digits * Pow10(x.exponent - m) == y.digits * Pow10(y.exponent - m)
  }

  /** PHP 8's `==` on two strings: when both are numeric they are compared as numbers, any
      other pair byte by byte. */
  predicate LooselyEqual(a: string, b: string)
  {
    match (ParseNumeric(a), ParseNumeric(b))
    case (Some(x), Some(y)) => SameNumber(x, y)
    case _ => a == b
  }

  lemma SameNumberReflexiveSymmetric(x: Decimal, y: Decimal)
    ensures SameNumber(x, x)
    ensures SameNumber(x, y) <==> SameNumber(y, x)
  {
  }

  /** The comparison is reflexive and symmetric, so a company always equals itself. */
  lemma LooselyEqualReflexiveSymmetric(a: string, b: string)
    ensures LooselyEqual(a, a)
    ensures LooselyEqual(a, b) <==> LooselyEqual(b, a)
  {
    var pa, pb := ParseNumeric(a), ParseNumeric(b);
    if pa.Some? {
      SameNumberReflexiveSymmetric(pa.value, pa.value);
      if pb.Some? {
        SameNumberReflexiveSymmetric(pa.value, pb.value);
      }
    }
  }

  lemma {:induction false} DigitRunAll(s: string)
    requires AllDigits(s)
    ensures DigitRun(s) == |s|
    decreases |s|
  {
    if s != [] {
      DigitRunAll(s[1..]);
    }
  }

  /** A plain digit string is numeric, with its decimal value. */
  lemma DigitStringIsNumeric(s: string)
    requires IsDigits(s)
    ensures ParseNumeric(s) == Some(Decimal(false, DigitsValue(s), 0))
  {
    UnsignedIsNumeric(s);
    DigitsAreUnsigned(s);
  }

  /** A plain digit string is an unsigned number with its decimal value. */
  lemma DigitsAreUnsigned(d: string)
    requires IsDigits(d)
    ensures ParseUnsigned(d) == Some(Decimal(false, DigitsValue(d), 0))
  {
    DigitRunAll(d);
    assert d[..|d|] == d && d[|d|..] == [];
    assert d + [] == d;
  }

  /** A string that starts with a digit and does not end in whitespace has no sign and nothing
      to trim: it is numeric exactly when it is an unsigned number. */
  lemma UnsignedIsNumeric(s: string)
    requires s != [] && IsDigit(s[0]) && !IsSpace(s[|s| - 1])
    ensures ParseNumeric(s) == ParseUnsigned(s)
  {
    assert !IsSpace(s[0]);
    assert TrimStart(s) == s;
    assert TrimEnd(s) == s;
  }

  /** Two digit strings are equal for PHP exactly when their values are. */
  lemma DigitStringsCompareByValue(a: string, b: string)
    requires IsDigits(a) && IsDigits(b)
    ensures LooselyEqual(a, b) <==> DigitsValue(a) == DigitsValue(b)
  {
    DigitStringIsNumeric(a);
    DigitStringIsNumeric(b);
  }

  /** Whitespace appended to a string that has something besides whitespace goes with it to the
      end of the leading-trimmed string. */
  lemma {:induction false} TrimStartSnoc(s: string, c: char)
    requires IsSpace(c)
    ensures TrimStart(s + [c]) == if TrimStart(s) == [] then [] else TrimStart(s) + [c]
    decreases |s|
  {
    if s == [] {
    } else if IsSpace(s[0]) {
      assert (s + [c])[1..] == s[1..] + [c];
      TrimStartSnoc(s[1..], c);
    }
  }

  /** A whitespace character before a string changes neither whether it is numeric nor its
      value. */
  lemma LeadingSpaceIgnored(s: string, c: char)
    requires IsSpace(c)
    ensures ParseNumeric([c] + s) == ParseNumeric(s)
  {
    assert ([c] + s)[1..] == s;
    assert TrimStart([c] + s) == TrimStart(s);
  }

  /** A whitespace character after a string changes neither whether it is numeric nor its
      value. */
  lemma TrailingSpaceIgnored(s: string, c: char)
    requires IsSpace(c)
    ensures ParseNumeric(s + [c]) == ParseNumeric(s)
  {
    TrimStartSnoc(s, c);
    var t := TrimStart(s);
    if t != [] {
      assert (t + [c])[..|t|] == t;
      assert TrimEnd(t + [c]) == TrimEnd(t);
    }
    assert TrimEnd(TrimStart(s + [c])) == TrimEnd(TrimStart(s));
  }

  /** "1" and "01" name the same company for PHP. */
  lemma LeadingZeroIsSameCompany()
    ensures LooselyEqual("1", "01") && "1" != "01"
  {
    assert DigitsValue("0") == 0;
    assert "01"[..1] == "0";
    assert DigitsValue("01") == 1;
    assert DigitsValue("1") == 1;
    DigitStringsCompareByValue("1", "01");
  }

  /** A sign before a digit string is numeric: the digits' value, negative for `-`. */
  lemma SignedDigitsAreNumeric(sign: char, d: string)
    requires (sign == '+' || sign == '-') && IsDigits(d)
    ensures ParseNumeric([sign] + d) == Some(Decimal(sign == '-', DigitsValue(d), 0))
  {
    var s := [sign] + d;
    assert !IsSpace(s[0]);
    assert TrimStart(s) == s;
    assert s[|s| - 1] == d[|d| - 1] && !IsSpace(s[|s| - 1]);
    assert TrimEnd(s) == s;
    assert s[1..] == d;
    DigitsAreUnsigned(d);
  }

  /** Digits followed by more text: the digit run covers the digits and whatever digits start
      the rest. */
  lemma {:induction false} DigitRunAppend(d: string, rest: string)
    requires AllDigits(d)
    ensures DigitRun(d + rest) == |d| + DigitRun(rest)
    decreases |d|
  {
    if d != [] {
      assert (d + rest)[0] == d[0] && IsDigit(d[0]);
      assert (d + rest)[1..] == d[1..] + rest;
      DigitRunAppend(d[1..], rest);
    } else {
      assert d + rest == rest;
    }
  }

  /** Two numeric strings are equal exactly when the numbers they parse to are. */
  lemma CompareNumeric(a: string, b: string, x: Decimal, y: Decimal)
    requires ParseNumeric(a) == Some(x) && ParseNumeric(b) == Some(y)
    ensures LooselyEqual(a, b) <==> SameNumber(x, y)
  {
  }

  lemma PointZeroUnsigned(d: string)
    requires IsDigits(d)
    ensures ParseUnsigned(d + ".0") == Some(Decimal(false, 10 * DigitsValue(d), -1))
  {
    var s := d + ".0";
    DigitRunAppend(d, ".0");
    assert DigitRun(".0") == 0;
    assert s[..|d|] == d && s[|d|..] == ".0";
    assert ".0"[1..] == "0" && DigitRun("0") == 1;
    assert "0"[..1] == "0" && "0"[1..] == [];
    assert ParseAfterWhole(d, ".0") == Assemble(d, "0", []);
    assert DigitsValue(d + "0") == 10 * DigitsValue(d) by {
      assert (d + "0")[..|d|] == d;
    }
  }

  /** Digits then ".0" parse to ten times the digits' value, in tenths. */
  lemma PointZeroParses(d: string)
    requires IsDigits(d)
    ensures ParseNumeric(d + ".0") == Some(Decimal(false, 10 * DigitsValue(d), -1))
  {
    var s := d + ".0";
    assert s[0] == d[0] && s[|s| - 1] == '0';
    UnsignedIsNumeric(s);
    PointZeroUnsigned(d);
  }

  lemma ExponentZeroUnsigned(d: string)
    requires IsDigits(d)
    ensures ParseUnsigned(d + "e0") == Some(Decimal(false, DigitsValue(d), 0))
  {
    var s := d + "e0";
    DigitRunAppend(d, "e0");
    assert DigitRun("e0") == 0;
    assert s[..|d|] == d && s[|d|..] == "e0";
    assert ParseExponent("e0") == Some(0) by {
      assert "e0"[1..] == "0" && DigitsValue("0") == 0;
    }
    assert ParseAfterWhole(d, "e0") == Assemble(d, [], "e0");
    assert d + [] == d;
  }

  /** Digits then "e0" parse to the digits' value. */
  lemma ExponentZeroParses(d: string)
    requires IsDigits(d)
    ensures ParseNumeric(d + "e0") == Some(Decimal(false, DigitsValue(d), 0))
  {
    var s := d + "e0";
    assert s[0] == d[0] && s[|s| - 1] == '0';
    UnsignedIsNumeric(s);
    ExponentZeroUnsigned(d);
  }

  /** `v` and `10 v` tenths are the same number. */
  lemma TenthsSame(v: nat)
    ensures SameNumber(Decimal(false, v, 0), Decimal(false, 10 * v, -1))
  {
    assert Pow10(1) == 10 && Pow10(0) == 1;
  }

  /** A digit string with ".0" after it is the same number: "1.0" equals "1". */
  lemma PointZeroIgnored(d: string)
    requires IsDigits(d)
    ensures LooselyEqual(d, d + ".0")
  {
    PointZeroParses(d);
    DigitStringIsNumeric(d);
    TenthsSame(DigitsValue(d));
    CompareNumeric(d, d + ".0", Decimal(false, DigitsValue(d), 0), Decimal(false, 10 * DigitsValue(d), -1));
  }

  /** A digit string with the exponent "e0" after it is the same number: "1e0" equals "1". */
  lemma ExponentZeroIgnored(d: string)
    requires IsDigits(d)
    ensures LooselyEqual(d, d + "e0")
  {
    ExponentZeroParses(d);
    DigitStringIsNumeric(d);
    CompareNumeric(d, d + "e0", Decimal(false, DigitsValue(d), 0), Decimal(false, DigitsValue(d), 0));
  }

  /** A `+` sign does not change the number: "+1" equals "1". */
  lemma PlusSignIgnored(d: string)
    requires IsDigits(d)
    ensures LooselyEqual(d, ['+'] + d)
  {
    DigitStringIsNumeric(d);
    SignedDigitsAreNumeric('+', d);
    CompareNumeric(d, ['+'] + d, Decimal(false, DigitsValue(d), 0), Decimal(false, DigitsValue(d), 0));
  }

  /** Two negative numbers are equal exactly when their digits have the same value, so leading
      zeros do not matter: "-01" equals "-1". */
  lemma NegativesCompareByValue(d: string, e: string)
    requires IsDigits(d) && IsDigits(e)
    ensures LooselyEqual(['-'] + d, ['-'] + e) <==> DigitsValue(d) == DigitsValue(e)
  {
    SignedDigitsAreNumeric('-', d);
    SignedDigitsAreNumeric('-', e);
    CompareNumeric(['-'] + d, ['-'] + e, Decimal(true, DigitsValue(d), 0), Decimal(true, DigitsValue(e), 0));
  }

  /** A `-` sign makes a different number, except on zero: "-0" equals "0", "-1" does not equal
      "1". */
  lemma MinusSignMatters(d: string)
    requires IsDigits(d)
    ensures LooselyEqual(d, ['-'] + d) <==> DigitsValue(d) == 0
  {
    DigitStringIsNumeric(d);
    SignedDigitsAreNumeric('-', d);
    CompareNumeric(d, ['-'] + d, Decimal(false, DigitsValue(d), 0), Decimal(true, DigitsValue(d), 0));
  }

  /** A digit string equals itself with whitespace before or after it: " 1" and "1 " equal
      "1". */
  lemma SpaceAroundNumberIgnored(s: string, c: char)
    requires IsSpace(c) && IsDigits(s)
    ensures LooselyEqual(s, [c] + s) && LooselyEqual(s, s + [c])
  {
    DigitStringIsNumeric(s);
    var x := ParseNumeric(s).value;
    LeadingSpaceIgnored(s, c);
    TrailingSpaceIgnored(s, c);
    SameNumberReflexiveSymmetric(x, x);
    CompareNumeric(s, [c] + s, x, x);
    CompareNumeric(s, s + [c], x, x);
  }

  /** A string with a letter after the digits is not numeric, so it compares byte by byte:
      "1a" does not equal "1". */
  lemma LetterMakesNonNumeric()
    ensures ParseNumeric("1a") == None && !LooselyEqual("1", "1a")
  {
    var s := "1a";
    assert TrimStart(s) == s && TrimEnd(s) == s;
    assert s[1..] == "a" && DigitRun("a") == 0 && DigitRun(s) == 1;
    assert ParseExponent("a") == None;
  }

  datatype CostForm = CostForm(source: Option<string>, destination: Option<string>,
                               startDate: Option<string>, endDate: Option<string>)

  /** What the page does with a request: the message it shows and whether it ran the two cost
      queries. */
  datatype FormResult = FormResult(message: string, queried: bool)

  const MissingFieldsMessage := "Please fill in all fields."
  const SameCompanyMessage := "Error: Source and destination companies must be different."
  const NoTransactionsMessage := "No transactions found between these companies in the specified date range."

  /** The POST branch. `found` stands for the cost query returning a row. */
  function HandleCostForm(isPost: bool, analyze: bool, form: CostForm, found: bool): (r: FormResult)
    ensures r.queried <==> (isPost && analyze && Filled(form.source) && Filled(form.destination)
      && Filled(form.startDate) && Filled(form.endDate)
      && !LooselyEqual(form.source.value, form.destination.value))
    ensures r.queried ==> form.source.value != form.destination.value
    ensures (isPost && analyze && !(Filled(form.source) && Filled(form.destination)
      && Filled(form.startDate) && Filled(form.endDate))) ==> r.message == MissingFieldsMessage
    ensures (isPost && analyze && Filled(form.source) && Filled(form.destination)
      && Filled(form.startDate) && Filled(form.endDate)
      && LooselyEqual(form.source.value, form.destination.value)) ==> r.message == SameCompanyMessage
    ensures r.queried && !found ==> r.message == NoTransactionsMessage
    ensures r.message == SameCompanyMessage ==> !r.queried
    ensures r.message == "" <==> !(isPost && analyze) || (r.queried && found)
  {
    if !(isPost && analyze) then FormResult("", false)
    else if Filled(form.source) && Filled(form.destination) && Filled(form.startDate) && Filled(form.endDate) then
      LooselyEqualReflexiveSymmetric(form.source.value, form.destination.value);
      if LooselyEqual(form.source.value, form.destination.value) then FormResult(SameCompanyMessage, false)
      else FormResult(if found then "" else NoTransactionsMessage, true)
    else FormResult(MissingFieldsMessage, false)
  }
}

=== FILE: transactions.dfy ===
/** setuo/create_data10.py, the inventory transaction loop: shipments (each a Shipping and a
    Receiving transaction) and adjustments, drawn until TransactionID 300 is used, charging
    each shipment to its manufacturer's capacity and keeping the inventory ledger. */
module Transactions {
  import opened Draws
  import opened Companies
  import opened Products
  import opened Ledgers

  const NumTransactions := 300
  const TransactionWeights: seq<nat> := [80, 20]
  /** The message of Python's `IndexError` from `random.choice` on an empty list. */
  const EmptyChoice := "Cannot choose from an empty sequence"

  datatype Option<T> = None | Some(value: T)

  /** A Shipping row (its Receiving row repeats the shipment's counter, TransactionID + 1, the
      destination, the actual day and the quantity), or an InventoryAdjustment row. */
  datatype Transaction =
    | Shipping(tid: int, shipmentId: int, distributorId: int, productId: int, sourceId: int,
               destId: int, promisedDay: int, actualDay: int, qty: int)
    | Adjustment(tid: int, companyId: int, productId: int, day: int, change: int)

  /** The TransactionIDs a record uses: two for a shipment, one for an adjustment. */
  function Width(t: Transaction): nat
  {
    if t.Shipping? then 2 else 1
  }

  function Span(txs: seq<Transaction>): nat
  {
    if txs == [] then 0 else Span(txs[..|txs| - 1]) + Width(txs[|txs| - 1])
  }

  function Shipments(txs: seq<Transaction>): nat
  {
    if txs == [] then 0 else Shipments(txs[..|txs| - 1]) + if txs[|txs| - 1].Shipping? then 1 else 0
  }

  /** Each record takes the next free TransactionID, and each shipment the next ShipmentID. */
  predicate Numbered(txs: seq<Transaction>)
  {
    txs == [] ||
    var init, t := txs[..|txs| - 1], txs[|txs| - 1];
    Numbered(init) && t.tid == 1 + Span(init) && (t.Shipping? ==> t.shipmentId == 1 + Shipments(init))
  }

  lemma SnocCounts(txs: seq<Transaction>, t: Transaction)
    ensures Span(txs + [t]) == Span(txs) + Width(t)
    ensures Shipments(txs + [t]) == Shipments(txs) + if t.Shipping? then 1 else 0
    ensures Numbered(txs + [t]) <==> (Numbered(txs) && t.tid == 1 + Span(txs)
      && (t.Shipping? ==> t.shipmentId == 1 + Shipments(txs)))
  {
    assert (txs + [t])[..|txs|] == txs;
  }

  /** Numbering hands out every TransactionID at most once, all from 1 up to the span: a
      shipment's Shipping and Receiving IDs and every later record's IDs do not overlap. */
  lemma {:induction false} NumberedIdsUnique(txs: seq<Transaction>)
    requires Numbered(txs)
    ensures forall i :: 0 <= i < |txs| ==> 1 <= txs[i].tid && txs[i].tid + Width(txs[i]) <= 1 + Span(txs)
    ensures forall i, j :: 0 <= i < j < |txs| ==> txs[i].tid + Width(txs[i]) <= txs[j].tid
  {
    if txs != [] {
      var init := txs[..|txs| - 1];
      NumberedIdsUnique(init);
      SnocCounts(init, txs[|txs| - 1]);
      assert txs == init + [txs[|txs| - 1]];
    }
  }

  /** ShipmentIDs run from 1 up to the number of shipments and strictly increase. */
  lemma {:induction false} NumberedShipmentIdsIncrease(txs: seq<Transaction>)
    requires Numbered(txs)
    ensures forall i :: 0 <= i < |txs| && txs[i].Shipping? ==> 1 <= txs[i].shipmentId <= Shipments(txs)
    ensures forall i, j :: 0 <= i < j < |txs| && txs[i].Shipping? && txs[j].Shipping? ==>
      txs[i].shipmentId < txs[j].shipmentId
  {
    if txs != [] {
      var init := txs[..|txs| - 1];
      NumberedShipmentIdsIncrease(init);
      SnocCounts(init, txs[|txs| - 1]);
      assert txs == init + [txs[|txs| - 1]];
    }
  }

  // ---- destinations ----

  /** The destination rule for a manufacturer's shipment: never the source itself; from tier 1
      only to tier-1 companies; from tier 2 to tier-2 companies or tier-1 Manufacturers; from
      tier 3 to tier-3 Manufacturers, tier-2 companies or tier-1 Manufacturers. */
  predicate DestAllowed(source: Company, c: Company)
  {
    c.id != source.id &&
    if source.tier == 3 then
      (c.tier == 3 && c.ctype == Manufacturer) || c.tier == 2 || (c.tier == 1 && c.ctype == Manufacturer)
    else if source.tier == 2 then
      c.tier == 2 || (c.tier == 1 && c.ctype == Manufacturer)
    else if source.tier == 1 then
      c.tier == 1
    else
      false
  }

  /** `possible_dest`. */
  function PossibleDest(cs: seq<Company>, source: Company): seq<int>
  {
    IdsWhere(cs, c => DestAllowed(source, c))
  }

  /** `distributors`. */
  function DistributorIds(cs: seq<Company>): seq<int>
  {
    IdsWhere(cs, (c: Company) => c.ctype == Distributor)
  }

  /** Goods never go to a Distributor, and never up the tiers: a destination's tier is at most
      the source's. */
  lemma DestNeverDistributor(cs: seq<Company>, source: Company, d: Company)
    requires WellFormed(cs) && source in cs && d in cs && DestAllowed(source, d)
    ensures d.ctype != Distributor && d.tier <= source.tier && d != source
  {
    CompanyBlocks(cs);
  }

  /** A tier-1 or tier-3 manufacturer always has somewhere to ship: a Retailer for tier 1,
      another Manufacturer for tier 3. */
  lemma DestinationsExist(cs: seq<Company>, source: Company)
    requires WellFormed(cs) && source in cs && source.ctype == Manufacturer && source.tier != 2
    ensures |PossibleDest(cs, source)| > 0
  {
    CompanyBlocks(cs);
    IdsWhereOfCompanies(cs, c => DestAllowed(source, c));
    assert CompanyOk(cs[36], 37) && CompanyOk(cs[0], 1) && CompanyOk(cs[1], 2);
    if source.tier == 1 {
      assert 37 in PossibleDest(cs, source);
    } else if source.id != 1 {
      assert 1 in PossibleDest(cs, source);
    } else {
      assert 2 in PossibleDest(cs, source);
    }
  }

  /** The tier of each company in a draw where company 1 is the only tier-2 Manufacturer and
      every other Manufacturer is tier 3. */
  function StrandingTier(id: int): int
  {
    if id == 1 then 2 else if TypeOf(id) == Retailer then 1 else 3
  }

  /** A tier-2 manufacturer can have nowhere to ship: when it is the only tier-2 company and no
      Manufacturer is tier 1, `possible_dest` is empty and `random.choice` raises. */
  lemma TierTwoSourceCanBeStranded()
    ensures exists cs: seq<Company> :: (WellFormed(cs) && cs[0].ctype == Manufacturer && cs[0].tier == 2
      && PossibleDest(cs, cs[0]) == [])
  {
    var cs := seq(NumCompanies, i => Company(i + 1, TypeOf(i + 1), StrandingTier(i + 1), 1));
    assert WellFormed(cs);
    forall i | 0 <= i < |cs| ensures !DestAllowed(cs[0], cs[i]) {
      assert CompanyOk(cs[i], i + 1);
    }
    IdsWhereNone(cs, c => DestAllowed(cs[0], c));
  }

  lemma DistributorIdsOfCompanies(cs: seq<Company>)
    requires WellFormed(cs)
    ensures |DistributorIds(cs)| > 0
    ensures forall d :: d in DistributorIds(cs) <==> 1 <= d <= NumCompanies && cs[d - 1].ctype == Distributor
  {
    IdsWhereOfCompanies(cs, (c: Company) => c.ctype == Distributor);
    assert CompanyOk(cs[59], 60);
    assert 60 in DistributorIds(cs);
  }

  // ---- what the records satisfy ----

  /** Each product has a manufacturer list of Manufacturer ids. */
  ghost predicate ProductsOk(manufacturers: map<int, seq<int>>)
  {
    (forall pid :: pid in manufacturers <==> 1 <= pid <= NumProducts)
    && forall pid, m :: pid in manufacturers && m in manufacturers[pid] ==> 1 <= m <= NumManufacturers
  }

  predicate TxOk(cs: seq<Company>, manufacturers: map<int, seq<int>>, t: Transaction)
    requires WellFormed(cs)
  {
    match t
    case Shipping(_, _, distributorId, productId, sourceId, destId, promisedDay, actualDay, qty) =>
      productId in manufacturers && 1 <= productId <= NumProducts && sourceId in manufacturers[productId]
      && 1 <= sourceId <= NumManufacturers && 1 <= destId <= NumCompanies
      && DestAllowed(cs[sourceId - 1], cs[destId - 1])
      && 1 <= distributorId <= NumCompanies && cs[distributorId - 1].ctype == Distributor
      && 1 <= promisedDay < NumDays + 30 && promisedDay <= actualDay <= promisedDay + 5
      && 1 <= qty <= 500
    case Adjustment(_, companyId, productId, day, change) =>
      1 <= companyId <= NumCompanies && 1 <= productId <= NumProducts && 0 <= day < NumDays
      && -50 <= change <= 50
  }

  /** The quantity shipped out of manufacturer `m` by the records. */
  function Shipped(txs: seq<Transaction>, m: int): int
  {
    if txs == [] then 0
    else
      var t := txs[|txs| - 1];
      Shipped(txs[..|txs| - 1], m) + if t.Shipping? && t.sourceId == m then t.qty else 0
  }

  /** What a record adds to company `c`'s stock of product `p`. */
  function Delta(t: Transaction, c: int, p: int): int
  {
    match t
    case Shipping(_, _, _, productId, _, destId, _, _, qty) => if destId == c && productId == p then qty else 0
    case Adjustment(_, companyId, productId, _, change) => if companyId == c && productId == p then change else 0
  }

  /** Company `c`'s stock of product `p` according to the records. */
  function Balance(txs: seq<Transaction>, c: int, p: int): int
  {
    if txs == [] then 0 else Balance(txs[..|txs| - 1], c, p) + Delta(txs[|txs| - 1], c, p)
  }

  lemma SnocLedgers(txs: seq<Transaction>, t: Transaction)
    ensures forall m :: Shipped(txs + [t], m) == Shipped(txs, m) + if t.Shipping? && t.sourceId == m then t.qty else 0
    ensures forall c, p :: Balance(txs + [t], c, p) == Balance(txs, c, p) + Delta(t, c, p)
  {
    assert (txs + [t])[..|txs|] == txs;
  }

  /** Usage is what the records shipped out of each manufacturer. */
  ghost predicate UsageMatches(used: map<int, int>, txs: seq<Transaction>)
  {
    forall m :: m in used ==> used[m] == Shipped(txs, m)
  }

  /** Stock is what the records received plus the adjustments. */
  ghost predicate StockMatches(inv: InventoryLedger, txs: seq<Transaction>)
    reads inv
  {
    forall c, p :: inv.Get(c, p) == Balance(txs, c, p)
  }

  /** The two ledgers agree with the records. */
  ghost predicate Tracks(caps: CapacityLedger, inv: InventoryLedger, txs: seq<Transaction>)
    reads caps, inv
  {
    UsageMatches(caps.used, txs) && StockMatches(inv, txs)
  }

  /** Charging a shipment's quantity to its source keeps usage in step with the records. */
  lemma UsageStep(used: map<int, int>, txs: seq<Transaction>, t: Transaction)
    requires UsageMatches(used, txs) && t.Shipping? && t.sourceId in used
    ensures UsageMatches(used[t.sourceId := used[t.sourceId] + t.qty], txs + [t])
  {
    SnocLedgers(txs, t);
  }

  /** A record that leaves usage alone keeps it in step with the records. */
  lemma UsageUntouched(used: map<int, int>, txs: seq<Transaction>, t: Transaction)
    requires UsageMatches(used, txs) && t.Adjustment?
    ensures UsageMatches(used, txs + [t])
  {
    SnocLedgers(txs, t);
  }

  ghost predicate CapacityKeys(caps: CapacityLedger)
    reads caps
  {
    forall m :: m in caps.capacity <==> 1 <= m <= NumManufacturers
  }

  /** `random.choice(possible_dest)`, raising when the list is empty. */
  method PickDestination(rng: Oracle, cs: seq<Company>, source: Company) returns (r: Result<int>)
    requires WellFormed(cs)
    modifies rng
    ensures r.Raised? <==> PossibleDest(cs, source) == []
    ensures r.Raised? ==> r.error == EmptyChoice
    ensures r.Ok? ==> 1 <= r.value <= NumCompanies && DestAllowed(source, cs[r.value - 1])
  {
    var possibleDest := PossibleDest(cs, source);
    if possibleDest == [] {
      return Raised(EmptyChoice);
    }
    var destId := rng.Choice(possibleDest);
    IdsWhereOfCompanies(cs, c => DestAllowed(source, c));
    r := Ok(destId);
  }

  /** `random.choice(distributors)` over the Distributor ids. */
  method PickDistributor(rng: Oracle, cs: seq<Company>) returns (distributorId: int, distributors: seq<int>)
    requires WellFormed(cs)
    modifies rng
    ensures distributors == DistributorIds(cs)
    ensures 1 <= distributorId <= NumCompanies && cs[distributorId - 1].ctype == Distributor
  {
    distributors := DistributorIds(cs);
    DistributorIdsOfCompanies(cs);
    distributorId := rng.Choice(distributors);
  }

  /** A random day, the promised day 1 to 30 days after it, the actual day 0 to 5 days after
      that. */
  method PickDates(rng: Oracle) returns (promised: int, actual: int)
    modifies rng
    ensures 1 <= promised < NumDays + 30 && promised <= actual <= promised + 5
  {
    var day := rng.RandInt(0, NumDays - 1);
    var lead := rng.RandInt(1, 30);
    promised := day + lead;
    var late := rng.RandInt(0, 5);
    actual := promised + late;
  }

  /** The start of a Shipping branch: a product, one of its manufacturers (failing exactly when
      it has none, where `random.choice` raises), and the drawn quantity clamped against and
      charged to that manufacturer. */
  method Charge(rng: Oracle, manufacturers: map<int, seq<int>>, caps: CapacityLedger)
    returns (ok: bool, productId: int, sourceId: int, draw: int, qty: int)
    requires ProductsOk(manufacturers) && caps.Valid() && CapacityKeys(caps)
    modifies rng, caps
    ensures caps.Valid()
    ensures productId in manufacturers && 1 <= productId <= NumProducts
    ensures ok <==> manufacturers[productId] != []
    ensures !ok ==> caps.used == old(caps.used)
    ensures ok ==> sourceId in manufacturers[productId] && 1 <= sourceId <= NumManufacturers
    ensures ok ==> 10 <= draw <= 500 && qty == Allocated(draw, caps.capacity[sourceId] - old(caps.used)[sourceId])
    ensures ok ==> 1 <= qty <= 500
    ensures ok ==> sourceId in old(caps.used) && caps.used == old(caps.used)[sourceId := old(caps.used)[sourceId] + qty]
  {
    productId := rng.RandInt(1, NumProducts);
    var makers := manufacturers[productId];
    if makers == [] {
      return false, productId, 0, 0, 0;
    }
    sourceId := rng.Choice(makers);
    draw := rng.RandInt(10, 500);
    qty := caps.Allocate(sourceId, draw);
    AllocationBounds(draw, old(caps.Available(sourceId)));
    ok := true;
  }

  /** A manufacturer with nowhere to ship is a tier-2 Manufacturer. */
  lemma StrandedIsTierTwo(cs: seq<Company>, m: int)
    requires WellFormed(cs) && 1 <= m <= NumManufacturers && PossibleDest(cs, cs[m - 1]) == []
    ensures cs[m - 1].ctype == Manufacturer && cs[m - 1].tier == 2
  {
    CompanyBlocks(cs);
    assert cs[m - 1] in cs;
    if cs[m - 1].tier != 2 {
      DestinationsExist(cs, cs[m - 1]);
    }
  }

  /** The ways a shipment can raise: some product has no manufacturer, or some product's
      manufacturer is a tier-2 Manufacturer with no possible destination. */
  ghost predicate ShipmentCanRaise(cs: seq<Company>, manufacturers: map<int, seq<int>>)
    requires WellFormed(cs)
  {
    (exists p :: p in manufacturers && manufacturers[p] == [])
    || exists p, m :: p in manufacturers && m in manufacturers[p] && 1 <= m <= NumManufacturers
         && cs[m - 1].tier == 2 && PossibleDest(cs, cs[m - 1]) == []
  }

  /** One Shipping branch: product, manufacturer, clamped quantity, destination, distributor,
      dates, and the receipt into the destination's stock. */
  method ShipOnce(rng: Oracle, cs: seq<Company>, manufacturers: map<int, seq<int>>,
                  caps: CapacityLedger, inv: InventoryLedger, tid: int, counter: int,
                  ghost txs: seq<Transaction>)
    returns (r: Result<Transaction>, productId: int, sourceId: int, distributors: seq<int>)
    requires WellFormed(cs) && ProductsOk(manufacturers)
    requires caps.Valid() && CapacityKeys(caps) && inv.NonNegative() && Tracks(caps, inv, txs)
    modifies rng, caps, inv
    ensures caps.Valid()
    ensures productId in manufacturers && 1 <= productId <= NumProducts
    ensures manufacturers[productId] != [] ==> sourceId in manufacturers[productId] && 1 <= sourceId <= NumManufacturers
    ensures r.Raised? <==> manufacturers[productId] == [] || PossibleDest(cs, cs[sourceId - 1]) == []
    ensures r.Raised? ==> r.error == EmptyChoice
    ensures r.Raised? && manufacturers[productId] != [] ==> cs[sourceId - 1].ctype == Manufacturer && cs[sourceId - 1].tier == 2
    ensures r.Ok? ==> r.value.Shipping? && r.value.productId == productId && r.value.sourceId == sourceId
    ensures r.Ok? ==> r.value.Shipping? && r.value.tid == tid && r.value.shipmentId == counter
    ensures r.Ok? ==> TxOk(cs, manufacturers, r.value) && inv.NonNegative() && Tracks(caps, inv, txs + [r.value])
    ensures r.Ok? ==> distributors == DistributorIds(cs)
  {
    distributors := [];
    var ok, draw, qty;
    ok, productId, sourceId, draw, qty := Charge(rng, manufacturers, caps);
    if !ok {
      r := Raised(EmptyChoice);
      return;
    }
    var dest := PickDestination(rng, cs, cs[sourceId - 1]);
    if dest.Raised? {
      StrandedIsTierTwo(cs, sourceId);
      r := Raised(dest.error);
      return;
    }
    var destId := dest.value;
    var distributorId;
    distributorId, distributors := PickDistributor(rng, cs);
    var promised, actual := PickDates(rng);
    var t := Shipping(tid, counter, distributorId, productId, sourceId, destId, promised, actual, qty);
    assert TxOk(cs, manufacturers, t) by {
      assert productId in manufacturers && 1 <= productId <= NumProducts && sourceId in manufacturers[productId];
      assert 1 <= sourceId <= NumManufacturers && 1 <= destId <= NumCompanies;
      assert DestAllowed(cs[sourceId - 1], cs[destId - 1]);
      assert 1 <= distributorId <= NumCompanies && cs[distributorId - 1].ctype == Distributor;
      assert 1 <= promised < NumDays + 30 && promised <= actual <= promised + 5;
      assert 1 <= qty <= 500;
    }
    UsageStep(old(caps.used), txs, t);
    Receive(inv, t, txs);
    r := Ok(t);
  }

  /** The inventory update of a record: its change lands on its company and product. */
  method Receive(inv: InventoryLedger, t: Transaction, ghost txs: seq<Transaction>)
    requires StockMatches(inv, txs) && inv.NonNegative()
    requires t.Shipping? ==> t.qty >= 1
    requires t.Adjustment? ==> inv.Get(t.companyId, t.productId) + t.change >= 0
    modifies inv
    ensures StockMatches(inv, txs + [t]) && inv.NonNegative()
  {
    var c := if t.Shipping? then t.destId else t.companyId;
    var delta := if t.Shipping? then t.qty else t.change;
    inv.NonNegativeReads(c, t.productId);
    inv.Add(c, t.productId, delta);
    SnocLedgers(txs, t);
  }

  /** One Adjustment branch: a company, a product, a drawn change clamped so the stock does not
      go below zero. */
  method AdjustOnce(rng: Oracle, cs: seq<Company>, manufacturers: map<int, seq<int>>,
                    caps: CapacityLedger, inv: InventoryLedger, tid: int, ghost txs: seq<Transaction>)
    returns (t: Transaction, draw: int)
    requires WellFormed(cs) && inv.NonNegative() && Tracks(caps, inv, txs)
    modifies rng, inv
    ensures t.Adjustment? && t.tid == tid
    ensures -50 <= draw <= 50 && t.change == Clamped(old(inv.Get(t.companyId, t.productId)), draw)
    ensures TxOk(cs, manufacturers, t) && inv.NonNegative() && Tracks(caps, inv, txs + [t])
  {
    var companyId := rng.Choice(IdsWhere(cs, c => true));
    IdsWhereOfCompanies(cs, c => true);
    var productId := rng.RandInt(1, NumProducts);
    draw := rng.RandInt(-50, 50);
    var current := inv.Get(companyId, productId);
    inv.NonNegativeReads(companyId, productId);
    AdjustmentNeverNegative(current, draw);
    var change := Clamped(current, draw);
    var day := rng.RandInt(0, NumDays - 1);
    t := Adjustment(tid, companyId, productId, day, change);
    UsageUntouched(caps.used, txs, t);
    Receive(inv, t, txs);
  }

  /** What the transaction loop leaves behind. */
  datatype Stage = Stage(txs: seq<Transaction>, tid: int, shipmentCounter: int,
                         receivingCounter: int, distributors: Option<seq<int>>)

  /** Every record obeys its rules, the records are numbered consecutively, the loop stopped
      with `tid` at 301 or 302 (a shipment may use TransactionIDs 300 and 301), both counters
      stand one past the number of shipments, and `distributors` is bound exactly when some
      shipment ran. */
  predicate StageOk(cs: seq<Company>, manufacturers: map<int, seq<int>>, s: Stage)
    requires WellFormed(cs)
  {
    (forall t :: t in s.txs ==> TxOk(cs, manufacturers, t))
    && Numbered(s.txs)
    && s.tid == 1 + Span(s.txs) && (s.tid == NumTransactions + 1 || s.tid == NumTransactions + 2)
    && s.shipmentCounter == 1 + Shipments(s.txs) && s.receivingCounter == s.shipmentCounter
    && (s.distributors.Some? <==> Shipments(s.txs) > 0)
    && (s.distributors.Some? ==> s.distributors.value == DistributorIds(cs))
  }

  /** The `while tid <= NUM_TRANSACTIONS` loop. It raises when a drawn product has no
      manufacturer or a shipment has no possible destination, which needs one of the lists or
      the companies to allow it. */
  method RunTransactions(rng: Oracle, cs: seq<Company>, manufacturers: map<int, seq<int>>,
                         caps: CapacityLedger, inv: InventoryLedger)
    returns (r: Result<Stage>)
    requires WellFormed(cs) && ProductsOk(manufacturers)
    requires caps.Valid() && CapacityKeys(caps) && forall m :: m in caps.used ==> caps.used[m] == 0
    requires inv.inventory == map[]
    modifies rng, caps, inv
    ensures caps.Valid()
    ensures r.Raised? ==> r.error == EmptyChoice && ShipmentCanRaise(cs, manufacturers)
    ensures r.Ok? ==> StageOk(cs, manufacturers, r.value) && inv.NonNegative() && Tracks(caps, inv, r.value.txs)
  {
    var txs: seq<Transaction> := [];
    var tid := 1;
    var shipmentCounter, receivingCounter := 1, 1;
    var distributors: Option<seq<int>> := None;
    while tid <= NumTransactions
      invariant caps.Valid() && inv.NonNegative() && Tracks(caps, inv, txs)
      invariant forall t :: t in txs ==> TxOk(cs, manufacturers, t)
      invariant Numbered(txs) && tid == 1 + Span(txs) && tid <= NumTransactions + 2
      invariant shipmentCounter == 1 + Shipments(txs) && receivingCounter == shipmentCounter
      invariant distributors.Some? <==> Shipments(txs) > 0
      invariant distributors.Some? ==> distributors.value == DistributorIds(cs)
      decreases NumTransactions + 1 - tid
    {
      assert Total(TransactionWeights) == 100 by {
        assert TransactionWeights[..1] == [80] && [80][..0] == [];
      }
      var kind := rng.WeightedIndex(TransactionWeights);
      var t;
      if kind == 0 {
        var res, productId, sourceId, ds := ShipOnce(rng, cs, manufacturers, caps, inv, tid, shipmentCounter, txs);
        if res.Raised? {
          if manufacturers[productId] != [] {
            assert sourceId in manufacturers[productId];
          }
          r := Raised(res.error);
          return;
        }
        t := res.value;
        distributors := Some(ds);
        shipmentCounter, receivingCounter := shipmentCounter + 1, receivingCounter + 1;
        tid := tid + 2;
      } else {
        var draw;
        t, draw := AdjustOnce(rng, cs, manufacturers, caps, inv, tid, txs);
        tid := tid + 1;
      }
      SnocCounts(txs, t);
      txs := txs + [t];
    }
    r := Ok(Stage(txs, tid, shipmentCounter, receivingCounter, distributors));
  }
}
